=== FILE: README.md ===
# apptech-flower-api, modelled in Dafny

A model of the request-handling core of a flower-shop marketplace API. Buyers
keep one pending order, their cart, and add products to it. Submitting the cart
freezes each line's price and hands the items to the shops that sell them.
Sellers register a shop and manage their products. A seller moves the items of
their own shop through delivery. Administrators log in, accept shops, block
users, reset passwords and mark orders paid.

The database is a `Store`: one map per collection, keyed by id. Every HTTP
handler is a function from a store and a request to a `Handled` value. That
value holds the new store, the response (its kind plus the message tags the
code resolves with), the returned data, and the side effects the handler asks
for: e-mails, SMS, shop notifications and image confirmation.

Modules:

- `Common`: options, JavaScript truthiness, statuses, response kinds and
  message tags, ObjectId syntax, first-match search.
- `Models`: the persisted entities, Mongoose defaults and validation of
  `Product` and `OrderItem`, the product pre-save hook, `findShopOfUser`.
- `JsNumbers`: `parseInt` and `toString` on the query values the admin list
  handlers read.
- `Schemas`: the Joi request schemas, including Joi's rejection of
  undeclared keys.
- `Orders`: `OrderController`. This covers reading orders and items, the
  one-cart rule, adding one or many products, submitting, and the shipping
  preview.
- `OrderItems`: `OrderItemController`. The buyer's quantity edit and the
  seller's status change.
- `Products`: `ProductController`. Adding and updating a product (with its
  sale recomputation), and the bulk status change, which is written as a
  loop.
- `ShopService`: the Sequelize queries and Mongo aggregation stages the shop
  service builds, and `updateShop`.
- `AddressService`: address builders, the two update patches, and the
  city/district/ward lookups.
- `Shops`: `ShopController`. Registration and the slug check.
- `AdminOrders`, `AdminUsers`: the admin controllers.

Some handlers look a document up by a field other than its id. Examples are
the pending order of a user, the cart line of a product, and the user with a
given e-mail or username. Those handlers are `ghost` functions: the lookup is
a choice among the matching documents. When at most one document matches,
the choice is determined. The lemmas state exactly when they rely on that.

The source is halfway between two databases. `ShopService` reads and writes
the SQL `SHOPS` and users tables through Sequelize: a shop row has an integer
`id` and no `_id`, and a user row carries the `shopsId` link. The slug check,
the shop acceptance and the user block read and write the Mongo shop and user
collections, and products, orders and items live in Mongo. The model keeps
one store in which a shop and its owner are each one record, which is the
design the handlers are written against. Where a handler reads `shop._id`
from the SQL row, which throws, the model has a member as written besides
the one used elsewhere (see "## Findings").

Several handlers receive only the verdict of a schema that is not modelled
field by field. They take it as the parameter `bodyValid` or `queryValid`.

Some events cannot be answered:
- An invalid ObjectId reaches a query outside `try`. The promise is never
  settled, and the response kind is `NoAnswer`.
- Inside `try`, the same error becomes a 500 (`Crash`).
- In the shipping preview, a shop with no address makes the handler throw.
  Its `catch` then throws again while reading the error, so that request is
  never answered either.

## Model

| member | source | states |
|---|---|---|
| Common.FirstIndex | src/services/address.service.ts:229-246 | the index found holds the first element satisfying the predicate; none is found exactly when no element satisfies it |
| Common.Find | src/services/address.service.ts:229-246 | an element is found iff one satisfies the predicate, and it is the first such element of the sequence |
| Models.SaveProduct | src/models/product.ts:4-7 | saving a product stamps `updatedAt` with the current time and changes nothing else |
| Models.NewOrderItem | src/models/order-item.ts:16-70 | an order item is created iff order, shop and product are given; quantity defaults to 1 and status to NEW; price, total and discount start empty |
| Models.OrderItemDefaults | src/models/order-item.ts:42-55 | leaving quantity and status out is the same as passing 1 and NEW |
| Models.NewProduct | src/models/product.ts:4-78 | a product is created iff its required fields are present; the original price defaults to 0; every given field is kept as given; `createdAt` is the instant the schema was declared and `updatedAt` the save time |
| Models.ProductDefaults | src/models/product.ts:25-59 | leaving the original price out is the same as passing 0, and the optional fields never decide whether a product is accepted |
| JsNumbers.CharOf | src/controllers/admin/AdminOrderController.ts:59-61 | the character written for a digit is a decimal digit that reads back as that digit |
| JsNumbers.LeadingDigits | src/controllers/admin/AdminOrderController.ts:59-61 | counts the maximal run of leading decimal digits: all counted are digits and the next character is not |
| JsNumbers.ParseInt | src/controllers/admin/AdminOrderController.ts:59-61 | `parseInt` is NaN exactly when no digit follows the optional sign; a leading minus gives a non-positive value, otherwise non-negative |
| JsNumbers.Show | src/controllers/admin/AdminOrderController.ts:59-60 | `toString` of a non-negative integer is a non-empty string of decimal digits |
| JsNumbers.ShowValue | src/controllers/admin/AdminOrderController.ts:59-60 | the digits written for a number denote that number |
| JsNumbers.ParseShow | src/controllers/admin/AdminOrderController.ts:59-60 | `parseInt` inverts `toString`, with or without a minus sign |
| JsNumbers.ParseDigits | src/controllers/admin/AdminOrderController.ts:59-61 | a non-empty run of digits parses to its value, and with a minus sign to its negation |
| JsNumbers.ParseUnsigned | src/controllers/admin/AdminOrderController.ts:59-61 | a string of digits alone parses to its value |
| JsNumbers.ParseNegated | src/controllers/admin/AdminOrderController.ts:59-61 | a minus sign before a string of digits negates its value |
| JsNumbers.ParseMinus | src/controllers/admin/AdminOrderController.ts:59-61 | a minus sign followed only by digits parses to the negated value of those digits |
| JsNumbers.AllDigitsLeading | src/controllers/admin/AdminOrderController.ts:59-61 | in a string made only of digits, every character counts toward the leading digits |
| JsNumbers.ParseIgnoresTail | src/controllers/admin/AdminOrderController.ts:59-61 | characters after the digits do not change the parsed value (`"12px"` reads 12) |
| JsNumbers.LeadingDigitsOfPrefix | src/controllers/admin/AdminOrderController.ts:59-61 | a run of digits followed by a non-digit is exactly the leading-digit prefix |
| JsNumbers.ParseOr | src/controllers/admin/AdminOrderController.ts:59-60 | an absent or empty query value yields the default number; any other is parsed as written |
| JsNumbers.ParseIfPresent | src/controllers/admin/AdminOrderController.ts:61 | a value is produced only for a truthy query string (so `"0"` still parses), and then it is `parseInt` of it |
| Schemas.ItemStatusRequestShape | src/validation-schemas/order-item/update-order-item-status.schema.ts:4-7 | a valid request names ON_DELIVERY or FINISHED, never NEW or PROCESSING, and lists at least one item |
| Schemas.GuestOrderGuarantees | src/validation-schemas/order/submit-no-login-order.schema.ts:3-28 | a valid guest order has a receiver with a name of at least 3 characters, a 10-11 digit phone and coordinates, lines naming product and quantity, and a delivery time |
| Schemas.GuestQuantityUnbounded | src/validation-schemas/order/submit-no-login-order.schema.ts:11-14 | the schema accepts a negative quantity and an order with no lines |
| Schemas.ProductUpdateSchemaWidened | src/validation-schemas/product/update-one.schema.ts:3-25 | the corrected update schema accepts everything the written one does, and they agree on bodies without the sale keys |
| Schemas.EmptyUpdateIsValid | src/validation-schemas/product/update-one.schema.ts:3-25 | every key of a product update is optional: the empty body passes both schemas |
| Schemas.ShopRegisterGuarantees | src/validation-schemas/shop/shop-register.schema.ts:9-19 | a valid registration carries a non-empty name and slug, images, the shipping flag, an address and coordinates; each area names a city |
| Schemas.LoginShape | src/validation-schemas/user/login.schema.ts:2-6 | a valid login has only the three declared keys, each within its length bounds, all optional |
| Schemas.GoogleLoginShape | src/validation-schemas/user/login-google.schema.ts:3-7 | a Google login is valid iff exactly the three declared keys are present and within bounds |
| Orders.EffectivePriceRule | src/controllers/OrderController.ts:342 | the price charged is the sale price when the sale is active and the original price otherwise |
| Orders.GetOrder | src/controllers/OrderController.ts:57-91 | a missing result answers NOT_FOUND; an item whose populated product is null leaves the request unanswered; otherwise every order is listed, in order, with its item list replaced by one product title per item, and nothing else is answered |
| Orders.GetOrderConcat | src/controllers/OrderController.ts:57-91 | two result pages together leave the request unanswered iff one of them does; otherwise their listing is the two listings one after the other |
| Orders.SummaryKeepsTitlesOnly | src/controllers/OrderController.ts:57-91 | two orders whose products all have titles are listed alike iff they agree on id, order and the sequence of product titles |
| Orders.GetOrderItem | src/controllers/OrderController.ts:145-182 | no order id answers NOT_FOUND and an id that is not an ObjectId a 500; otherwise exactly the items of that order are shown, each with its product's current title, images, original price and sale-off and priced at its effective price, every other field of the item kept (an item whose product is gone is shown as stored), and nothing changes |
| Orders.CartOf | src/controllers/OrderController.ts:254-258 | the cart found is a pending order of the user, and one is found iff the user has one |
| Orders.GetOrCreateCart | src/controllers/OrderController.ts:254-258 | returns the user's existing cart, or a new empty pending order under a fresh id and adds nothing else |
| Orders.LineOf | src/controllers/OrderController.ts:270-275 | the line found belongs to the cart and carries the product, and one is found iff such a line exists |
| Orders.PutLine | src/controllers/OrderController.ts:270-275 | an existing line of the product takes the new quantity; without one, a positive quantity creates a NEW line under the fresh id for the product's shop and a non-positive one writes nothing; other items are untouched |
| Orders.NewLine | src/controllers/OrderController.ts:271-272 | the line `addItem` creates is a NEW, unpriced line of the cart for the product and its shop, with the requested quantity |
| Orders.AddOne | src/controllers/OrderController.ts:237-285 | an invalid body is BAD_REQUEST and changes nothing; a product id that is not an ObjectId is a 500 and an unknown product PRODUCT_NOT_FOUND; both leave the items unchanged, though a missing cart is still created; otherwise the product's line in the user's cart holds the requested quantity; a request with no line and a non-positive quantity is a 500 |
| Orders.AddOneKeepsOneCart | src/controllers/OrderController.ts:254-258 | adding a product never gives a user a second pending order |
| Orders.ApplyEntry | src/controllers/OrderController.ts:213-229 | an entry naming a known product is applied when the cart already has its line or the quantity is positive; any other entry changes nothing |
| Orders.AddEntries | src/controllers/OrderController.ts:213-229 | applying the entries one by one keeps every existing line and the single cart |
| Orders.LinesPersist | src/controllers/OrderController.ts:213-229 | a line present before adding entries is still present after |
| Orders.AppliedAreKnownEntries | src/controllers/OrderController.ts:213-229 | every line added by a batch comes from an entry of the batch naming a known product |
| Orders.AppliedCons | src/controllers/OrderController.ts:213-229 | a batch's results are the head entry's result before the tail's, each from an entry of the batch |
| Orders.PositiveEntriesApplied | src/controllers/OrderController.ts:213-229 | every entry with a known product and positive quantity ends up as a line of the cart |
| Orders.ShiftedWitness | src/controllers/OrderController.ts:213-229 | an entry of the tail of a batch is an entry of the batch |
| Orders.AddMany | src/controllers/OrderController.ts:197-229 | an invalid body is BAD_REQUEST and changes nothing; every valid request is answered OK; every applied entry names a known product, every entry with a known product and positive quantity is applied, and existing items remain |
| Orders.Finalize | src/controllers/OrderController.ts:338-364 | the order's items become PROCESSING with the price frozen at their product's effective price and the given shipping cost and discount; the order becomes SUBMITTED with the delivery data and the given total; every other item, order and collection is unchanged |
| Orders.SubmittedItem | src/controllers/OrderController.ts:338-358 | one submitted item: PROCESSING, priced when its product is found and left unpriced otherwise, with its shipping cost and discount, quantity and product kept |
| Orders.SubmitItems | src/controllers/OrderController.ts:338-358 | exactly the items of the submitted order are submitted; every other item is kept |
| Orders.SubmitAsWritten | src/controllers/OrderController.ts:305-370 | the handler as written: an invalid body is BAD_REQUEST and a missing cart NOT_FOUND, both changing nothing; an empty cart is answered NOT_FOUND yet finalized |
| Orders.EmptyCartIsFinalizedAnyway | src/controllers/OrderController.ts:326-333 | with an empty cart the written handler answers NOT_FOUND and still marks the order submitted |
| Orders.Submit | src/controllers/OrderController.ts:305-387 | succeeds iff the body is valid and the user has a cart holding items, which is then finalized; otherwise BAD_REQUEST or NOT_FOUND and nothing changes |
| Orders.SubmitAgreesOnNonEmptyCarts | src/controllers/OrderController.ts:305-387 | the corrected and the written handler agree on an invalid body and whenever the cart has items |
| Orders.ResubmitIsNotFound | src/controllers/OrderController.ts:319-320 | after a successful submit the user has no cart, so a second submit is NOT_FOUND |
| Orders.ShownPriceIsFrozenPrice | src/controllers/OrderController.ts:167-173 | viewed just before submission, a cart line shows exactly the price submission then stores on it |
| Orders.ViewRepricesAfterSubmit | src/controllers/OrderController.ts:167-173 | after submission, a change of the product's effective price changes the price the item view shows, which then differs from the stored frozen price |
| Orders.FrozenItemView | src/controllers/OrderController.ts:167-173 | an item that carries a price shows that price; everything else is the view as written |
| Orders.GetOrderItemFrozen | src/controllers/OrderController.ts:145-182 | the item view with stored prices kept: same answers, the 500 for a malformed id included, and same items as the view as written |
| Orders.FrozenPriceIsShown | src/controllers/OrderController.ts:338-346 | with stored prices kept, a submitted item shows its frozen price whatever the catalog holds later |
| Orders.FrozenViewAgreesOnCarts | src/controllers/OrderController.ts:145-182 | on an order whose items carry no price, such as a cart, the corrected view equals the view as written |
| Orders.OriginOf | src/controllers/OrderController.ts:447-487 | the origin found is the shop's address, and one is found iff the shop has one |
| Orders.ShippingPreview | src/controllers/OrderController.ts:433-499 | an invalid body is BAD_REQUEST; an order id that is not an ObjectId leaves the request unanswered; a missing order is NOT_FOUND and a non-pending one WRONG_STATUS; an item whose shop has no address leaves the request unanswered; otherwise each item is costed from its shop's address to the destination; nothing is saved |
| Orders.SameShopSameShipping | src/controllers/OrderController.ts:447-487 | two items of the same shop get the same shipping cost |
| Orders.PreviewMatchesItemView | src/controllers/OrderController.ts:470-487 | a successful preview covers exactly the items the item view lists, keeps their quantities, and leaves the item view as it was |
| OrderItems.UpdateOrderItem | src/controllers/OrderItemController.ts:28-83 | in order: schema, id syntax, a missing item, a non-NEW item; only a NEW item gets the new quantity, and nothing else changes |
| OrderItems.SubmittedItemsAreLocked | src/controllers/OrderItemController.ts:64-69 | after an order is submitted, a quantity edit on any of its items is refused with ORDER_SUBMITTED |
| OrderItems.UpdateOrderItemStatus | src/controllers/OrderItemController.ts:99-165 | the status is written iff the request is valid, the item exists and belongs to the seller's active shop |
| OrderItems.NonOwnerSeesNoItem | src/controllers/OrderItemController.ts:136-153 | a seller who does not own the item gets the same NOT_FOUND as for a missing item, and nothing changes |
| OrderItems.UpdateOrderItemStatusAsWritten | src/controllers/OrderItemController.ts:99-172 | as written: the same refusals up to the shop lookup; once a shop is found, reading `shop._id` of the SQL row throws and the `catch` throws again, so the request is never answered and nothing is written |
| OrderItems.AsWrittenSellerHangs | src/controllers/OrderItemController.ts:136-167 | the item's own seller, whom the corrected handler serves, and a seller of another shop get no answer as written; every other request is answered alike |
| OrderItems.SellerNeverReopensItem | src/validation-schemas/order-item/update-order-item-status.schema.ts:5 | a seller's successful change leaves the item ON_DELIVERY or FINISHED |
| Products.AddProductAsWritten | src/controllers/ProductController.ts:339-352 | as written: the same refusals, and every request that passes them is a 500, because `shop._id` of the SQL shop row is undefined; nothing is created |
| Products.AsWrittenSellerCannotAdd | src/controllers/ProductController.ts:339-352 | a product the corrected handler accepts is a 500 as written, and every other request is answered alike by both |
| Products.AddProduct | src/controllers/ProductController.ts:296-382 | an invalid body is BAD_REQUEST; only a seller with an active shop may add; a sale price above the original is refused; every null-defaulted field of the draft, dates included, is present iff the request's value is truthy, the other fields pass through or default to empty lists; the images are confirmed only if present |
| Products.Draft | src/controllers/ProductController.ts:341-365 | the record for `createProduct`: the seller's shop, the given fields, empty lists for missing keywords and images, and each null-defaulted field present iff the request's value is truthy |
| Products.DraftIsSettled | src/controllers/ProductController.ts:341-365 | sending an accepted draft back as a request is accepted again and yields the same draft |
| Products.RecomputeSaleOff | src/controllers/ProductController.ts:439-476 | the sale is active only if requested; a new non-zero sale price replaces the old and restarts the sale window; only truthy dates overwrite it |
| Products.ZeroSalePriceIsIgnored | src/controllers/ProductController.ts:444-462 | a sale price of 0 is treated as absent and keeps the current price and window |
| Products.ApplyUpdate | src/controllers/ProductController.ts:494-513 | each of title, sku, description, topic, original price, keywords, images, design, occasion, floret, city, district, colour, the SEO fields and free shipping takes the given value when sent and keeps its old one otherwise; the sale-off is the recomputed one; no other field changes |
| Products.UpdateValidated | src/controllers/ProductController.ts:412-529 | a malformed id is a 500; a product missing or owned by another user is NOT_FOUND; a non-seller is refused; a sale above the original price is refused; otherwise only that product is updated and saved, with its sale-off recomputed, and an image update is announced iff images are given |
| Products.UpdateKeepsSaleBelowOriginal | src/controllers/ProductController.ts:479-489 | after a successful update with a non-zero original price, the sale price does not exceed it |
| Products.UpdateOneAsWritten | src/controllers/ProductController.ts:398-410 | the handler with the schema as written: a body with any sale key is refused, any other is processed |
| Products.AsWrittenUpdateEndsTheSale | src/controllers/ProductController.ts:463-476 | every update the written schema accepts leaves the product's sale inactive |
| Products.UpdateOne | src/controllers/ProductController.ts:398-410 | the handler with the corrected schema: the sale keys are accepted and processed |
| Products.CorrectedUpdateStartsSale | src/controllers/ProductController.ts:439-476 | with the corrected schema, asking for an active sale with a price does activate it at that price |
| Products.WithStatus | src/controllers/ProductController.ts:576-581 | a product given a status has that status and a new `updatedAt`, and stays in its shop |
| Products.WithStatusIdempotent | src/controllers/ProductController.ts:576-581 | setting the same status twice is the same as once |
| Products.ProductsStep | src/controllers/ProductController.ts:569-582 | one more lookup extends the product map invariant of the status loop |
| Products.NotFoundStep | src/controllers/ProductController.ts:569-582 | one more lookup extends the not-found list invariant of the status loop |
| Products.RunLookups | src/controllers/ProductController.ts:569-582 | the loop updates exactly the listed products of the shop, collects the valid ids it cannot find, and fails iff some id is not an ObjectId |
| Products.UpdateStatus | src/controllers/ProductController.ts:545-600 | without an active shop NOT_FOUND; otherwise the products of the shop get the status and the missing ids are reported |
| Products.UpdateStatusPartition | src/controllers/ProductController.ts:569-582 | every valid id is updated or reported not found, never both, and only products of the seller's shop are updated |
| Products.UpdateStatusAsWritten | src/controllers/ProductController.ts:557-582 | as written: without an active shop NOT_FOUND; with one, an empty list succeeds and any other list is a 500, because each lookup reads `shop._id` of the SQL row before querying; nothing is written |
| Products.AsWrittenStatusUpdateMissesOwnProducts | src/controllers/ProductController.ts:569-582 | a product of the seller's own shop that the corrected handler moves to the new status keeps its old status as written |
| ShopService.PagesTile | src/services/shop.service.ts:89-90 | page 1 starts at row 0 and each page starts where the previous one ends |
| ShopService.StatusRule | src/services/shop.service.ts:67-72 | a truthy status admits exactly that status; otherwise everything except DELETE is admitted |
| ShopService.OrderOf | src/services/shop.service.ts:80-84 | the query is sorted iff a sort field is given, by that field and direction |
| ShopService.ProductsOfShopQuery | src/services/shop.service.ts:61-99 | each filter is present iff its parameter is truthy; the sort is on the given field and direction iff a sort field is given; status follows the shared rule; paging and the include are fixed |
| ShopService.ProductsQueryIgnoresShop | src/services/shop.service.ts:61-99 | the SQL product query does not depend on the shop asked for |
| ShopService.ListShopQuery | src/services/shop.service.ts:226-250 | a name filter iff a name is given, sorting iff a sort field is given and then on that field in the given direction, the usual paging |
| ShopService.ListShopQueryIgnoresStatus | src/services/shop.service.ts:226-250 | the SQL shop query does not depend on the status asked for |
| ShopService.WaitingShopStages | src/services/shop.service.ts:135-167 | one `$match` iff a user is given, one `$sort` iff a sort field is given, then the paging `$facet` last |
| ShopService.CountsOfParts | src/services/shop.service.ts:135-167 | the stage counts of a concatenated pipeline are the sizes of its parts |
| ShopService.ProductOfShopStages | src/services/shop.service.ts:169-224 | `$match` on the shop, then a `$sort` (by `updatedAt` descending by default), then the `$facet` |
| ShopService.ProductFiltersAgree | src/services/shop.service.ts:169-191 | the aggregation over products and the SQL query apply the same status and approval filters and the same page window, and one has a title condition iff the other has one, with the same pattern text |
| ShopService.ListShopStages | src/services/shop.service.ts:252-300 | a `$match` iff a name or status is given, then the user lookup, an optional sort, and the `$facet` |
| ShopService.UpdateShop | src/services/shop.service.ts:128-133 | the shipping flag is set only by a truthy argument; nothing else changes |
| ShopService.UpdateShopMonotone | src/services/shop.service.ts:128-133 | the flag never goes from true to false; the update is idempotent and order-independent |
| AddressService.NewDeliveryAddress | src/services/address.service.ts:13-26 | a delivery address of the user, its text mirrored into `addressText`, with no area |
| AddressService.NewGuestDeliveryAddress | src/services/address.service.ts:28-41 | a delivery address with no user |
| AddressService.GuestAddressHasNoUser | src/services/address.service.ts:28-41 | the guest address is the user's delivery address without the user |
| AddressService.NewPossibleDeliveryAddress | src/services/address.service.ts:43-52 | a possible-delivery area of the shop: only city, district and shop are set |
| AddressService.NewShopAddress | src/services/address.service.ts:216-227 | the shop's address with its text and coordinates, and no area |
| AddressService.DropNulls | src/services/address.service.ts:77-91 | keeps exactly the keys whose value is not null, unchanged |
| AddressService.DeliveryPatch | src/services/address.service.ts:77-91 | name, phone and address are written only when truthy; the address is mirrored into `addressText`; coordinates and time are always written; no null is written |
| AddressService.ApplyPatch | src/services/address.service.ts:92-93 | applying a patch never changes the address type, user or shop; each other field is kept when the patch omits it, takes the patch value when it has the field's kind, and is cleared otherwise |
| AddressService.DeliveryUpdateEffect | src/services/address.service.ts:70-95 | updating a delivery address keeps falsy fields, replaces truthy ones, and never touches its area |
| AddressService.ShopPatch | src/services/address.service.ts:105-120 | the address is written only when truthy; coordinates and time always; no null is written |
| AddressService.ShopPatchIgnoresArea | src/services/address.service.ts:105-120 | the city, district and ward given to the shop update are dropped: the patch does not depend on them |
| AddressService.ShopUpdateKeepsArea | src/services/address.service.ts:97-125 | updating a shop address never changes its city, district or ward |
| AddressService.CityByCode | src/services/address.service.ts:229-233 | a city is found iff one has the code, and it is the first such |
| AddressService.DistrictByValue | src/services/address.service.ts:235-240 | a district is found iff the city lists one with that id |
| AddressService.WardByValue | src/services/address.service.ts:242-246 | a ward is found iff the district lists one with that id |
| Shops.DistinctIdsCount | src/controllers/ShopController.ts:71-77 | distinct ids form a set of the same size |
| Shops.AddPossibleAddresses | src/controllers/ShopController.ts:71-77 | one possible-delivery address per requested area under its own id; stored addresses are untouched |
| Shops.RegisterShop | src/controllers/ShopController.ts:33-87 | in order: schema, an active shop of the user, a taken slug; on success a pending shop and one area per requested entry, nothing else |
| Shops.RegisterAddsOneAddressPerArea | src/controllers/ShopController.ts:71-77 | a registration adds exactly as many addresses as areas requested |
| Shops.CheckShopSlug | src/controllers/ShopController.ts:94-119 | a valid query answers DUPLICATE_SLUG iff a shop has the slug, and success otherwise |
| Shops.RegistrationLeavesShopUnlinked | src/services/shop.service.ts:45-54 | after registration the owner's shop lookup never answers the new shop, whatever status the shop is later given |
| Shops.SlugCheckPredictsRegistration | src/controllers/ShopController.ts:58-67 | for a user without an active shop, registration succeeds iff the slug check calls the slug free, after which the slug lookup calls it taken |
| Shops.PendingShopDoesNotBlock | src/services/shop.service.ts:45-55 | a shop still awaiting confirmation does not stop its owner registering another |
| AdminOrders.ListCondition | src/controllers/admin/AdminOrderController.ts:56-64 | limit and page default to 10 and 1 when absent or empty, are parsed otherwise; status is parsed only when present; the rest pass through |
| AdminOrders.ListConditionReadsNumbers | src/controllers/admin/AdminOrderController.ts:59-61 | numbers written in the query are read back as themselves |
| AdminOrders.PaymentContact | src/controllers/admin/AdminOrderController.ts:141-155 | the buyer is the guest contact on the order, else the ordering user if known, else none |
| AdminOrders.UpdateOrderStatus | src/controllers/admin/AdminOrderController.ts:99-161 | in order: schema, id syntax, a missing order; otherwise the status is written; only PAID notifies buyer and shops, and PAID with no buyer contact is a 500 |
| AdminOrders.UpdateOrderStatusIdempotent | src/controllers/admin/AdminOrderController.ts:133-135 | setting the same status twice leaves the store as setting it once |
| AdminOrders.PaidWithoutContactStillUpdates | src/controllers/admin/AdminOrderController.ts:133-155 | PAID on an order with no contact is answered 500 although the status has already changed |
| AdminUsers.LoginUser | src/services/user.service.ts:77-81 | the user found matches the e-mail or the username, and one is found iff one matches |
| AdminUsers.Login | src/controllers/admin/AdminUserController.ts:74-158 | in order: schema, no such user, wrong password, inactive user, not an admin; success returns that user |
| AdminUsers.WrongPasswordHidesAccount | src/controllers/admin/AdminUserController.ts:100-125 | with a wrong password the answer is the same whatever the account's status and role |
| AdminUsers.PasswordlessAccountCannotLogin | src/services/user.service.ts:97-103 | accounts without a password hash cannot log in |
| AdminUsers.AcceptShop | src/controllers/admin/AdminUserController.ts:174-219 | in order: schema, an unanswerable bad id, a missing shop, a missing owner; on success the owner becomes a seller and the shop active |
| AdminUsers.AcceptedShopServesItsOwner | src/controllers/admin/AdminUserController.ts:174-219 | when the owner's `shopsId` already names the shop, after acceptance it is the owner's active shop |
| AdminUsers.AcceptedSellerHasNoShop | src/services/shop.service.ts:45-54 | a user who registers a shop and has it accepted is a seller with an active shop, yet has no shop of their own, so adding a product is a 500 |
| AdminUsers.AcceptShopLinked | src/controllers/admin/AdminUserController.ts:174-219 | answers as acceptance does; on success also links the shop to its owner through `shopsId`, and changes nothing else |
| AdminUsers.LinkedAcceptanceServesOwner | src/services/shop.service.ts:45-54 | after registration and linked acceptance the shop is the owner's shop and adding a product succeeds |
| AdminUsers.OwnedShop | src/controllers/admin/AdminUserController.ts:347-352 | the shop found belongs to the user, and one is found iff the user owns one |
| AdminUsers.UpdateUserStatus | src/controllers/admin/AdminUserController.ts:317-361 | in order: schema, a bad id (500), a missing user; on success the user and their shop take the status |
| AdminUsers.BlockedOwnerLosesShop | src/controllers/admin/AdminUserController.ts:317-361 | blocking a shop owner makes their shop no longer their active shop |
| AdminUsers.ResetPassword | src/controllers/admin/AdminUserController.ts:379-426 | in order: schema, mismatched passwords, a bad id (500), a missing user; on success only that user's hash changes |
| AdminUsers.ResetPasswordTakesEffect | src/controllers/admin/AdminUserController.ts:379-426 | after a reset the new password matches the user's hash |
| AdminUsers.MismatchIgnoresUser | src/controllers/admin/AdminUserController.ts:393-402 | a mismatched confirmation is answered the same whichever user is named |
| AdminUsers.ListUserCondition | src/controllers/admin/AdminUserController.ts:282-296 | limit and page default to 10 and 1; role, status and gender are parsed only when present; the filters pass through |
| AdminUsers.ListUserReadsRole | src/controllers/admin/AdminUserController.ts:284-295 | a role written in the query is read back as itself |

## Left out

- Persistence, Mongoose/Sequelize connections, dependency injection and the HTTP framework: a handler is a function of the store.
- The status constants file is not part of this model. Statuses are named constructors plus `OtherStatus(code)`.
- Passwords are modelled as the plain text a hash was made from: bcrypt is a foreign call.
- The e-mail grammar of Joi is a parameter `isEmail`.
- Joi's type coercion and date parsing are not modelled; dates are integers.
- Prices and coordinates are integers rather than floating point.
- The quantity, add-product, add-one, add-many, submit, shipping-cost, order-status, user-status, reset-password and query schemas are not part of this model. They are modelled only by their verdict (`bodyValid`, `queryValid`).
- `parseInt` is modelled without leading whitespace and without radix prefixes; the query values reaching it are plain strings.
- JsNumbers.ParseInt: the result is an exact integer; above 2^53 JavaScript's number would round it.
- The services whose code is not part of this model are modelled as their names say. The behaviour assumed for each:
  - `createProduct` stores the product built by the product schema; `updateProduct` applies the given fields.
  - `getProductDetailById` looks a product up with its shop populated; a malformed id makes the cast throw.
  - `findProductById` and `findListProductByIds` look products up by id, and a malformed id makes the cast throw; `findNewOrderItemById` looks an item up by id.
  - `findPendingOrder` returns some pending order of the user; `createOrder` stores an empty pending order.
  - `findItemInOrder(orderId)` returns every item of the order, as a list (empty when there is none), and casts the id, so a malformed one throws.
  - `findOrderItem(order, product)` returns the line of the product in the order, or null; `addItem` stores a new line built by the order-item schema; `updateItem` writes a line's quantity and price; `updateQuantityItem` writes a line's quantity.
  - `findOrderById` looks an order up by id and casts it; `OrderItemService.findOrderItemByOrderId` returns every item of the order.
  - `OrderItemService.findOrderItemById` looks an item up by id; `OrderItemService.updateOrderItem` writes the new quantity onto the item; `OrderItemService.updateStatus` writes the item's status.
  - `addManyProductsToCart` adds each product with its quantity.
  - `updateSubmitOrder` writes the delivery details; `submitOrder` and `submitOrderDev` move the order to the submitted status; `updateItemsStatus` writes the items' status.
  - `notifyNewOrderToShops` is the `NotifyShops` event; the mailer and SMS services are the `PaymentEmail` and `PaymentSms` events; the image service is the `ConfirmImages` and `UpdateImages` events.
  - `calculateShippingCost` is the `cost` parameter of the shipping preview.
  - `findOrders` is the parameter `found` of the order listing.
- Orders.GetOrder: `findOrders` is not part of this model. Its result is the parameter `found`, so the listed orders, and the status filter (the query's `status` when truthy, otherwise none), are not derived from the store.
- ShopService.ProductFiltersAgree: states only that the pattern text is shared. SQL `LIKE` with no wildcard matches the whole title exactly, while `$regex` with option `i` matches any part of the title, ignoring case, and reads regular-expression metacharacters. The two filters can select different products.
- Orders.Finalize: `updateCost` and `calculateTotal` are not part of this model. What they produce is the `Costing` parameter: each item's shipping cost and discount, and the order total. How they compute it is not modelled.
- `UserService.isRoleAdmin` is not part of this model; it is taken to accept exactly the admin role.
- Orders.AddOne: the 500 for a missing line with a non-positive quantity assumes `updateQuantityItem` throws on a null item; that service is not part of this model.
- `UserService.resetPassword` is not part of this model; it is taken to store the hash of the new password.
- Models.NewProduct: keeps `shop`, `status`, `keywordList` and `freeShip`, which `product.ts` does not declare (Mongoose would drop undeclared fields on save), because the handlers read and write them.
- Shops.RegisterShop: `createNewShop` is called with the owner first and five arguments, while the service takes four. As written, the shop is saved named after the user id with the name as its slug. Then `images` is bound to the slug string, so `(images || []).map` throws outside any `try`: the request is never answered and no delivery area is stored. The model follows the evident intent of the controller: the new shop records its owner and awaits confirmation, and the request is answered.
- Shop registration records neither the shop address nor the images, and does not set the user's `shopsId`; the code does not do either on this path.
- `acceptToBeShop` validates the query but reads `body.shopId`. The model takes the id read from the body, with the query verdict as a parameter.
- `HttpCodes.ERROR` is modelled as a bad request.
- A filter holding `undefined` is read as matching a missing field, as Mongo's `null` does.
- `getListUserWaitingToBeShop` and the aggregate behind the admin order list (`buildStageGetListOrderItemAdmin`) are not modelled; only the list condition is.
- `deleteItem` and `getPendingOrder` of `OrderController`, the product listing and home/featured/sale handlers, `AdminProductController` and the seed script are outside the modelled core.
- Ordering of concurrent `Promise.all` work is not modelled; the loops run in list order.
- `findShopOfUser` looks the SQL user up by the Mongo id of the request's user. The model takes that lookup to find the user; as written, no SQL user row is keyed by a Mongo id.
- Products.AddProduct: models the shop read as reading the shop's key; the code reads `shop._id`, which a SQL shop row lacks. `Products.AddProductAsWritten` is the handler as written.
- Products.UpdateStatus: models the lookups with the shop's key; as written each lookup reads `shop._id` of the SQL row and throws. `Products.UpdateStatusAsWritten` is the handler as written.
- Products.UpdateStatusPartition: states the partition for `Products.UpdateStatus`; as written no id is updated or reported, because every lookup throws first (`Products.AsWrittenStatusUpdateMissesOwnProducts`).
- OrderItems.UpdateOrderItemStatus: compares the shop's key with the item's shop; as written `shop._id` of the SQL row throws. `OrderItems.UpdateOrderItemStatusAsWritten` is the handler as written.
- OrderItems.NonOwnerSeesNoItem: holds for the corrected handler; as written a seller with some other active shop gets no answer (`OrderItems.AsWrittenSellerHangs`).
- Shops.SlugCheckPredictsRegistration: holds in the single store of the model; in the source the slug check reads the Mongo shop collection while registration looks the slug up in the SQL `SHOPS` table.
- AdminUsers.AcceptedShopServesItsOwner: holds in the single store of the model; in the source the acceptance writes the Mongo shop and user, which the SQL `findShopOfUser` does not read.
- AdminUsers.AcceptedSellerHasNoShop: runs registration and acceptance in one store; in the source acceptance finds only Mongo shops and registration writes a SQL row. `Shops.RegistrationLeavesShopUnlinked` states the missing link within the SQL tables alone.
- AdminUsers.LinkedAcceptanceServesOwner: holds in the single store of the model, for the corrected acceptance.
- AdminUsers.BlockedOwnerLosesShop: holds in the single store of the model; in the source the block writes the Mongo user and shop, which the SQL `findShopOfUser` does not read.
- Shops.RegisterShop: besides the argument shift, each delivery area reads `shop._id` of the new SQL row (ShopController.ts:75), which throws outside any `try`; the model records the areas.
- Orders.AddOne: a malformed product id is taken to pass the add-one schema, which is not part of this model, and to throw in `findProductById`.
- Orders.ShippingPreview: a malformed order id is taken to pass the shipping-cost schema, which is not part of this model, and to throw in `findOrderById`.
- Products.UpdateKeepsSaleBelowOriginal: excludes a new original price of 0. A 0 is falsy, so the handler compares the sale price against the old original price, yet stores the 0.

## Findings

| source | as written | input that shows it | evidently intended | confidence | as-written member | corrected member |
|---|---|---|---|---|---|---|
| src/controllers/OrderController.ts:326-333 | on an empty cart the handler resolves NOT_FOUND but does not return, so the submission continues | a user whose pending order has no items submits | stop after answering NOT_FOUND, leaving the order pending | high; not executed | Orders.SubmitAsWritten (lemma Orders.EmptyCartIsFinalizedAnyway) | Orders.Submit |
| src/validation-schemas/product/update-one.schema.ts:3-25 | the schema does not declare `salePrice`, `saleActive`, `startDate`, `endDate`; Joi refuses undeclared keys, so every accepted update has `saleActive` absent and the handler deactivates the sale | any product update, for instance `{ title: "Roses" }` on a product on sale | the schema declares the sale keys the handler reads, so a seller can keep or start a sale | medium; not executed | Products.UpdateOneAsWritten (lemma Products.AsWrittenUpdateEndsTheSale) | Products.UpdateOne (lemma Products.CorrectedUpdateStartsSale) |
| src/controllers/OrderController.ts:167-173 | the item view prices every item from its product's current price, also the items of a submitted order whose price was frozen at submission | submit an order, then change the product's sale price or switch its sale off, then view the order's items | a submitted item shows the price stored on it, so catalog changes do not affect it | medium; not executed | Orders.GetOrderItem (lemma Orders.ViewRepricesAfterSubmit) | Orders.GetOrderItemFrozen (lemma Orders.FrozenPriceIsShown) |
| src/services/shop.service.ts:45-54 | the shop of a user is found through the user's `shopsId`, which neither shop registration nor its acceptance sets | in the SQL tables alone: a user whose `shopsId` is unset registers a shop; the `SHOPS` row is inserted and `shopsId` stays unset, so `findShopOfUser` returns null for that user whatever status the row later gets | acceptance links the shop to its owner, so the accepted seller can sell | medium; not executed | AdminUsers.AcceptShop (lemmas Shops.RegistrationLeavesShopUnlinked, AdminUsers.AcceptedSellerHasNoShop) | AdminUsers.AcceptShopLinked (lemma AdminUsers.LinkedAcceptanceServesOwner) |
| src/controllers/ProductController.ts:339-352 | `addOne` builds the product's `shopId` from `shop._id`, but `findShopOfUser` answers a SQL `SHOPS` row, which has an integer `id` and no `_id` | a seller with an active shop adds a valid product: `shop._id.toString()` throws inside the `try` and the answer is a 500 | read the row's `id`, so the product is created in the seller's shop | medium; not executed | Products.AddProductAsWritten (lemma Products.AsWrittenSellerCannotAdd) | Products.AddProduct |
| src/controllers/ProductController.ts:569-582 | each lookup of `updateStatus` builds `new ObjectId(shop._id.toString())` from the SQL shop row | a seller with an active shop sets the status of one of their own products: the lookup throws before querying, `Promise.all` rejects and the answer is a 500 with the status unchanged | match the products by the shop's key, so the seller's products get the status | medium; not executed | Products.UpdateStatusAsWritten (lemma Products.AsWrittenStatusUpdateMissesOwnProducts) | Products.UpdateStatus (method Products.UpdateStatusPartition) |
| src/controllers/OrderItemController.ts:147-172 | `updateOrderItemStatus` compares `shop._id.toString()` of the SQL shop row with the item's shop, and its `catch` reads `e.errors`, which a `TypeError` lacks | the seller of an item's shop sets the item's status: the comparison throws, the `catch` throws again, and the request is never answered | compare the shop's key, so the owner's change is written and others get NOT_FOUND | medium; not executed | OrderItems.UpdateOrderItemStatusAsWritten (lemma OrderItems.AsWrittenSellerHangs) | OrderItems.UpdateOrderItemStatus |

=== FILE: addresses.dfy ===
/** `AddressService`: the address records the creators build, the update
    patches (a JavaScript object from which the `null` keys are deleted before
    `findOneAndUpdate`), and the first-match lookups over the
    city/district/ward table. */
module AddressService {
  import opened Common
  import opened Models

  // ---------------------------------------------------------------------------
  // Record builders. Every save goes through the pre-save hook of `Address`,
  // which stamps `updatedAt`.

  /** `createDeliveryAddress`: a delivery address of a signed-in user. */
  function NewDeliveryAddress(name: Option<string>, phone: Option<string>, address: Option<string>,
                              latitude: Option<int>, longitude: Option<int>, user: Id, now: Date): (r: Address)
    ensures r.addressType == Delivery && r.user == Some(user) && r.shop.None?
    ensures r.addressText == address && r.address == address
    ensures r.name == name && r.phone == phone && r.latitude == latitude && r.longitude == longitude
    ensures r.city.None? && r.district.None? && r.ward.None?
    ensures r.updatedAt == Some(now)
  {
    Address(name, phone, address, address, None, None, None, Delivery, latitude, longitude, Some(user), None, Some(now))
  }

  /** `createNoLoginDeliveryAddress`: a delivery address of a guest. */
  function NewGuestDeliveryAddress(name: Option<string>, phone: Option<string>, address: Option<string>,
                                   latitude: Option<int>, longitude: Option<int>, now: Date): (r: Address)
    ensures r.addressType == Delivery && r.user.None? && r.addressText == address
  {
    Address(name, phone, address, address, None, None, None, Delivery, latitude, longitude, None, None, Some(now))
  }

  /** A guest's address is a signed-in user's address with no user. */
  lemma GuestAddressHasNoUser(name: Option<string>, phone: Option<string>, address: Option<string>,
                              latitude: Option<int>, longitude: Option<int>, user: Id, now: Date)
    ensures NewGuestDeliveryAddress(name, phone, address, latitude, longitude, now)
            == NewDeliveryAddress(name, phone, address, latitude, longitude, user, now).(user := None)
  {
  }

  /** `createPossibleDeliveryAddress`: an area a shop delivers to. */
  function NewPossibleDeliveryAddress(city: string, district: Option<int>, shop: Id, now: Date): (r: Address)
    ensures r.addressType == PossibleDelivery && r.shop == Some(shop)
    ensures r.city == Some(city) && r.district == district
    ensures r.name.None? && r.phone.None? && r.address.None? && r.addressText.None? && r.ward.None?
    ensures r.latitude.None? && r.longitude.None? && r.user.None?
  {
    Address(None, None, None, None, Some(city), district, None, PossibleDelivery, None, None, None, Some(shop), Some(now))
  }

  /** `createShopAddress`: the address a shop ships from. */
  function NewShopAddress(shop: Id, address: Option<string>, longitude: Option<int>, latitude: Option<int>, now: Date)
    : (r: Address)
    ensures r.addressType == ShopAddress && r.shop == Some(shop) && r.user.None?
    ensures r.address == address && r.addressText == address
    ensures r.longitude == longitude && r.latitude == latitude
    ensures r.city.None? && r.district.None? && r.ward.None?
  {
    Address(None, None, address, address, None, None, None, ShopAddress, latitude, longitude, None, Some(shop), Some(now))
  }

  // ---------------------------------------------------------------------------
  // Update patches

  /** A value of the patch object. `Undefined` is what a destructured key the
      caller did not send holds; it is not `null`, so it is not deleted, and
      the update stores it as null. */
  datatype Value = Text(text: string) | Num(n: int) | When(date: Date) | Null | Undefined

  /** `x || null` on a string. */
  function TextOrNull(o: Option<string>): Value {
    if TruthyStr(o) then Text(o.value) else Null
  }

  function NumOrUndefined(o: Option<int>): Value {
    if o.Some? then Num(o.value) else Undefined
  }

  /** `Object.keys(patch).map(key => { if (patch[key] === null) delete patch[key]; })`. */
  function DropNulls(patch: map<string, Value>): (r: map<string, Value>)
    ensures forall k :: k in r <==> k in patch && patch[k] != Null
    ensures forall k :: k in r ==> r[k] == patch[k]
  {
    map k | k in patch && patch[k] != Null :: patch[k]
  }

  /** The patch of `updateDeliveryAddress`. */
  function DeliveryPatch(name: Option<string>, phone: Option<string>, address: Option<string>,
                         longitude: Option<int>, latitude: Option<int>, now: Date): (r: map<string, Value>)
    ensures "name" in r <==> TruthyStr(name)
    ensures "phone" in r <==> TruthyStr(phone)
    ensures "address" in r <==> TruthyStr(address)
    ensures "addressText" in r <==> TruthyStr(address)
    ensures "address" in r ==> r["address"] == r["addressText"] == Text(address.value)
    ensures "longitude" in r && "latitude" in r && "updatedAt" in r
    ensures r["updatedAt"] == When(now)
    ensures forall k :: k in r ==> r[k] != Null
    ensures r.Keys <= {"name", "phone", "address", "addressText", "longitude", "latitude", "updatedAt"}
  {
    DropNulls(DeliveryFields(name, phone, address, longitude, latitude, now))
  }

  /** The patch object of `updateDeliveryAddress` before its nulls are dropped. */
  function DeliveryFields(name: Option<string>, phone: Option<string>, address: Option<string>,
                          longitude: Option<int>, latitude: Option<int>, now: Date): (m: map<string, Value>)
    ensures m.Keys == {"name", "phone", "address", "addressText", "longitude", "latitude", "updatedAt"}
    ensures m["name"] == TextOrNull(name) && m["phone"] == TextOrNull(phone)
    ensures m["address"] == m["addressText"] == TextOrNull(address)
    ensures m["longitude"] != Null && m["latitude"] != Null && m["updatedAt"] == When(now)
  {
    map[
      "name" := TextOrNull(name), "phone" := TextOrNull(phone),
      "address" := TextOrNull(address), "addressText" := TextOrNull(address),
      "longitude" := NumOrUndefined(longitude), "latitude" := NumOrUndefined(latitude),
      "updatedAt" := When(now)]
  }

  /** The patch of `updateShopAddress`: city, district and ward are put in as
      `null` and so are always deleted again. */
  function ShopPatch(city: Option<string>, district: Option<int>, ward: Option<int>, address: Option<string>,
                     longitude: Option<int>, latitude: Option<int>, now: Date): (r: map<string, Value>)
    ensures "address" in r <==> TruthyStr(address)
    ensures "addressText" in r <==> TruthyStr(address)
    ensures "longitude" in r && "latitude" in r && "updatedAt" in r
    ensures r["updatedAt"] == When(now)
    ensures forall k :: k in r ==> r[k] != Null
  {
    DropNulls(map[
      "city" := Null, "district" := Null, "ward" := Null,
      "address" := TextOrNull(address), "addressText" := TextOrNull(address),
      "longitude" := NumOrUndefined(longitude), "latitude" := NumOrUndefined(latitude),
      "updatedAt" := When(now)])
  }

  /** Whatever the input, the shop patch never touches city, district or ward. */
  lemma ShopPatchIgnoresArea(city: Option<string>, district: Option<int>, ward: Option<int>, address: Option<string>,
                             longitude: Option<int>, latitude: Option<int>, now: Date)
    ensures var r := ShopPatch(city, district, ward, address, longitude, latitude, now);
            "city" !in r && "district" !in r && "ward" !in r
    ensures ShopPatch(city, district, ward, address, longitude, latitude, now)
            == ShopPatch(None, None, None, address, longitude, latitude, now)
  {
  }

  /** The text field `key` after the update: overwritten when the key is in
      the patch (an undefined value stores null), kept otherwise. */
  function PatchText(patch: map<string, Value>, key: string, current: Option<string>): Option<string> {
    if key !in patch then current
    else if patch[key].Text? then Some(patch[key].text)
    else None
  }

  function PatchNum(patch: map<string, Value>, key: string, current: Option<int>): Option<int> {
    if key !in patch then current
    else if patch[key].Num? then Some(patch[key].n)
    else None
  }

  function PatchDate(patch: map<string, Value>, key: string, current: Option<Date>): Option<Date> {
    if key !in patch then current
    else if patch[key].When? then Some(patch[key].date)
    else None
  }

  /** A text field after a patch: kept when the key is absent, the patched
      text when one is given, cleared by any other value. */
  predicate TextPatched(patch: map<string, Value>, key: string, before: Option<string>, after: Option<string>) {
    && (key !in patch ==> after == before)
    && (key in patch && patch[key].Text? ==> after == Some(patch[key].text))
    && (key in patch && !patch[key].Text? ==> after.None?)
  }

  /** The same for a number field. */
  predicate NumPatched(patch: map<string, Value>, key: string, before: Option<int>, after: Option<int>) {
    && (key !in patch ==> after == before)
    && (key in patch && patch[key].Num? ==> after == Some(patch[key].n))
    && (key in patch && !patch[key].Num? ==> after.None?)
  }

  /** The same for a date field. */
  predicate DatePatched(patch: map<string, Value>, key: string, before: Option<Date>, after: Option<Date>) {
    && (key !in patch ==> after == before)
    && (key in patch && patch[key].When? ==> after == Some(patch[key].date))
    && (key in patch && !patch[key].When? ==> after.None?)
  }

  /** `findOneAndUpdate` with a patch: each key present overwrites its field,
      absent keys leave the field alone, and the kind, owner and shop of the
      address are never part of a patch. */
  function ApplyPatch(a: Address, patch: map<string, Value>): (r: Address)
    ensures r.addressType == a.addressType && r.user == a.user && r.shop == a.shop
    ensures TextPatched(patch, "name", a.name, r.name) && TextPatched(patch, "phone", a.phone, r.phone)
    ensures TextPatched(patch, "address", a.address, r.address)
            && TextPatched(patch, "addressText", a.addressText, r.addressText)
    ensures TextPatched(patch, "city", a.city, r.city) && NumPatched(patch, "district", a.district, r.district)
            && NumPatched(patch, "ward", a.ward, r.ward)
    ensures NumPatched(patch, "longitude", a.longitude, r.longitude)
            && NumPatched(patch, "latitude", a.latitude, r.latitude)
    ensures DatePatched(patch, "updatedAt", a.updatedAt, r.updatedAt)
  {
    a.(name := PatchText(patch, "name", a.name),
       phone := PatchText(patch, "phone", a.phone),
       address := PatchText(patch, "address", a.address),
       addressText := PatchText(patch, "addressText", a.addressText),
       city := PatchText(patch, "city", a.city),
       district := PatchNum(patch, "district", a.district),
       ward := PatchNum(patch, "ward", a.ward),
       longitude := PatchNum(patch, "longitude", a.longitude),
       latitude := PatchNum(patch, "latitude", a.latitude),
       updatedAt := PatchDate(patch, "updatedAt", a.updatedAt))
  }

  /** `updateDeliveryAddress` on a stored address: falsy name, phone and
      address keep the stored values, the address is mirrored into its text,
      the coordinates are always overwritten (cleared when not sent), and the
      update time is refreshed. */
  lemma DeliveryUpdateEffect(a: Address, name: Option<string>, phone: Option<string>, address: Option<string>,
                             longitude: Option<int>, latitude: Option<int>, now: Date)
    ensures var r := ApplyPatch(a, DeliveryPatch(name, phone, address, longitude, latitude, now));
            && r.name == (if TruthyStr(name) then name else a.name)
            && r.phone == (if TruthyStr(phone) then phone else a.phone)
            && r.address == (if TruthyStr(address) then address else a.address)
            && r.addressText == (if TruthyStr(address) then address else a.addressText)
            && r.longitude == longitude && r.latitude == latitude
            && r.updatedAt == Some(now)
            && r.city == a.city && r.district == a.district && r.ward == a.ward
            && r.addressType == a.addressType && r.user == a.user
  {
  }

  /** `updateShopAddress` on the stored shop address keeps its area. */
  lemma ShopUpdateKeepsArea(a: Address, city: Option<string>, district: Option<int>, ward: Option<int>,
                            address: Option<string>, longitude: Option<int>, latitude: Option<int>, now: Date)
    ensures var r := ApplyPatch(a, ShopPatch(city, district, ward, address, longitude, latitude, now));
            r.city == a.city && r.district == a.district && r.ward == a.ward
            && r.address == (if TruthyStr(address) then address else a.address)
            && r.longitude == longitude && r.latitude == latitude && r.updatedAt == Some(now)
  {
    ShopPatchIgnoresArea(city, district, ward, address, longitude, latitude, now);
  }

  // ---------------------------------------------------------------------------
  // The city table (its contents are not part of this model)

  datatype Ward = Ward(id: int, name: string)
  datatype District = District(id: int, name: string, wards: seq<Ward>)
  datatype City = City(code: string, name: string, districts: Option<seq<District>>)

  /** `getCityByCode`: the first city with the code, if any. */
  function CityByCode(cities: seq<City>, code: string): (r: Option<City>)
    ensures r.Some? <==> exists i :: 0 <= i < |cities| && cities[i].code == code
    ensures r.Some? ==> r.value.code == code
    ensures r.Some? ==> exists i :: 0 <= i < |cities| && cities[i] == r.value
                                    && forall j :: 0 <= j < i ==> cities[j].code != code
  {
    Find(cities, (c: City) => c.code == code)
  }

  /** `getDistrictByValue`: a city without a district list has none. */
  function DistrictByValue(city: City, value: int): (r: Option<District>)
    ensures city.districts.None? ==> r.None?
    ensures r.Some? <==> city.districts.Some? && exists i :: 0 <= i < |city.districts.value|
                                                   && city.districts.value[i].id == value
    ensures r.Some? ==> r.value.id == value
    ensures r.Some? ==> exists i :: 0 <= i < |city.districts.value| && city.districts.value[i] == r.value
                                    && forall j :: 0 <= j < i ==> city.districts.value[j].id != value
  {
    Find(city.districts.GetOr([]), (d: District) => d.id == value)
  }

  /** `getWardByValue`: the first ward of the district with the id, if any. */
  function WardByValue(district: District, value: int): (r: Option<Ward>)
    ensures r.Some? <==> exists i :: 0 <= i < |district.wards| && district.wards[i].id == value
    ensures r.Some? ==> r.value.id == value
    ensures r.Some? ==> exists i :: 0 <= i < |district.wards| && district.wards[i] == r.value
                                    && forall j :: 0 <= j < i ==> district.wards[j].id != value
  {
    Find(district.wards, (w: Ward) => w.id == value)
  }
}

=== FILE: adminorders.dfy ===
/** `AdminOrderController`: the parsing of the order-list query and the
    administrator's order status change, which notifies the buyer and the
    shops only when the order becomes paid. */
module AdminOrders {
  import opened Common
  import opened Models
  import opened JsNumbers

  /** The raw query string of `GET /admin/order`: every value is text. */
  datatype ListOrderQuery = ListOrderQuery(
    code: Option<string>,
    limit: Option<string>,
    page: Option<string>,
    status: Option<string>,
    sortBy: Option<string>,
    sortDirection: Option<string>)

  /** The condition handed to the stage builder; `None` in `limit`/`page`
      is `NaN`, in `code` it is `null`. In `status` it stands for two values
      the stage builder receives apart: `null` for an absent or empty value,
      and `NaN` for a present one that does not parse. */
  datatype OrderListCondition = OrderListCondition(
    code: Option<string>,
    limit: Option<int>,
    page: Option<int>,
    status: Option<int>,
    sb: Option<string>,
    sd: Option<string>)

  /** `getList`: limit defaults to 10 and page to 1 when absent or empty;
      status is parsed only when present (so `"0"` gives 0); the sort keys
      pass through untouched. */
  function ListCondition(q: ListOrderQuery): (r: OrderListCondition)
    ensures !TruthyStr(q.limit) ==> r.limit == Some(10)
    ensures !TruthyStr(q.page) ==> r.page == Some(1)
    ensures TruthyStr(q.limit) ==> r.limit == ParseInt(q.limit.value)
    ensures TruthyStr(q.page) ==> r.page == ParseInt(q.page.value)
    ensures r.status.Some? ==> TruthyStr(q.status)
    ensures TruthyStr(q.status) ==> r.status == ParseInt(q.status.value)
    ensures r.code.Some? <==> TruthyStr(q.code)
    ensures r.code.Some? ==> r.code == q.code
    ensures r.sb == q.sortBy && r.sd == q.sortDirection
  {
    OrderListCondition(
      OrNullStr(q.code),
      ParseOr(q.limit, 10),
      ParseOr(q.page, 1),
      ParseIfPresent(q.status),
      q.sortBy,
      q.sortDirection)
  }

  /** A number written out is a truthy query value that parses back to it. */
  lemma ReadsShown(x: Option<string>, n: nat)
    requires x == Some(Show(n))
    ensures TruthyStr(x) && ParseInt(x.value) == Some(n)
  {
    ParseShow(n);
  }

  /** A page number written in the query is read back as that number. */
  lemma ListConditionReadsNumbers(q: ListOrderQuery, limit: nat, page: nat, status: nat)
    requires q.limit == Some(Show(limit)) && q.page == Some(Show(page)) && q.status == Some(Show(status))
    ensures ListCondition(q).limit == Some(limit)
    ensures ListCondition(q).page == Some(page)
    ensures ListCondition(q).status == Some(status)
  {
    ReadsShown(q.limit, limit);
    ReadsShown(q.page, page);
    ReadsShown(q.status, status);
  }

  /** The buyer to notify: the guest contact on the order, else the ordering
      user; `None` when neither exists (reading the missing user's phone
      throws). */
  function PaymentContact(s: Store, o: Order): (r: Option<(Option<string>, string)>)
    ensures o.buyerInfo.Some? ==> r == Some((Some(o.buyerInfo.value.email), o.buyerInfo.value.phone))
    ensures o.buyerInfo.None? ==>
              (r.Some? <==> o.fromUser.Some? && o.fromUser.value in s.users)
    ensures o.buyerInfo.None? && r.Some? ==>
              r.value == (s.users[o.fromUser.value].email, s.users[o.fromUser.value].phone)
  {
    match o.buyerInfo
    case Some(c) => Some((Some(c.email), c.phone))
    case None =>
      if o.fromUser.Some? && o.fromUser.value in s.users then
        var u := s.users[o.fromUser.value];
        Some((u.email, u.phone))
      else None
  }

  /** `updateOrderStatus`. `bodyValid` is the verdict of the status schema,
      which is not part of this model; `status` is the body's value once that
      schema accepted it, so a missing or non-numeric status is not separated
      from one the schema refuses. The status is written without looking at
      the current one; the notifications follow only for `ORDER_PAID`. */
  function UpdateOrderStatus(s: Store, bodyValid: bool, id: Id, status: Status): (r: Handled<()>)
    ensures !bodyValid ==> r.response == Reply(BadRequest, ValidationFailed)
    ensures bodyValid && !ValidObjectId(id) ==> r.response == Reply(BadRequest, InvalidId)
    ensures bodyValid && ValidObjectId(id) ==>
              (r.response == Reply(NotFound, OrderNotFound) <==> id !in s.orders)
    ensures !(bodyValid && ValidObjectId(id) && id in s.orders) ==> r.store == s && r.events == []
    ensures bodyValid && ValidObjectId(id) && id in s.orders ==>
              && r.store == s.(orders := s.orders[id := s.orders[id].(status := status)])
              && (r.response.kind == Ok || r.response == Crash)
    ensures r.events != [] ==> status == OrderPaid && r.response.kind == Ok
    ensures r.response.kind == Ok && status != OrderPaid ==> r.events == []
    ensures r.response.kind == Ok && status == OrderPaid ==>
              && id in s.orders && PaymentContact(s, s.orders[id]).Some?
              && var contact := PaymentContact(s, s.orders[id]).value;
              r.events == [PaymentEmail(contact.0, s.orders[id].code),
                           PaymentSms(contact.1, s.orders[id].code),
                           NotifyShops(id)]
    ensures r.response == Crash <==>
              && bodyValid && ValidObjectId(id) && id in s.orders
              && status == OrderPaid && PaymentContact(s, s.orders[id]).None?
  {
    if !bodyValid then Handled(s, Reply(BadRequest, ValidationFailed), (), [])
    else if !ValidObjectId(id) then Handled(s, Reply(BadRequest, InvalidId), (), [])
    else if id !in s.orders then Handled(s, Reply(NotFound, OrderNotFound), (), [])
    else
      var order := s.orders[id];
      var s' := s.(orders := s.orders[id := order.(status := status)]);
      if status != OrderPaid then Handled(s', Reply(Ok, Success), (), [])
      else
        match PaymentContact(s, order)
        case None => Handled(s', Crash, (), [])
        case Some(contact) =>
          Handled(s', Reply(Ok, Success), (),
                  [PaymentEmail(contact.0, order.code), PaymentSms(contact.1, order.code), NotifyShops(id)])
  }

  /** Setting the same status twice leaves the store as setting it once. */
  lemma UpdateOrderStatusIdempotent(s: Store, id: Id, status: Status)
    ensures var once := UpdateOrderStatus(s, true, id, status).store;
            UpdateOrderStatus(once, true, id, status).store == once
  {
  }

  /** A paid status on an order with neither a guest contact nor a known user
      is answered with a server error, yet the status has already changed. */
  lemma PaidWithoutContactStillUpdates(s: Store, id: Id)
    requires ValidObjectId(id) && id in s.orders
    requires s.orders[id].buyerInfo.None? && s.orders[id].fromUser.None?
    ensures UpdateOrderStatus(s, true, id, OrderPaid).response == Crash
    ensures UpdateOrderStatus(s, true, id, OrderPaid).store.orders[id].status == OrderPaid
  {
  }
}

=== FILE: adminusers.dfy ===
/** `AdminUserController`: the administrator login and its order of checks,
    accepting a shop, changing a user's status (carried over to the shop the
    user owns), the password reset and the parsing of the user-list query.

    A key the request leaves out reaches a Mongo filter as `undefined`, which
    matches like `null`: documents that lack the field. */
module AdminUsers {
  import opened Common
  import opened Models
  import opened Schemas
  import opened JsNumbers
  import Shops
  import Products

  // ---------------------------------------------------------------------------
  // login

  /** The filter `{$or: [{email}, {username}]}`. */
  predicate MatchesLogin(u: User, email: Option<string>, username: Option<string>) {
    u.email == email || u.username == username
  }

  ghost predicate HasLoginUser(s: Store, email: Option<string>, username: Option<string>) {
    exists id :: id in s.users && MatchesLogin(s.users[id], email, username)
  }

  /** `findByEmailOrUsername`: some user the filter matches. */
  ghost function LoginUser(s: Store, email: Option<string>, username: Option<string>): (r: Option<Id>)
    ensures r.Some? <==> HasLoginUser(s, email, username)
    ensures r.Some? ==> r.value in s.users && MatchesLogin(s.users[r.value], email, username)
  {
    if HasLoginUser(s, email, username) then
      Some(var id :| id in s.users && MatchesLogin(s.users[id], email, username); id)
    else None
  }

  /** What `login` demands of the user it found. */
  predicate AdminCanLogin(u: User, password: Option<string>) {
    PasswordMatches(u.passwordHash, password) && u.status == Active && u.role == AdminRole
  }

  /** `login`. The data is the id the token is issued for. The checks run in
      order: user, password, status, role. */
  ghost function Login(s: Store, req: LoginRequest, isEmail: string -> bool): (r: Handled<Option<Id>>)
    ensures r.store == s && r.events == []
    ensures !ValidLogin(req, isEmail) ==> r.response == Reply(BadRequest, ValidationFailed)
    ensures ValidLogin(req, isEmail) ==>
              (r.response == Reply(NotFound, UserNotFound) <==> !HasLoginUser(s, req.email, req.username))
    ensures ValidLogin(req, isEmail) && HasLoginUser(s, req.email, req.username) ==>
              var u := s.users[LoginUser(s, req.email, req.username).value];
              && (!PasswordMatches(u.passwordHash, req.password) ==> r.response == Reply(BadRequest, WrongPassword))
              && (PasswordMatches(u.passwordHash, req.password) && u.status != Active ==>
                    r.response == Reply(BadRequest, InactiveUser))
              && (PasswordMatches(u.passwordHash, req.password) && u.status == Active && u.role != AdminRole ==>
                    r.response == Reply(BadRequest, PermissionDenied))
              && (AdminCanLogin(u, req.password) <==> r.response == Reply(Ok, LoginSuccess))
    ensures r.data.Some? <==> r.response.kind == Ok
    ensures r.data.Some? ==>
              && r.data == LoginUser(s, req.email, req.username)
              && r.data.value in s.users && AdminCanLogin(s.users[r.data.value], req.password)
  {
    if !ValidLogin(req, isEmail) then Handled(s, Reply(BadRequest, ValidationFailed), None, [])
    else
      match LoginUser(s, req.email, req.username)
      case None => Handled(s, Reply(NotFound, UserNotFound), None, [])
      case Some(id) =>
        var u := s.users[id];
        if !PasswordMatches(u.passwordHash, req.password) then Handled(s, Reply(BadRequest, WrongPassword), None, [])
        else if u.status != Active then Handled(s, Reply(BadRequest, InactiveUser), None, [])
        else if u.role != AdminRole then Handled(s, Reply(BadRequest, PermissionDenied), None, [])
        else Handled(s, Reply(Ok, LoginSuccess), Some(id), [])
  }

  /** Without the password, the login reveals nothing about the account's
      status or role: changing them does not change the answer. */
  lemma WrongPasswordHidesAccount(s: Store, req: LoginRequest, isEmail: string -> bool, id: Id,
                                  status: Status, role: Role)
    requires id in s.users && MatchesLogin(s.users[id], req.email, req.username)
    requires forall k :: k in s.users && MatchesLogin(s.users[k], req.email, req.username) ==> k == id
    requires !PasswordMatches(s.users[id].passwordHash, req.password)
    ensures var s' := s.(users := s.users[id := s.users[id].(status := status, role := role)]);
            Login(s', req, isEmail).response == Login(s, req, isEmail).response
  {
    var s' := s.(users := s.users[id := s.users[id].(status := status, role := role)]);
    assert LoginUser(s, req.email, req.username) == Some(id);
    assert MatchesLogin(s'.users[id], req.email, req.username);
    assert LoginUser(s', req.email, req.username) == Some(id);
  }

  /** An account without a password (a Google sign-up) never passes the
      administrator login. */
  lemma PasswordlessAccountCannotLogin(s: Store, req: LoginRequest, isEmail: string -> bool)
    requires forall k :: k in s.users ==> s.users[k].passwordHash == NoPassword
    ensures Login(s, req, isEmail).response.kind != Ok
  {
  }

  // ---------------------------------------------------------------------------
  // acceptToBeShop

  /** `acceptToBeShop`. `queryValid` is the verdict of the query schema, which
      is not part of this model; the shop id is read from the body. An id the
      lookup cannot cast throws outside any `try`, so no answer is sent. */
  function AcceptShop(s: Store, queryValid: bool, shopId: Option<Id>): (r: Handled<()>)
    ensures !queryValid ==> r.response == Reply(BadRequest, ValidationFailed)
    ensures queryValid && shopId.Some? && !ValidObjectId(shopId.value) ==> r.response == Hang
    ensures queryValid && !(shopId.Some? && !ValidObjectId(shopId.value)) ==>
              (r.response == Reply(NotFound, ShopNotFound) <==> shopId.None? || shopId.value !in s.shops)
    ensures r.response.kind == Ok <==>
              && queryValid && shopId.Some? && ValidObjectId(shopId.value) && shopId.value in s.shops
              && s.shops[shopId.value].user in s.users
    ensures r.response.kind != Ok ==> r.store == s
    ensures r.response.kind == Ok ==>
              var sid := shopId.value;
              var owner := s.shops[sid].user;
              && r.store.shops == s.shops[sid := s.shops[sid].(status := Active)]
              && r.store.users == s.users[owner := s.users[owner].(userType := Seller)]
              && r.store.(users := s.users, shops := s.shops) == s
    ensures r.events == []
  {
    if !queryValid then Handled(s, Reply(BadRequest, ValidationFailed), (), [])
    else if shopId.Some? && !ValidObjectId(shopId.value) then Handled(s, Hang, (), [])
    else if shopId.None? || shopId.value !in s.shops then Handled(s, Reply(NotFound, ShopNotFound), (), [])
    else
      var sid := shopId.value;
      var owner := s.shops[sid].user;
      if owner !in s.users then Handled(s, Reply(NotFound, UserNotFound), (), [])
      else
        var s' := s.(users := s.users[owner := s.users[owner].(userType := Seller)],
                     shops := s.shops[sid := s.shops[sid].(status := Active)]);
        Handled(s', Reply(Ok, Success), (), [])
  }

  /** Once accepted, a shop the owner already points to through `shopsId` is
      the owner's shop for the seller handlers. */
  lemma AcceptedShopServesItsOwner(s: Store, sid: Id)
    requires ValidObjectId(sid) && sid in s.shops && s.shops[sid].user in s.users
    requires s.users[s.shops[sid].user].shopsId == Some(sid)
    ensures var r := AcceptShop(s, true, Some(sid));
            r.response.kind == Ok && ShopOfUser(r.store, s.shops[sid].user) == Some(sid)
  {
  }

  /** The discrepancy: `findShopOfUser` finds a shop through the owner's
      `shopsId`, which neither registration nor acceptance sets. A user with no
      shop who registers one and is accepted is a seller with an active shop,
      yet has no shop for the seller handlers: adding a product crashes. */
  lemma AcceptedSellerHasNoShop(s: Store, user: Id, req: ShopRegisterRequest, gen: Shops.ShopIds, now: Date,
                                product: Products.ProductAddRequest)
    requires user in s.users && Shops.FreshFor(s, req, gen) && ValidObjectId(gen.shop)
    requires s.users[user].shopsId.None?
    requires Shops.RegisterShop(s, user, req, gen, now).response.kind == Ok
    requires !Products.SaleAboveOriginal(product.salePrice, product.originalPrice)
    ensures var s1 := Shops.RegisterShop(s, user, req, gen, now).store;
            var a := AcceptShop(s1, true, Some(gen.shop));
            && a.response.kind == Ok
            && a.store.users[user].userType == Seller && a.store.shops[gen.shop].status == Active
            && ShopOfUser(a.store, user).None?
            && Products.AddProduct(a.store, user, true, product).response == Crash
  {
    var s1 := Shops.RegisterShop(s, user, req, gen, now).store;
    assert s1.shops[gen.shop].user == user;
    assert s1.users == s.users;
  }

  /** `acceptToBeShop` as evidently intended: on success the owner's `shopsId`
      also names the accepted shop. Every other answer is the one of
      `AcceptShop`. */
  function AcceptShopLinked(s: Store, queryValid: bool, shopId: Option<Id>): (r: Handled<()>)
    ensures r.response == AcceptShop(s, queryValid, shopId).response && r.events == []
    ensures r.response.kind != Ok ==> r.store == s
    ensures r.response.kind == Ok ==>
              var sid := shopId.value;
              var owner := s.shops[sid].user;
              && r.store.shops == s.shops[sid := s.shops[sid].(status := Active)]
              && r.store.users == s.users[owner := s.users[owner].(userType := Seller, shopsId := Some(sid))]
              && r.store.(users := s.users, shops := s.shops) == s
  {
    var r := AcceptShop(s, queryValid, shopId);
    if r.response.kind == Ok then
      var owner := s.shops[shopId.value].user;
      r.(store := r.store.(users := r.store.users[owner := r.store.users[owner].(shopsId := shopId)]))
    else r
  }

  /** With the link, a registered and accepted shop serves its owner: the
      seller handlers find it, and adding a product with a sound price
      succeeds. */
  lemma LinkedAcceptanceServesOwner(s: Store, user: Id, req: ShopRegisterRequest, gen: Shops.ShopIds, now: Date,
                                    product: Products.ProductAddRequest)
    requires user in s.users && Shops.FreshFor(s, req, gen) && ValidObjectId(gen.shop)
    requires Shops.RegisterShop(s, user, req, gen, now).response.kind == Ok
    requires !Products.SaleAboveOriginal(product.salePrice, product.originalPrice)
    ensures var s1 := Shops.RegisterShop(s, user, req, gen, now).store;
            var a := AcceptShopLinked(s1, true, Some(gen.shop));
            && a.response.kind == Ok
            && ShopOfUser(a.store, user) == Some(gen.shop)
            && Products.AddProduct(a.store, user, true, product).response == Reply(Ok, AddProductSuccess)
  {
    var s1 := Shops.RegisterShop(s, user, req, gen, now).store;
    assert s1.shops[gen.shop].user == user;
    assert user in s1.users;
  }

  // ---------------------------------------------------------------------------
  // updateStatusUser

  ghost predicate OwnsShop(s: Store, user: Id) {
    exists sid :: sid in s.shops && s.shops[sid].user == user
  }

  /** `ShopModel.findOne({user})`: some shop the user owns. */
  ghost function OwnedShop(s: Store, user: Id): (r: Option<Id>)
    ensures r.Some? <==> OwnsShop(s, user)
    ensures r.Some? ==> r.value in s.shops && s.shops[r.value].user == user
  {
    if OwnsShop(s, user) then Some(var sid :| sid in s.shops && s.shops[sid].user == user; sid) else None
  }

  /** `updateStatusUser`. `bodyValid` is the verdict of the body schema, which
      is not part of this model. The data is the shop that changed with the
      user, if any. */
  ghost function UpdateUserStatus(s: Store, bodyValid: bool, userId: Id, status: Status): (r: Handled<Option<Id>>)
    ensures !bodyValid ==> r.response == Reply(BadRequest, ValidationFailed)
    ensures bodyValid && !ValidObjectId(userId) ==> r.response == Crash
    ensures bodyValid && ValidObjectId(userId) ==>
              (r.response == Reply(NotFound, UserNotFound) <==> userId !in s.users)
    ensures r.response.kind == Ok <==> bodyValid && ValidObjectId(userId) && userId in s.users
    ensures r.response.kind != Ok ==> r.store == s && r.data.None?
    ensures r.response.kind == Ok ==>
              && r.store.users == s.users[userId := s.users[userId].(status := status)]
              && (r.data.Some? <==> OwnsShop(s, userId))
              && r.store.shops.Keys == s.shops.Keys
              && r.store.(users := s.users, shops := s.shops) == s
    ensures r.data.Some? ==>
              var sid := r.data.value;
              && sid in s.shops && s.shops[sid].user == userId
              && r.store.shops == s.shops[sid := s.shops[sid].(status := status)]
    ensures r.response.kind == Ok && r.data.None? ==> r.store.shops == s.shops
    ensures r.events == []
  {
    if !bodyValid then Handled(s, Reply(BadRequest, ValidationFailed), None, [])
    else if !ValidObjectId(userId) then Handled(s, Crash, None, [])
    else if userId !in s.users then Handled(s, Reply(NotFound, UserNotFound), None, [])
    else
      var s1 := s.(users := s.users[userId := s.users[userId].(status := status)]);
      match OwnedShop(s, userId)
      case None => Handled(s1, Reply(Ok, Success), None, [])
      case Some(sid) => Handled(s1.(shops := s.shops[sid := s.shops[sid].(status := status)]), Reply(Ok, Success), Some(sid), [])
  }

  /** Blocking a user who owns exactly one shop, the shop their account
      points to, takes that shop out of the seller handlers' reach. */
  lemma BlockedOwnerLosesShop(s: Store, userId: Id, status: Status)
    requires ValidObjectId(userId) && userId in s.users && status != Active
    requires var sid := s.users[userId].shopsId;
             sid.Some? && sid.value in s.shops && s.shops[sid.value].user == userId
    requires forall k :: k in s.shops && s.shops[k].user == userId ==> Some(k) == s.users[userId].shopsId
    ensures var r := UpdateUserStatus(s, true, userId, status);
            r.response.kind == Ok && ShopOfUser(r.store, userId).None?
  {
    var sid := s.users[userId].shopsId.value;
    assert OwnsShop(s, userId);
    assert OwnedShop(s, userId) == Some(sid);
  }

  // ---------------------------------------------------------------------------
  // resetPassword

  /** `resetPassword`. `bodyValid` is the verdict of the body schema, which is
      not part of this model. The confirmation is compared before any lookup;
      an unknown user is a bad request, not a missing resource. */
  function ResetPassword(s: Store, bodyValid: bool, password: string, confirmedPassword: string, userId: Id)
    : (r: Handled<()>)
    ensures !bodyValid ==> r.response == Reply(BadRequest, ValidationFailed)
    ensures bodyValid && password != confirmedPassword ==> r.response == Reply(BadRequest, PasswordDontMatch)
    ensures bodyValid && password == confirmedPassword && !ValidObjectId(userId) ==> r.response == Crash
    ensures bodyValid && password == confirmedPassword && ValidObjectId(userId) ==>
              (r.response == Reply(BadRequest, UserNotFound) <==> userId !in s.users)
    ensures r.response.kind == Ok <==>
              bodyValid && password == confirmedPassword && ValidObjectId(userId) && userId in s.users
    ensures r.response.kind != Ok ==> r.store == s
    ensures r.response.kind == Ok ==>
              && r.response == Reply(Ok, ResetPasswordSuccess)
              && r.store == s.(users := s.users[userId := s.users[userId].(passwordHash := Hashed(password))])
    ensures r.events == []
  {
    if !bodyValid then Handled(s, Reply(BadRequest, ValidationFailed), (), [])
    else if password != confirmedPassword then Handled(s, Reply(BadRequest, PasswordDontMatch), (), [])
    else if !ValidObjectId(userId) then Handled(s, Crash, (), [])
    else if userId !in s.users then Handled(s, Reply(BadRequest, UserNotFound), (), [])
    else
      var u := s.users[userId];
      Handled(s.(users := s.users[userId := u.(passwordHash := Hashed(password))]), Reply(Ok, ResetPasswordSuccess), (), [])
  }

  /** After a reset the new password, and only it, matches the account. */
  lemma ResetPasswordTakesEffect(s: Store, password: string, userId: Id, other: Option<string>)
    requires ValidObjectId(userId) && userId in s.users
    ensures var s' := ResetPassword(s, true, password, password, userId).store;
            && PasswordMatches(s'.users[userId].passwordHash, Some(password))
            && (PasswordMatches(s'.users[userId].passwordHash, other) <==> other == Some(password))
  {
  }

  /** A mismatched confirmation is answered the same for every user id. */
  lemma MismatchIgnoresUser(s: Store, password: string, confirmedPassword: string, a: Id, b: Id)
    requires password != confirmedPassword
    ensures ResetPassword(s, true, password, confirmedPassword, a) == ResetPassword(s, true, password, confirmedPassword, b)
  {
  }

  // ---------------------------------------------------------------------------
  // getListUser

  /** The raw query string of `GET /admin/user`. */
  datatype ListUserQuery = ListUserQuery(
    limit: Option<string>,
    page: Option<string>,
    sb: Option<string>,
    sd: Option<string>,
    userId: Option<string>,
    email: Option<string>,
    username: Option<string>,
    facebookId: Option<string>,
    googleId: Option<string>,
    gender: Option<string>,
    status: Option<string>,
    role: Option<string>)

  datatype UserListCondition = UserListCondition(
    limit: Option<int>,
    page: Option<int>,
    sortBy: Option<string>,
    sortDirection: Option<string>,
    userId: Option<string>,
    email: Option<string>,
    username: Option<string>,
    facebookId: Option<string>,
    googleId: Option<string>,
    role: Option<int>,
    status: Option<int>,
    gender: Option<int>)

  /** `getListUser`: limit and page default to 10 and 1, role/status/gender
      are integers only when present (`null` otherwise), and the text filters
      pass through unchanged. */
  function ListUserCondition(q: ListUserQuery): (r: UserListCondition)
    ensures !TruthyStr(q.limit) ==> r.limit == Some(10)
    ensures !TruthyStr(q.page) ==> r.page == Some(1)
    ensures r.role.Some? ==> TruthyStr(q.role)
    ensures r.status.Some? ==> TruthyStr(q.status)
    ensures r.gender.Some? ==> TruthyStr(q.gender)
    ensures TruthyStr(q.role) ==> r.role == ParseInt(q.role.value)
    ensures TruthyStr(q.status) ==> r.status == ParseInt(q.status.value)
    ensures TruthyStr(q.gender) ==> r.gender == ParseInt(q.gender.value)
    ensures r.sortBy == q.sb && r.sortDirection == q.sd && r.userId == q.userId
    ensures r.email == q.email && r.username == q.username
    ensures r.facebookId == q.facebookId && r.googleId == q.googleId
  {
    UserListCondition(
      ParseOr(q.limit, 10), ParseOr(q.page, 1), q.sb, q.sd, q.userId, q.email, q.username,
      q.facebookId, q.googleId, ParseIfPresent(q.role), ParseIfPresent(q.status), ParseIfPresent(q.gender))
  }

  /** A role written in the query reaches the condition as that number, and
      so does a role of 0, which is a truthy string. */
  lemma ListUserReadsRole(q: ListUserQuery, role: nat)
    requires q.role == Some(Show(role))
    ensures ListUserCondition(q).role == Some(role)
  {
    ParseShow(role);
  }
}

=== FILE: common.dfy ===
/** Vocabulary shared by every handler of the flower-shop backend: identifiers,
    optional values, the JavaScript truthiness rules the controllers lean on,
    the codes of `Status`, the message tags of `ResponseMessages`, and the
    (kind, messages) envelope each handler resolves with. */
module Common {

  /** Mongo ObjectIds, route parameters and other references, as text. */
  type Id = string

  /** A `Date`, as an abstract instant. */
  type Date = int

  datatype Option<+T> = None | Some(value: T) {
    /** The wrapped value, or `default` when absent. */
    function GetOr(default: T): T {
      match this
      case Some(v) => v
      case None => default
    }
  }

  /** JavaScript truthiness of an optional number: undefined and 0 are falsy. */
  predicate TruthyNum(o: Option<int>) {
    o.Some? && o.value != 0
  }

  /** JavaScript truthiness of an optional string: undefined and "" are falsy. */
  predicate TruthyStr(o: Option<string>) {
    o.Some? && o.value != ""
  }

  /** JavaScript truthiness of an optional boolean. */
  predicate TruthyBool(o: Option<bool>) {
    o == Some(true)
  }

  /** `x || null` on a number. */
  function OrNullNum(o: Option<int>): Option<int> {
    if TruthyNum(o) then o else None
  }

  /** `x || null` on a string. */
  function OrNullStr(o: Option<string>): Option<string> {
    if TruthyStr(o) then o else None
  }

  /** The codes of `Status` the handlers name; any other code is `OtherStatus`. */
  datatype Status =
    | Active
    | Delete
    | PendingOrWaitConfirm
    | OrderPending
    | OrderSubmitted
    | OrderPaid
    | ItemNew
    | ItemProcessing
    | ItemOnDelivery
    | ItemFinished
    | OtherStatus(code: int)

  /** The HTTP status used as a result-kind discriminator. `NoAnswer` is a
      request whose handler promise never settles (an exception thrown
      outside any `try`). */
  datatype Kind = Ok | BadRequest | NotFound | InternalError | NoAnswer

  /** Tags of `ResponseMessages`; `ValidationFailed` stands for Joi's detail list. */
  datatype Msg =
    | Success
    | ValidationFailed
    | InvalidId
    | OrderNotFound
    | WrongStatus
    | ProductNotFound
    | OrderItemNotFound
    | OrderItemSubmitted
    | NoAddProductPermission
    | NoUpdateProductPermission
    | NotValidPrice
    | AddProductSuccess
    | UpdateProductSuccess
    | ShopOfUserNotFound
    | ShopNotFound
    | UserNotFound
    | WrongPassword
    | InactiveUser
    | PermissionDenied
    | LoginSuccess
    | PasswordDontMatch
    | ResetPasswordSuccess
    | ExistShopOfUser
    | DuplicateSlug

  /** The `{status, messages}` part of an `IRes`. */
  datatype Response = Response(kind: Kind, messages: seq<Msg>)

  function Reply(kind: Kind, msg: Msg): Response {
    Response(kind, [msg])
  }

  /** The answer of a request that crashed inside its `try` block. */
  const Crash := Response(InternalError, [])

  /** The non-answer of a request whose handler threw outside its `try`. */
  const Hang := Response(NoAnswer, [])

  /** Fire-and-forget side effects (notifications, image service calls). */
  datatype Event =
    | NotifyShops(order: Id)
    | PaymentEmail(email: Option<string>, code: string)
    | PaymentSms(phone: string, code: string)
    | ConfirmImages(paths: seq<string>)
    | UpdateImages(before: seq<string>, after: seq<string>)

  predicate IsDigit(c: char) {
    '0' <= c <= '9'
  }

  predicate IsHexDigit(c: char) {
    ('0' <= c <= '9') || ('a' <= c <= 'f') || ('A' <= c <= 'F')
  }

  /** bson's `ObjectID.isValid` on a string: 12 characters, or 24 hex digits. */
  predicate ValidObjectId(id: string) {
    |id| == 12 || (|id| == 24 && forall i :: 0 <= i < |id| ==> IsHexDigit(id[i]))
  }

  /** The position of the first element satisfying `p`, as `Array.prototype.find`
      scans: every earlier element fails `p`. */
  function FirstIndex<T>(s: seq<T>, p: T -> bool): (r: Option<nat>)
    ensures r.Some? ==> r.value < |s| && p(s[r.value])
    ensures r.Some? ==> forall j :: 0 <= j < r.value ==> !p(s[j])
    ensures r.None? ==> forall j :: 0 <= j < |s| ==> !p(s[j])
    decreases |s|
  {
    if |s| == 0 then None
    else if p(s[0]) then Some(0)
    else
      match FirstIndex(s[1..], p)
      case None => None
      case Some(k) => Some(k + 1)
  }

  /** `Array.prototype.find`: the first element satisfying `p`, if any. */
  function Find<T>(s: seq<T>, p: T -> bool): (r: Option<T>)
    ensures r.Some? <==> exists i :: 0 <= i < |s| && p(s[i])
    ensures r.Some? ==> p(r.value)
    ensures r.Some? ==> exists i :: 0 <= i < |s| && s[i] == r.value && forall j :: 0 <= j < i ==> !p(s[j])
  {
    match FirstIndex(s, p)
    case None => None
    case Some(i) => Some(s[i])
  }
}

=== FILE: models.dfy ===
/** The persisted entities (users, shops, products, orders, order items,
    addresses) and the abstract store the handlers read and write. Mongoose
    document construction is modelled for the two schemas whose defaults and
    required fields matter: `OrderItem` (a new cart line) and `Product`. */
module Models {
  import opened Common

  datatype UserType = Customer | Seller

  /** `UserService.isRoleAdmin` accepts exactly `AdminRole`. */
  datatype Role = EndUserRole | AdminRole

  /** A bcrypt hash, abstracted to the plain text it was made from. */
  datatype PasswordHash = NoPassword | Hashed(secret: string)

  /** `UserService.isValidHashPassword`: `bcrypt.compareSync`, which is false when
      there is no hash or no password to compare (its exception is caught). */
  predicate PasswordMatches(hash: PasswordHash, plain: Option<string>) {
    hash.Hashed? && plain == Some(hash.secret)
  }

  datatype User = User(
    email: Option<string>,
    username: Option<string>,
    phone: string,
    passwordHash: PasswordHash,
    status: Status,
    role: Role,
    userType: UserType,
    shopsId: Option<Id>)

  datatype Shop = Shop(
    name: string,
    slug: string,
    status: Status,
    availableShipCountry: bool,
    user: Id)

  datatype SaleOff = SaleOff(
    price: int,
    startDate: Option<Date>,
    endDate: Option<Date>,
    active: bool)

  datatype Product = Product(
    title: string,
    images: seq<string>,
    sku: string,
    description: string,
    topic: int,
    specialOccasion: Option<int>,
    design: Option<int>,
    floret: Option<int>,
    city: Option<string>,
    district: Option<int>,
    color: Option<int>,
    priceRange: int,
    slug: string,
    seoUrl: Option<string>,
    seoDescription: Option<string>,
    seoImage: Option<string>,
    originalPrice: int,
    saleOff: SaleOff,
    updatedAt: Date,
    createdAt: Date,
    user: Id,
    shop: Id,
    status: Status,
    keywordList: seq<string>,
    freeShip: Option<bool>)

  /** Name, phone and email of a guest buyer, captured on the order. */
  datatype Contact = Contact(name: string, phone: string, email: string)

  datatype Order = Order(
    fromUser: Option<Id>,
    status: Status,
    code: string,
    buyerInfo: Option<Contact>,
    deliveryTime: Option<Date>,
    note: Option<string>,
    address: Option<Id>,
    total: Option<int>)

  datatype OrderItem = OrderItem(
    order: Id,
    shop: Id,
    product: Id,
    title: Option<string>,
    images: Option<seq<string>>,
    originalPrice: Option<int>,
    saleOff: Option<SaleOff>,
    quantity: int,
    price: Option<int>,
    status: Status,
    deliveredAt: Option<Date>,
    shippingCost: Option<int>,
    shippingDistance: Option<int>,
    discount: Option<int>,
    total: Option<int>)

  datatype AddressType = Delivery | PossibleDelivery | ShopAddress

  datatype Address = Address(
    name: Option<string>,
    phone: Option<string>,
    address: Option<string>,
    addressText: Option<string>,
    city: Option<string>,
    district: Option<int>,
    ward: Option<int>,
    addressType: AddressType,
    latitude: Option<int>,
    longitude: Option<int>,
    user: Option<Id>,
    shop: Option<Id>,
    updatedAt: Option<Date>)

  /** The collections, keyed by id. */
  datatype Store = Store(
    users: map<Id, User>,
    shops: map<Id, Shop>,
    products: map<Id, Product>,
    orders: map<Id, Order>,
    items: map<Id, OrderItem>,
    addresses: map<Id, Address>)

  /** What a handler leaves behind: the new store, the response envelope, the
      `data` payload and the fire-and-forget events it emitted. */
  datatype Handled<D> = Handled(store: Store, response: Response, data: D, events: seq<Event>)

  /** `ShopService.findShopOfUser`: the shop named by the user's `shopsId`, only
      while that shop is `ACTIVE`. The acting user always exists (the token
      middleware loaded it). */
  function ShopOfUser(s: Store, user: Id): Option<Id>
    requires user in s.users
  {
    var sid := s.users[user].shopsId;
    if sid.Some? && sid.value in s.shops && s.shops[sid.value].status == Active then sid else None
  }

  /** The pre-save hook of `Product`: saving stamps `updatedAt`. */
  function SaveProduct(p: Product, now: Date): (r: Product)
    ensures r.updatedAt == now
    ensures r.(updatedAt := p.updatedAt) == p
  {
    p.(updatedAt := now)
  }

  /** The fields a caller hands to `new OrderItemModel(...)`; absent ones are
      `None`. */
  datatype OrderItemDoc = OrderItemDoc(
    order: Option<Id>,
    shop: Option<Id>,
    product: Option<Id>,
    quantity: Option<int>,
    status: Option<Status>)

  /** Mongoose validation and defaults of the `OrderItem` schema: the three refs
      are required, `quantity` defaults to 1, `price` to null, `status` to
      `ORDER_ITEM_NEW`; shipping cost, distance, discount and total stay unset. */
  function NewOrderItem(d: OrderItemDoc): (r: Option<OrderItem>)
    ensures r.Some? <==> d.order.Some? && d.shop.Some? && d.product.Some?
    ensures r.Some? ==> r.value.order == d.order.value && r.value.shop == d.shop.value
                        && r.value.product == d.product.value
    ensures r.Some? ==> r.value.quantity == (if d.quantity.Some? then d.quantity.value else 1)
    ensures r.Some? ==> r.value.price.None? && r.value.total.None? && r.value.discount.None?
                        && r.value.shippingCost.None? && r.value.shippingDistance.None?
    ensures r.Some? ==> (d.status.None? ==> r.value.status == ItemNew)
  {
    if d.order.None? || d.shop.None? || d.product.None? then None
    else
      Some(OrderItem(
        d.order.value, d.shop.value, d.product.value,
        None, None, None, None,
        d.quantity.GetOr(1), None, d.status.GetOr(ItemNew),
        None, None, None, None, None))
  }

  /** Leaving `quantity` and `status` out of the document is the same as
      passing their schema defaults. */
  lemma OrderItemDefaults(d: OrderItemDoc)
    ensures NewOrderItem(d.(quantity := None, status := None))
            == NewOrderItem(d.(quantity := Some(1), status := Some(ItemNew)))
  {
  }

  /** The fields a caller hands to `new ProductModel(...)`; absent ones are
      `None`. */
  datatype ProductDoc = ProductDoc(
    title: Option<string>,
    images: Option<seq<string>>,
    sku: Option<string>,
    description: Option<string>,
    topic: Option<int>,
    specialOccasion: Option<int>,
    design: Option<int>,
    floret: Option<int>,
    city: Option<string>,
    district: Option<int>,
    color: Option<int>,
    priceRange: Option<int>,
    slug: Option<string>,
    seoUrl: Option<string>,
    seoDescription: Option<string>,
    seoImage: Option<string>,
    originalPrice: Option<int>,
    saleOff: Option<SaleOff>,
    user: Option<Id>,
    shop: Id,
    status: Status,
    keywordList: seq<string>,
    freeShip: Option<bool>)

  /** Mongoose's `required` on a string: present and not empty. */
  predicate RequiredText(o: Option<string>) {
    o.Some? && o.value != ""
  }

  /** Mongoose validation, defaults and pre-save hook of the `Product` schema.
      `createdAt` takes the schema's `default: new Date()`, an instant fixed
      when the schema was declared (`loadedAt`); `updatedAt` is stamped by the
      pre-save hook with the save time `now`. */
  function NewProduct(d: ProductDoc, loadedAt: Date, now: Date): (r: Option<Product>)
    ensures r.Some? <==>
      && RequiredText(d.title) && d.images.Some? && RequiredText(d.sku)
      && RequiredText(d.description) && d.topic.Some? && d.priceRange.Some?
      && RequiredText(d.slug) && d.user.Some? && d.saleOff.Some?
    ensures r.Some? ==> r.value.originalPrice == (if d.originalPrice.Some? then d.originalPrice.value else 0)
    ensures r.Some? ==> r.value.saleOff == d.saleOff.value && r.value.title == d.title.value
    ensures r.Some? ==> r.value.updatedAt == now && r.value.createdAt == loadedAt
    ensures r.Some? ==>
              var p := r.value;
              && p.images == d.images.value && p.sku == d.sku.value
              && p.description == d.description.value && p.topic == d.topic.value
              && p.priceRange == d.priceRange.value && p.slug == d.slug.value
              && p.user == d.user.value && p.shop == d.shop && p.status == d.status
              && p.keywordList == d.keywordList && p.freeShip == d.freeShip
    ensures r.Some? ==>
              var p := r.value;
              && p.specialOccasion == d.specialOccasion && p.design == d.design
              && p.floret == d.floret && p.city == d.city && p.district == d.district
              && p.color == d.color && p.seoUrl == d.seoUrl
              && p.seoDescription == d.seoDescription && p.seoImage == d.seoImage
  {
    if && RequiredText(d.title) && d.images.Some? && RequiredText(d.sku)
       && RequiredText(d.description) && d.topic.Some? && d.priceRange.Some?
       && RequiredText(d.slug) && d.user.Some? && d.saleOff.Some?
    then
      Some(Product(
        d.title.value, d.images.value, d.sku.value, d.description.value, d.topic.value,
        d.specialOccasion, d.design, d.floret, d.city, d.district, d.color,
        d.priceRange.value, d.slug.value, d.seoUrl, d.seoDescription, d.seoImage,
        d.originalPrice.GetOr(0), d.saleOff.value, now, loadedAt,
        d.user.value, d.shop, d.status, d.keywordList, d.freeShip))
    else None
  }

  /** Leaving `originalPrice` out is the same as passing its default 0, and
      whether a document is accepted never depends on the optional fields. */
  lemma ProductDefaults(d: ProductDoc, loadedAt: Date, now: Date)
    ensures NewProduct(d.(originalPrice := None), loadedAt, now)
            == NewProduct(d.(originalPrice := Some(0)), loadedAt, now)
    ensures NewProduct(d, loadedAt, now).Some?
            == NewProduct(d.(originalPrice := None, specialOccasion := None, design := None,
                             floret := None, city := None, district := None, color := None,
                             seoUrl := None, seoDescription := None, seoImage := None,
                             freeShip := None), loadedAt, now).Some?
  {
  }
}

=== FILE: numbers.dfy ===
/** JavaScript's `parseInt` on the query-string values the admin list
    handlers read, and `Number.prototype.toString` for the non-negative
    integers they use as defaults. `None` stands for `NaN`. */
module JsNumbers {
  import opened Common

  function DigitOf(c: char): nat
    requires IsDigit(c)
  {
    (c as int) - ('0' as int)
  }

  function CharOf(d: nat): (c: char)
    requires d < 10
    ensures IsDigit(c) && DigitOf(c) == d
  {
    (('0' as int) + d) as char
  }

  /** The number of leading decimal digits of `s`. */
  function LeadingDigits(s: string): (n: nat)
    ensures n <= |s|
    ensures forall i :: 0 <= i < n ==> IsDigit(s[i])
    ensures n < |s| ==> !IsDigit(s[n])
  {
    if s == [] || !IsDigit(s[0]) then 0 else 1 + LeadingDigits(s[1..])
  }

  /** The value of a string of decimal digits, most significant first. */
  function DigitsValue(s: string): nat
    requires forall i :: 0 <= i < |s| ==> IsDigit(s[i])
  {
    if s == [] then 0 else 10 * DigitsValue(s[..|s| - 1]) + DigitOf(s[|s| - 1])
  }

  /** `parseInt(s)`: an optional sign, then the longest run of decimal
      digits; `NaN` when there is none. Trailing characters are ignored. */
  function ParseInt(s: string): (r: Option<int>)
    ensures r.None? <==> LeadingDigits(if s != [] && (s[0] == '-' || s[0] == '+') then s[1..] else s) == 0
    ensures r.Some? && s != [] && s[0] == '-' ==> r.value <= 0
    ensures r.Some? && (s == [] || s[0] != '-') ==> r.value >= 0
  {
    var signed := s != [] && (s[0] == '-' || s[0] == '+');
    var body := if signed then s[1..] else s;
    var n := LeadingDigits(body);
    if n == 0 then None
    else
      var v: int := DigitsValue(body[..n]);
      Some(if s[0] == '-' then -v else v)
  }

  /** `n.toString()` for a non-negative integer. */
  function Show(n: nat): (r: string)
    ensures r != []
    ensures forall i :: 0 <= i < |r| ==> IsDigit(r[i])
  {
    if n < 10 then [CharOf(n)] else Show(n / 10) + [CharOf(n % 10)]
  }

  lemma {:induction false} ShowValue(n: nat)
    ensures DigitsValue(Show(n)) == n
  {
    if n >= 10 {
      var r := Show(n);
      assert r[..|r| - 1] == Show(n / 10);
      ShowValue(n / 10);
    }
  }

  /** `parseInt` undoes `toString`, with or without a minus sign. */
  lemma ParseShow(n: nat)
    ensures ParseInt(Show(n)) == Some(n)
    ensures ParseInt("-" + Show(n)) == Some(-(n as int))
  {
    ShowValue(n);
    ParseDigits(Show(n));
  }

  /** A non-empty run of digits parses to its value, and with a minus sign
      to its negation. */
  lemma ParseDigits(r: string)
    requires r != [] && forall i :: 0 <= i < |r| ==> IsDigit(r[i])
    ensures ParseInt(r) == Some(DigitsValue(r))
    ensures ParseInt("-" + r) == Some(-(DigitsValue(r) as int))
  {
    AllDigitsLeading(r);
    ParseUnsigned(r);
    ParseNegated(r);
  }

  lemma ParseUnsigned(r: string)
    requires r != [] && forall i :: 0 <= i < |r| ==> IsDigit(r[i])
    requires LeadingDigits(r) == |r|
    ensures ParseInt(r) == Some(DigitsValue(r))
  {
    assert IsDigit(r[0]);
    assert r[..|r|] == r;
  }

  lemma ParseNegated(r: string)
    requires r != [] && forall i :: 0 <= i < |r| ==> IsDigit(r[i])
    requires LeadingDigits(r) == |r|
    ensures ParseInt("-" + r) == Some(-(DigitsValue(r) as int))
  {
    var m := "-" + r;
    assert m[0] == '-';
    assert m[1..] == r;
    ParseMinus(m, r);
  }

  /** What `ParseInt` computes on a minus sign followed only by digits. */
  lemma ParseMinus(m: string, body: string)
    requires m != [] && m[0] == '-' && m[1..] == body
    requires body != [] && LeadingDigits(body) == |body|
    requires forall i :: 0 <= i < |body| ==> IsDigit(body[i])
    ensures ParseInt(m) == Some(-(DigitsValue(body) as int))
  {
    assert body[..|body|] == body;
  }

  lemma {:induction false} AllDigitsLeading(r: string)
    requires forall i :: 0 <= i < |r| ==> IsDigit(r[i])
    ensures LeadingDigits(r) == |r|
  {
    if r != [] {
      AllDigitsLeading(r[1..]);
    }
  }

  /** Trailing non-digits are ignored: `parseInt("12px") == 12`. */
  lemma ParseIgnoresTail(n: nat, tail: string)
    requires tail != [] && !IsDigit(tail[0])
    ensures ParseInt(Show(n) + tail) == Some(n)
  {
    var r := Show(n);
    var s := r + tail;
    assert s[0] == r[0];
    LeadingDigitsOfPrefix(r, tail);
    assert s[..|r|] == r;
    ShowValue(n);
  }

  lemma {:induction false} LeadingDigitsOfPrefix(r: string, tail: string)
    requires forall i :: 0 <= i < |r| ==> IsDigit(r[i])
    requires tail != [] && !IsDigit(tail[0])
    ensures LeadingDigits(r + tail) == |r|
  {
    if r != [] {
      assert (r + tail)[1..] == r[1..] + tail;
      LeadingDigitsOfPrefix(r[1..], tail);
    }
  }

  /** `parseInt((x || d).toString())` on a query value: an absent or empty
      value gives the default. */
  function ParseOr(x: Option<string>, d: nat): (r: Option<int>)
    ensures !TruthyStr(x) ==> r == Some(d)
    ensures TruthyStr(x) ==> r == ParseInt(x.value)
  {
    ParseShow(d);
    ParseInt(if TruthyStr(x) then x.value else Show(d))
  }

  /** `x ? parseInt(x) : null`: note that `"0"` is a truthy string. */
  function ParseIfPresent(x: Option<string>): (r: Option<int>)
    ensures r.Some? ==> TruthyStr(x)
    ensures TruthyStr(x) ==> r == ParseInt(x.value)
  {
    if TruthyStr(x) then ParseInt(x.value) else None
  }
}

=== FILE: orderitems.dfy ===
/** `OrderItemController`: the buyer's quantity edit, allowed only while an
    item is new, and the seller's status change, guarded by shop ownership. */
module OrderItems {
  import opened Common
  import opened Models
  import opened Schemas
  import Orders

  /** `updateOrderItem`. `bodyValid` is the verdict of the quantity schema,
      which is not part of this model; the item is looked up by id. */
  function UpdateOrderItem(s: Store, bodyValid: bool, id: Id, quantity: int): (r: Handled<Option<OrderItem>>)
    ensures !bodyValid ==> r.response == Reply(BadRequest, ValidationFailed)
    ensures bodyValid && !ValidObjectId(id) ==> r.response == Reply(BadRequest, InvalidId)
    ensures bodyValid && ValidObjectId(id) ==>
              (r.response == Reply(NotFound, OrderItemNotFound) <==> id !in s.items)
    ensures bodyValid && ValidObjectId(id) && id in s.items ==>
              (r.response == Reply(BadRequest, OrderItemSubmitted) <==> s.items[id].status != ItemNew)
    ensures r.response.kind == Ok <==>
              bodyValid && ValidObjectId(id) && id in s.items && s.items[id].status == ItemNew
    ensures r.response.kind != Ok ==> r.store == s && r.data.None?
    ensures r.response.kind == Ok ==>
              && r.store.items.Keys == s.items.Keys
              && r.store.items[id] == s.items[id].(quantity := quantity)
              && (forall k :: k in s.items && k != id ==> r.store.items[k] == s.items[k])
              && r.store.(items := s.items) == s
              && r.data == Some(r.store.items[id])
    ensures r.events == []
  {
    if !bodyValid then Handled(s, Reply(BadRequest, ValidationFailed), None, [])
    else if !ValidObjectId(id) then Handled(s, Reply(BadRequest, InvalidId), None, [])
    else if id !in s.items then Handled(s, Reply(NotFound, OrderItemNotFound), None, [])
    else if s.items[id].status != ItemNew then Handled(s, Reply(BadRequest, OrderItemSubmitted), None, [])
    else
      var edited := s.items[id].(quantity := quantity);
      Handled(s.(items := s.items[id := edited]), Reply(Ok, Success), Some(edited), [])
  }

  /** Once an order is submitted its items are locked: a quantity edit on any
      of them is ORDER_SUBMITTED and changes nothing. */
  lemma SubmittedItemsAreLocked(s: Store, user: Id, d: Orders.Delivery, c: Orders.Costing, k: Id, quantity: int)
    requires Orders.Submit(s, user, true, d, c).response.kind == Ok
    requires k in Orders.ItemsOf(s, Orders.CartOf(s, user).value) && ValidObjectId(k)
    ensures var s' := Orders.Submit(s, user, true, d, c).store;
            UpdateOrderItem(s', true, k, quantity).response == Reply(BadRequest, OrderItemSubmitted)
            && UpdateOrderItem(s', true, k, quantity).store == s'
  {
    var s' := Orders.Submit(s, user, true, d, c).store;
    assert s'.items[k].status == ItemProcessing;
  }

  /** `updateOrderItemStatus`. A seller with no active shop, or whose shop is
      not the item's shop, is told the item does not exist. The requested
      status is written without looking at the item's current status. */
  function UpdateOrderItemStatus(s: Store, user: Id, req: ItemStatusRequest, id: Id): (r: Handled<()>)
    requires user in s.users
    ensures !ValidItemStatusRequest(req) ==> r.response == Reply(BadRequest, ValidationFailed)
    ensures ValidItemStatusRequest(req) && !ValidObjectId(id) ==> r.response == Reply(BadRequest, InvalidId)
    ensures ValidItemStatusRequest(req) && ValidObjectId(id) ==>
              (r.response == Reply(NotFound, OrderItemNotFound) <==>
                 id !in s.items || ShopOfUser(s, user) != Some(s.items[id].shop))
    ensures r.response.kind == Ok <==>
              && ValidItemStatusRequest(req) && ValidObjectId(id)
              && id in s.items && ShopOfUser(s, user) == Some(s.items[id].shop)
    ensures r.response.kind != Ok ==> r.store == s
    ensures r.response.kind == Ok ==>
              && r.store.items.Keys == s.items.Keys
              && r.store.items[id] == s.items[id].(status := req.status.value)
              && (forall k :: k in s.items && k != id ==> r.store.items[k] == s.items[k])
              && r.store.(items := s.items) == s
    ensures r.events == []
  {
    if !ValidItemStatusRequest(req) then Handled(s, Reply(BadRequest, ValidationFailed), (), [])
    else if !ValidObjectId(id) then Handled(s, Reply(BadRequest, InvalidId), (), [])
    else if id !in s.items then Handled(s, Reply(NotFound, OrderItemNotFound), (), [])
    else
      match ShopOfUser(s, user)
      case None => Handled(s, Reply(NotFound, OrderItemNotFound), (), [])
      case Some(shop) =>
        if shop != s.items[id].shop then Handled(s, Reply(NotFound, OrderItemNotFound), (), [])
        else Handled(s.(items := s.items[id := s.items[id].(status := req.status.value)]), Reply(Ok, Success), (), [])
  }

  /** A seller who does not own an item cannot tell it from a missing one: the
      answer is the same as if the item had never existed. */
  lemma NonOwnerSeesNoItem(s: Store, user: Id, req: ItemStatusRequest, id: Id)
    requires user in s.users && id in s.items
    requires ShopOfUser(s, user) != Some(s.items[id].shop)
    ensures UpdateOrderItemStatus(s, user, req, id).response
            == UpdateOrderItemStatus(s.(items := s.items - {id}), user, req, id).response
    ensures UpdateOrderItemStatus(s, user, req, id).store == s
  {
    var s0 := s.(items := s.items - {id});
    assert ShopOfUser(s0, user) == ShopOfUser(s, user);
  }

  /** `updateOrderItemStatus` as written. Once a shop is found,
      `shop._id.toString()` throws on the SQL `SHOPS` row, which has no `_id`;
      the `catch` then throws again on `Object.keys(e.errors)`, so the request
      is never answered and no status is written. */
  function UpdateOrderItemStatusAsWritten(s: Store, user: Id, req: ItemStatusRequest, id: Id): (r: Handled<()>)
    requires user in s.users
    ensures r.store == s && r.events == [] && r.response.kind != Ok
    ensures !ValidItemStatusRequest(req) ==> r.response == Reply(BadRequest, ValidationFailed)
    ensures ValidItemStatusRequest(req) && !ValidObjectId(id) ==> r.response == Reply(BadRequest, InvalidId)
    ensures ValidItemStatusRequest(req) && ValidObjectId(id) ==>
              (r.response == Reply(NotFound, OrderItemNotFound) <==> id !in s.items || ShopOfUser(s, user).None?)
    ensures r.response == Hang <==>
              ValidItemStatusRequest(req) && ValidObjectId(id) && id in s.items && ShopOfUser(s, user).Some?
  {
    if !ValidItemStatusRequest(req) then Handled(s, Reply(BadRequest, ValidationFailed), (), [])
    else if !ValidObjectId(id) then Handled(s, Reply(BadRequest, InvalidId), (), [])
    else if id !in s.items then Handled(s, Reply(NotFound, OrderItemNotFound), (), [])
    else if ShopOfUser(s, user).None? then Handled(s, Reply(NotFound, OrderItemNotFound), (), [])
    else Handled(s, Hang, (), [])
  }

  /** The discrepancy: the item's own seller, whom the corrected handler
      serves, gets no answer as written, and so does a seller of another shop,
      whom it tells the item does not exist; otherwise both answer alike. */
  lemma AsWrittenSellerHangs(s: Store, user: Id, req: ItemStatusRequest, id: Id)
    requires user in s.users
    ensures UpdateOrderItemStatus(s, user, req, id).response.kind == Ok ==>
              UpdateOrderItemStatusAsWritten(s, user, req, id).response == Hang
    ensures UpdateOrderItemStatusAsWritten(s, user, req, id).response != Hang ==>
              UpdateOrderItemStatusAsWritten(s, user, req, id) == UpdateOrderItemStatus(s, user, req, id)
  {
  }

  /** A seller's change never moves an item back to `NEW` or `PROCESSING`. */
  lemma SellerNeverReopensItem(s: Store, user: Id, req: ItemStatusRequest, id: Id)
    requires user in s.users
    requires UpdateOrderItemStatus(s, user, req, id).response.kind == Ok
    ensures var st := UpdateOrderItemStatus(s, user, req, id).store.items[id].status;
            st == ItemOnDelivery || st == ItemFinished
  {
  }
}

=== FILE: orders.dfy ===
/** The buyer side of `OrderController`: the order list, the priced item view,
    the cart (get-or-create of the pending order, add-or-update of a line),
    submission with its price snapshot, and the shipping-cost preview. */
module Orders {
  import opened Common
  import opened Models

  /** The unit price shown in a cart and frozen at submission: the sale price
      while the sale-off is active, else the original price. */
  function EffectivePrice(p: Product): int {
    if p.saleOff.active then p.saleOff.price else p.originalPrice
  }

  /** Only the active flag gates the sale price: the start and end dates of the
      sale-off are never consulted. */
  lemma EffectivePriceRule(p: Product, start: Option<Date>, end: Option<Date>)
    ensures p.saleOff.active ==> EffectivePrice(p) == p.saleOff.price
    ensures !p.saleOff.active ==> EffectivePrice(p) == p.originalPrice
    ensures EffectivePrice(p.(saleOff := p.saleOff.(startDate := start, endDate := end)))
            == EffectivePrice(p)
  {
  }

  // ---------------------------------------------------------------------------
  // getOrder

  /** One item of an order returned by `OrderService.findOrders`, with the title
      of its populated product (`None` when the product is null). */
  datatype ItemRow = ItemRow(item: OrderItem, productTitle: Option<string>)

  datatype OrderRow = OrderRow(id: Id, order: Order, orderItems: seq<ItemRow>)

  /** An order as listed: its item list replaced by the product names. */
  datatype OrderSummary = OrderSummary(id: Id, order: Order, productNames: seq<string>)

  /** Every item of the row has a populated product. */
  predicate Titled(row: OrderRow) {
    forall j :: 0 <= j < |row.orderItems| ==> row.orderItems[j].productTitle.Some?
  }

  predicate AllTitled(rows: seq<OrderRow>) {
    forall i :: 0 <= i < |rows| ==> Titled(rows[i])
  }

  function Summarize(row: OrderRow): OrderSummary
    requires Titled(row)
  {
    OrderSummary(row.id, row.order,
      seq(|row.orderItems|, j requires 0 <= j < |row.orderItems| => row.orderItems[j].productTitle.value))
  }

  /** `getOrder`, given what `findOrders` returned (`None` for null). A null
      result is answered NOT_FOUND (the handler does not return there, but its
      later throw comes after the answer). An item whose product is null throws
      on `oi.product.title` outside any `try`, so no answer is sent. */
  function GetOrder(found: Option<seq<OrderRow>>): (r: (Response, seq<OrderSummary>))
    ensures found.None? <==> r.0 == Reply(NotFound, OrderNotFound)
    ensures found.Some? ==> (r.0 == Hang <==> !AllTitled(found.value))
    ensures r.0.kind != Ok ==> r.1 == []
    ensures r.0.kind == Ok <==> found.Some? && AllTitled(found.value)
    ensures r.0.kind == Ok ==> r.0 == Reply(Ok, Success) && |r.1| == |found.value|
    ensures r.0.kind == Ok ==> forall i :: 0 <= i < |r.1| ==>
              && r.1[i].id == found.value[i].id
              && r.1[i].order == found.value[i].order
              && |r.1[i].productNames| == |found.value[i].orderItems|
              && forall j :: 0 <= j < |r.1[i].productNames| ==>
                   Some(r.1[i].productNames[j]) == found.value[i].orderItems[j].productTitle
  {
    match found
    case None => (Reply(NotFound, OrderNotFound), [])
    case Some(rows) =>
      if !AllTitled(rows) then (Hang, [])
      else (Reply(Ok, Success), seq(|rows|, i requires 0 <= i < |rows| => Summarize(rows[i])))
  }

  /** Listing is row by row: two result pages together hang iff one of them
      does, and otherwise their list is the two lists one after the other. */
  lemma GetOrderConcat(a: seq<OrderRow>, b: seq<OrderRow>)
    ensures GetOrder(Some(a + b)).0 == Hang <==> GetOrder(Some(a)).0 == Hang || GetOrder(Some(b)).0 == Hang
    ensures GetOrder(Some(a + b)).0.kind == Ok ==>
              GetOrder(Some(a + b)).1 == GetOrder(Some(a)).1 + GetOrder(Some(b)).1
  {
    if !AllTitled(a) {
      var i :| 0 <= i < |a| && !Titled(a[i]);
      assert (a + b)[i] == a[i];
    } else if !AllTitled(b) {
      var i :| 0 <= i < |b| && !Titled(b[i]);
      assert (a + b)[|a| + i] == b[i];
    }
  }

  /** A summary forgets exactly the item details other than the product
      titles: two rows have the same summary if and only if they agree on
      the id, the order and the sequence of titles. */
  lemma SummaryKeepsTitlesOnly(x: OrderRow, y: OrderRow)
    requires Titled(x) && Titled(y)
    ensures Summarize(x) == Summarize(y) <==>
              && x.id == y.id && x.order == y.order && |x.orderItems| == |y.orderItems|
              && forall j :: 0 <= j < |x.orderItems| ==> x.orderItems[j].productTitle == y.orderItems[j].productTitle
  {
    if Summarize(x) == Summarize(y) {
      forall j | 0 <= j < |x.orderItems|
        ensures x.orderItems[j].productTitle == y.orderItems[j].productTitle
      {
        assert Summarize(x).productNames[j] == Summarize(y).productNames[j];
      }
    }
  }

  // ---------------------------------------------------------------------------
  // getOrderItem

  /** The ids of the items of an order. */
  function ItemsOf(s: Store, order: Id): set<Id> {
    set k | k in s.items && s.items[k].order == order
  }

  /** An item enriched from its product, as the item view shows it; an item
      whose product is gone is shown as stored. */
  function ItemView(products: map<Id, Product>, it: OrderItem): OrderItem {
    if it.product in products then
      var p := products[it.product];
      it.(title := Some(p.title), images := Some(p.images), originalPrice := Some(p.originalPrice),
          saleOff := Some(p.saleOff), price := Some(EffectivePrice(p)))
    else it
  }

  /** `getOrderItem`: the items of the order, each priced from its product. */
  function GetOrderItem(s: Store, orderId: Id): (r: Handled<map<Id, OrderItem>>)
    ensures r.store == s && r.events == []
    ensures orderId == "" <==> r.response == Reply(NotFound, OrderNotFound)
    ensures r.response == Crash <==> orderId != "" && !ValidObjectId(orderId)
    ensures ValidObjectId(orderId) ==> r.response == Reply(Ok, Success) && r.data.Keys == ItemsOf(s, orderId)
    ensures forall k :: k in r.data ==> k in s.items && s.items[k].order == orderId
    ensures forall k :: k in r.data && s.items[k].product in s.products ==>
              var p := s.products[s.items[k].product];
              && r.data[k].price == Some(EffectivePrice(p))
              && r.data[k].title == Some(p.title) && r.data[k].images == Some(p.images)
              && r.data[k].originalPrice == Some(p.originalPrice) && r.data[k].saleOff == Some(p.saleOff)
              && r.data[k].(title := s.items[k].title, images := s.items[k].images,
                            originalPrice := s.items[k].originalPrice, saleOff := s.items[k].saleOff,
                            price := s.items[k].price) == s.items[k]
    ensures forall k :: k in r.data && s.items[k].product !in s.products ==> r.data[k] == s.items[k]
  {
    if orderId == "" then Handled(s, Reply(NotFound, OrderNotFound), map[], [])
    else if !ValidObjectId(orderId) then Handled(s, Crash, map[], [])
    else
      var view := map k | k in s.items && s.items[k].order == orderId :: ItemView(s.products, s.items[k]);
      Handled(s, Reply(Ok, Success), view, [])
  }

  // ---------------------------------------------------------------------------
  // The cart

  /** A pending order of the user: the cart. */
  predicate IsCartOf(o: Order, user: Id) {
    o.fromUser == Some(user) && o.status == OrderPending
  }

  ghost predicate HasCart(s: Store, user: Id) {
    exists k :: k in s.orders && IsCartOf(s.orders[k], user)
  }

  /** At most one pending order per buyer. */
  ghost predicate AtMostOneCart(s: Store, user: Id) {
    forall a, b ::
      (a in s.orders && b in s.orders && IsCartOf(s.orders[a], user) && IsCartOf(s.orders[b], user)) ==> a == b
  }

  /** `OrderService.findPendingOrder`: some pending order of the user. */
  ghost function CartOf(s: Store, user: Id): (r: Option<Id>)
    ensures r.Some? <==> HasCart(s, user)
    ensures r.Some? ==> r.value in s.orders && IsCartOf(s.orders[r.value], user)
  {
    if HasCart(s, user) then
      var k :| k in s.orders && IsCartOf(s.orders[k], user); Some(k)
    else None
  }

  /** `OrderService.createOrder`: an empty pending order of the user. */
  function NewCart(user: Id, code: string): Order {
    Order(Some(user), OrderPending, code, None, None, None, None, None)
  }

  /** The ids and order code the database would generate for one request. */
  datatype Fresh = Fresh(order: Id, code: string, item: Id)

  /** The get-or-create step shared by `addOne` and `addMany`: an existing
      pending order is reused; a new one is created only when none exists. */
  ghost function GetOrCreateCart(s: Store, user: Id, gen: Fresh): (r: (Store, Id))
    requires gen.order !in s.orders
    ensures r.1 in r.0.orders && IsCartOf(r.0.orders[r.1], user)
    ensures HasCart(s, user) ==> r.0 == s
    ensures !HasCart(s, user) ==> r.1 == gen.order && r.0.orders.Keys == s.orders.Keys + {gen.order}
    ensures forall k :: k in s.orders ==> k in r.0.orders && r.0.orders[k] == s.orders[k]
    ensures r.0.items == s.items && r.0.products == s.products && r.0.users == s.users
            && r.0.shops == s.shops && r.0.addresses == s.addresses
  {
    match CartOf(s, user)
    case Some(k) => (s, k)
    case None => (s.(orders := s.orders[gen.order := NewCart(user, gen.code)]), gen.order)
  }

  /** A line of the order for the product. */
  predicate IsLineOf(it: OrderItem, order: Id, product: Id) {
    it.order == order && it.product == product
  }

  ghost predicate HasLine(s: Store, order: Id, product: Id) {
    exists k :: k in s.items && IsLineOf(s.items[k], order, product)
  }

  /** `OrderService.findOrderItem`: some line of the order for the product. */
  ghost function LineOf(s: Store, order: Id, product: Id): (r: Option<Id>)
    ensures r.Some? <==> HasLine(s, order, product)
    ensures r.Some? ==> r.value in s.items && IsLineOf(s.items[r.value], order, product)
  {
    if HasLine(s, order, product) then
      var k :| k in s.items && IsLineOf(s.items[k], order, product); Some(k)
    else None
  }

  /** The line `addItem` creates: the order item schema applied to the cart,
      the product's shop, the product and the quantity. */
  function NewLine(order: Id, shop: Id, productId: Id, quantity: int): (it: OrderItem)
    ensures IsLineOf(it, order, productId) && it.shop == shop && it.quantity == quantity
    ensures it.status == ItemNew && it.price.None?
  {
    NewOrderItem(OrderItemDoc(Some(order), Some(shop), Some(productId), Some(quantity), None)).value
  }

  /** The store with the quantity of item `k` overwritten. */
  function SetQuantity(s: Store, k: Id, quantity: int): (r: Store)
    requires k in s.items
    ensures r.items.Keys == s.items.Keys && r.items[k] == s.items[k].(quantity := quantity)
    ensures forall j :: j in s.items && j != k ==> r.items[j] == s.items[j]
    ensures r.(items := s.items) == s
  {
    s.(items := s.items[k := s.items[k].(quantity := quantity)])
  }

  /** The store with the item `it` added under the fresh id `id`. */
  function InsertItem(s: Store, id: Id, it: OrderItem): (r: Store)
    requires id !in s.items
    ensures r.items.Keys == s.items.Keys + {id} && r.items[id] == it
    ensures forall j :: j in s.items ==> r.items[j] == s.items[j]
    ensures r.(items := s.items) == s
  {
    s.(items := s.items[id := it])
  }

  /** The add-or-update rule of a cart line: with no line for the product and a
      positive quantity a new line is added; with a line its quantity is
      overwritten; with neither nothing is written (`None`). */
  ghost function PutLine(s: Store, order: Id, productId: Id, quantity: int, itemId: Id): (r: (Store, Option<Id>))
    requires productId in s.products && itemId !in s.items
    ensures r.0.orders == s.orders && r.0.products == s.products && r.0.users == s.users
            && r.0.shops == s.shops && r.0.addresses == s.addresses
    ensures r.0.items.Keys <= s.items.Keys + {itemId}
    ensures forall k :: k in s.items ==> k in r.0.items && r.0.items[k].order == s.items[k].order
                                         && r.0.items[k].product == s.items[k].product
    ensures forall k :: k in s.items && (r.1.None? || k != r.1.value) ==> r.0.items[k] == s.items[k]
    ensures r.1.Some? ==> r.1.value in r.0.items && IsLineOf(r.0.items[r.1.value], order, productId)
                          && r.0.items[r.1.value].quantity == quantity
    ensures r.1.None? <==> !HasLine(s, order, productId) && quantity <= 0
    ensures r.1.None? ==> r.0 == s
    ensures HasLine(s, order, productId) ==> r.0.items.Keys == s.items.Keys && r.1.Some? && r.1.value in s.items
    ensures !HasLine(s, order, productId) && quantity > 0 ==>
              && r.1 == Some(itemId) && r.0.items.Keys == s.items.Keys + {itemId}
              && r.0.items[itemId].status == ItemNew && r.0.items[itemId].price.None?
              && r.0.items[itemId].shop == s.products[productId].shop
  {
    match LineOf(s, order, productId)
    case Some(k) => (SetQuantity(s, k, quantity), Some(k))
    case None =>
      if quantity > 0 then
        (InsertItem(s, itemId, NewLine(order, s.products[productId].shop, productId, quantity)), Some(itemId))
      else (s, None)
  }

  /** `addOne`'s `data`: the cart and the line written. */
  datatype CartLine = CartLine(order: Id, item: Id)

  /** `addOne`; `bodyValid` is the verdict of its schema, which is not part of
      this model. The cart is fetched or created before the product is looked
      up, so an unknown product may still leave a new empty cart behind. A
      request with no line and a non-positive quantity hands a null item to
      `updateQuantityItem` and is answered as a crash; so is a product id that
      is not an ObjectId, whose cast throws in `findProductById`, again after
      the cart is fetched or created. */
  ghost function AddOne(s: Store, user: Id, bodyValid: bool, productId: Id, quantity: int, gen: Fresh)
    : (r: Handled<Option<CartLine>>)
    requires gen.order !in s.orders && gen.item !in s.items
    ensures !bodyValid ==> r.response == Reply(BadRequest, ValidationFailed) && r.store == s && r.data.None?
    ensures bodyValid && !ValidObjectId(productId) ==> r.response == Crash
    ensures r.response == Reply(NotFound, ProductNotFound) <==>
              bodyValid && ValidObjectId(productId) && productId !in s.products
    ensures !ValidObjectId(productId) || productId !in s.products ==> r.store.items == s.items && r.data.None?
    ensures r.store.orders.Keys == s.orders.Keys <==> !bodyValid || HasCart(s, user)
    ensures HasCart(s, user) ==> r.store.orders == s.orders
    ensures r.store.products == s.products && r.store.users == s.users
            && r.store.shops == s.shops && r.store.addresses == s.addresses
    ensures r.store.items.Keys <= s.items.Keys + {gen.item}
    ensures r.response.kind == Ok <==> bodyValid && ValidObjectId(productId) && productId in s.products && r.data.Some?
    ensures bodyValid && ValidObjectId(productId) && productId in s.products && quantity > 0 ==>
              r.response == Reply(Ok, Success)
    ensures r.response.kind == Ok ==>
              && r.data.value.order in r.store.orders && IsCartOf(r.store.orders[r.data.value.order], user)
              && r.data.value.item in r.store.items
              && IsLineOf(r.store.items[r.data.value.item], r.data.value.order, productId)
              && r.store.items[r.data.value.item].quantity == quantity
    ensures HasCart(s, user) && HasLine(s, CartOf(s, user).value, productId) ==>
              r.store.items.Keys == s.items.Keys
  {
    if !bodyValid then Handled(s, Reply(BadRequest, ValidationFailed), None, [])
    else
      var (s1, order) := GetOrCreateCart(s, user, gen);
      AddToCart(s1, user, order, productId, quantity, gen.item)
  }

  /** The part of `addOne` after the cart `order` is fetched or created: the
      product lookup and the add-or-update rule. */
  ghost function AddToCart(s: Store, user: Id, order: Id, productId: Id, quantity: int, itemId: Id)
    : (r: Handled<Option<CartLine>>)
    requires order in s.orders && IsCartOf(s.orders[order], user) && itemId !in s.items
    ensures !ValidObjectId(productId) ==> r.response == Crash
    ensures r.response == Reply(NotFound, ProductNotFound) <==> ValidObjectId(productId) && productId !in s.products
    ensures !ValidObjectId(productId) || productId !in s.products ==> r.store == s && r.data.None?
    ensures r.store.orders == s.orders && r.store.products == s.products && r.store.users == s.users
            && r.store.shops == s.shops && r.store.addresses == s.addresses
    ensures r.store.items.Keys <= s.items.Keys + {itemId}
    ensures r.response.kind == Ok <==> ValidObjectId(productId) && productId in s.products && r.data.Some?
    ensures ValidObjectId(productId) && productId in s.products && quantity > 0 ==> r.response == Reply(Ok, Success)
    ensures r.response.kind == Ok ==>
              && r.data.value.order == order
              && r.data.value.item in r.store.items
              && IsLineOf(r.store.items[r.data.value.item], order, productId)
              && r.store.items[r.data.value.item].quantity == quantity
    ensures HasLine(s, order, productId) ==> r.store.items.Keys == s.items.Keys
  {
    if !ValidObjectId(productId) then Handled(s, Crash, None, [])
    else if productId !in s.products then
      Handled(s, Reply(NotFound, ProductNotFound), None, [])
    else
      var (s2, line) := PutLine(s, order, productId, quantity, itemId);
      match line
      case None => Handled(s2, Crash, None, [])
      case Some(k) => Handled(s2, Reply(Ok, Success), Some(CartLine(order, k)), [])
  }

  /** Adding to a cart never creates a second pending order. */
  lemma AddOneKeepsOneCart(s: Store, user: Id, bodyValid: bool, productId: Id, quantity: int, gen: Fresh)
    requires gen.order !in s.orders && gen.item !in s.items
    requires AtMostOneCart(s, user)
    ensures AtMostOneCart(AddOne(s, user, bodyValid, productId, quantity, gen).store, user)
  {
    var r := AddOne(s, user, bodyValid, productId, quantity, gen);
    if bodyValid && !HasCart(s, user) {
      forall a, b | a in r.store.orders && b in r.store.orders && IsCartOf(r.store.orders[a], user)
                    && IsCartOf(r.store.orders[b], user)
        ensures a == b
      {
        if a != gen.order || b != gen.order {
          assert false;
        }
      }
    }
  }

  // ---------------------------------------------------------------------------
  // addMany

  /** One `{productId, quantity}` entry of the request. */
  datatype Entry = Entry(productId: Id, quantity: int)

  /** One `IResAddManyProducts` result: what was applied. */
  datatype Applied = Applied(productId: Id, quantity: int, shop: Id)

  predicate FreshIds(s: Store, ids: seq<Id>) {
    && (forall i :: 0 <= i < |ids| ==> ids[i] !in s.items)
    && (forall i, j :: 0 <= i < j < |ids| ==> ids[i] != ids[j])
  }

  /** One entry applied to the cart `order`: an unknown product is skipped, a
      known one goes through the add-or-update rule. `id` is the id a new line
      would get. */
  ghost function ApplyEntry(s: Store, order: Id, e: Entry, id: Id): (r: (Store, Option<Applied>))
    requires id !in s.items
    ensures r.0.orders == s.orders && r.0.products == s.products && r.0.users == s.users
            && r.0.shops == s.shops && r.0.addresses == s.addresses
    ensures r.0.items.Keys <= s.items.Keys + {id}
    ensures forall k :: k in s.items ==> k in r.0.items && r.0.items[k].order == s.items[k].order
                                         && r.0.items[k].product == s.items[k].product
    ensures forall k :: k in s.items && s.items[k].order != order ==> r.0.items[k] == s.items[k]
    ensures forall k :: k in r.0.items && k !in s.items ==> r.0.items[k].order == order
    ensures r.1.Some? <==> e.productId in s.products && (HasLine(s, order, e.productId) || e.quantity > 0)
    ensures r.1.Some? ==> r.1.value == Applied(e.productId, e.quantity, s.products[e.productId].shop)
                          && HasLine(r.0, order, e.productId)
  {
    if e.productId !in s.products then (s, None)
    else
      var (s1, line) := PutLine(s, order, e.productId, e.quantity, id);
      if line.Some? then
        assert line.value in s1.items && IsLineOf(s1.items[line.value], order, e.productId);
        (s1, Some(Applied(e.productId, e.quantity, s.products[e.productId].shop)))
      else (s1, None)
  }

  /** The entries applied one after the other; the result lists what was
      written. `ids[i]` is the id a new line for entry `i` would get. */
  ghost function AddEntries(s: Store, order: Id, entries: seq<Entry>, ids: seq<Id>): (r: (Store, seq<Applied>))
    requires |ids| == |entries| && FreshIds(s, ids)
    ensures r.0.orders == s.orders && r.0.products == s.products && r.0.users == s.users
            && r.0.shops == s.shops && r.0.addresses == s.addresses
    ensures forall k :: k in s.items ==> k in r.0.items && r.0.items[k].order == s.items[k].order
                                         && r.0.items[k].product == s.items[k].product
    ensures forall k :: k in s.items && s.items[k].order != order ==> r.0.items[k] == s.items[k]
    ensures |r.1| <= |entries|
    decreases |entries|
  {
    if |entries| == 0 then (s, [])
    else
      var (s1, a) := ApplyEntry(s, order, entries[0], ids[0]);
      assert FreshIds(s1, ids[1..]);
      var rest := AddEntries(s1, order, entries[1..], ids[1..]);
      (rest.0, (if a.Some? then [a.value] else []) + rest.1)
  }

  /** A line, once there, stays a line of the same order and product. */
  lemma LinesPersist(s: Store, order: Id, entries: seq<Entry>, ids: seq<Id>, product: Id)
    requires |ids| == |entries| && FreshIds(s, ids)
    requires HasLine(s, order, product)
    ensures HasLine(AddEntries(s, order, entries, ids).0, order, product)
  {
    var k :| k in s.items && IsLineOf(s.items[k], order, product);
    var r := AddEntries(s, order, entries, ids);
    assert k in r.0.items && IsLineOf(r.0.items[k], order, product);
  }

  /** Every result names a known product, comes from an entry of the request,
      and has a line in the cart afterwards. */
  ghost predicate AppliedFromEntries(s: Store, order: Id, entries: seq<Entry>, r: (Store, seq<Applied>)) {
    forall i :: 0 <= i < |r.1| ==>
      && r.1[i].productId in s.products
      && Entry(r.1[i].productId, r.1[i].quantity) in entries
      && HasLine(r.0, order, r.1[i].productId)
  }

  lemma {:induction false} AppliedAreKnownEntries(s: Store, order: Id, entries: seq<Entry>, ids: seq<Id>)
    requires |ids| == |entries| && FreshIds(s, ids)
    ensures AppliedFromEntries(s, order, entries, AddEntries(s, order, entries, ids))
    decreases |entries|
  {
    if |entries| > 0 {
      var (s1, a) := ApplyEntry(s, order, entries[0], ids[0]);
      assert FreshIds(s1, ids[1..]);
      AppliedAreKnownEntries(s1, order, entries[1..], ids[1..]);
      var rest := AddEntries(s1, order, entries[1..], ids[1..]);
      if a.Some? {
        LinesPersist(s1, order, entries[1..], ids[1..], a.value.productId);
      }
      AppliedCons(s, s1, order, entries, a, rest);
    }
  }

  /** The induction step of `AppliedAreKnownEntries`: the head entry's result
      in front of the tail's results. */
  lemma AppliedCons(s: Store, s1: Store, order: Id, entries: seq<Entry>, a: Option<Applied>, rest: (Store, seq<Applied>))
    requires |entries| > 0 && s1.products == s.products
    requires a.Some? ==> && a.value.productId in s.products
                         && Entry(a.value.productId, a.value.quantity) == entries[0]
                         && HasLine(rest.0, order, a.value.productId)
    requires AppliedFromEntries(s1, order, entries[1..], rest)
    ensures AppliedFromEntries(s, order, entries, (rest.0, (if a.Some? then [a.value] else []) + rest.1))
  {
    var head: seq<Applied> := if a.Some? then [a.value] else [];
    var all := head + rest.1;
    forall i | 0 <= i < |all|
      ensures && all[i].productId in s.products
              && Entry(all[i].productId, all[i].quantity) in entries
              && HasLine(rest.0, order, all[i].productId)
    {
      if i >= |head| {
        var x := Entry(rest.1[i - |head|].productId, rest.1[i - |head|].quantity);
        assert all[i] == rest.1[i - |head|];
        var m :| 0 <= m < |entries[1..]| && entries[1..][m] == x;
        assert entries[m + 1] == x;
      }
    }
  }

  /** Every entry whose product is known and whose quantity is positive is
      applied. */
  ghost predicate CoversPositive(s: Store, entries: seq<Entry>, applied: seq<Applied>) {
    forall i :: 0 <= i < |entries| && entries[i].productId in s.products && entries[i].quantity > 0 ==>
      exists j :: 0 <= j < |applied| && applied[j].productId == entries[i].productId
  }

  lemma {:induction false} PositiveEntriesApplied(s: Store, order: Id, entries: seq<Entry>, ids: seq<Id>)
    requires |ids| == |entries| && FreshIds(s, ids)
    ensures CoversPositive(s, entries, AddEntries(s, order, entries, ids).1)
    decreases |entries|
  {
    if |entries| > 0 {
      var (s1, a) := ApplyEntry(s, order, entries[0], ids[0]);
      assert FreshIds(s1, ids[1..]);
      PositiveEntriesApplied(s1, order, entries[1..], ids[1..]);
      var rest := AddEntries(s1, order, entries[1..], ids[1..]);
      assert CoversPositive(s1, entries[1..], rest.1);
      var r := AddEntries(s, order, entries, ids);
      var head: seq<Applied> := if a.Some? then [a.value] else [];
      assert r.1 == head + rest.1;
      forall i | 0 <= i < |entries| && entries[i].productId in s.products && entries[i].quantity > 0
        ensures exists j :: 0 <= j < |r.1| && r.1[j].productId == entries[i].productId
      {
        if i == 0 {
          assert r.1[0] == a.value;
        } else {
          ShiftedWitness(entries, i, rest.1, head, r.1);
        }
      }
    }
  }

  /** The induction step of `PositiveEntriesApplied`: a witness in the tail's
      results is a witness in the whole result. */
  lemma ShiftedWitness(entries: seq<Entry>, i: int, rest: seq<Applied>, head: seq<Applied>, all: seq<Applied>)
    requires 0 < i < |entries| && all == head + rest
    requires exists j :: 0 <= j < |rest| && rest[j].productId == entries[1..][i - 1].productId
    ensures exists j :: 0 <= j < |all| && all[j].productId == entries[i].productId
  {
    var j :| 0 <= j < |rest| && rest[j].productId == entries[1..][i - 1].productId;
    assert all[j + |head|] == rest[j];
  }

  /** `addMany`; `bodyValid` is the verdict of its schema, which is not part
      of this model. A valid request gets or creates the cart and applies the
      entries (an absent list counts as empty), and is always answered OK. */
  ghost function AddMany(s: Store, user: Id, bodyValid: bool, entries: Option<seq<Entry>>, gen: Fresh, ids: seq<Id>)
    : (r: Handled<seq<Applied>>)
    requires gen.order !in s.orders
    requires |ids| == |entries.GetOr([])| && FreshIds(s, ids)
    ensures !bodyValid ==> r.response == Reply(BadRequest, ValidationFailed) && r.store == s && r.data == []
    ensures bodyValid <==> r.response == Response(Ok, [])
    ensures r.store.orders.Keys == s.orders.Keys <==> !bodyValid || HasCart(s, user)
    ensures r.store.products == s.products && r.store.users == s.users
    ensures forall i :: 0 <= i < |r.data| ==> r.data[i].productId in s.products
                                              && Entry(r.data[i].productId, r.data[i].quantity) in entries.GetOr([])
    ensures bodyValid ==>
              forall i :: 0 <= i < |entries.GetOr([])| && entries.value[i].productId in s.products
                          && entries.value[i].quantity > 0 ==>
                exists j :: 0 <= j < |r.data| && r.data[j].productId == entries.value[i].productId
    ensures entries.None? ==> r.data == [] && r.store.items == s.items
    ensures forall k :: k in s.items ==> k in r.store.items
  {
    if !bodyValid then Handled(s, Reply(BadRequest, ValidationFailed), [], [])
    else
      var (s1, order) := GetOrCreateCart(s, user, gen);
      AppliedAreKnownEntries(s1, order, entries.GetOr([]), ids);
      PositiveEntriesApplied(s1, order, entries.GetOr([]), ids);
      var (s2, applied) := AddEntries(s1, order, entries.GetOr([]), ids);
      Handled(s2, Response(Ok, []), applied, [])
  }

  // ---------------------------------------------------------------------------
  // submitOrder

  /** The delivery part of the submit request. */
  datatype Delivery = Delivery(deliveryTime: Option<Date>, note: Option<string>, address: Option<Id>)

  /** One item after the price snapshot: priced from its product when the
      product is found, left as it was otherwise, and moved to processing
      either way. */
  function Snapshot(products: map<Id, Product>, it: OrderItem): OrderItem {
    var priced := if it.product in products then it.(price := Some(EffectivePrice(products[it.product]))) else it;
    priced.(status := ItemProcessing)
  }

  /** What the order service's `updateCost` and `calculateTotal` produce for a
      submitted order: the shipping cost and discount of each item and the
      order total. Their code is not part of this model, so they are given. */
  datatype Costing = Costing(shipping: Id -> int, discount: Id -> int, total: int)

  /** One item of the submitted order: the price snapshot, then the shipping
      cost and discount of `updateCost`. */
  function SubmittedItem(products: map<Id, Product>, c: Costing, k: Id, it: OrderItem): (r: OrderItem)
    ensures r.status == ItemProcessing
    ensures r.shippingCost == Some(c.shipping(k)) && r.discount == Some(c.discount(k))
    ensures it.product in products ==> r.price == Some(EffectivePrice(products[it.product]))
    ensures it.product !in products ==>
              r == it.(status := ItemProcessing, shippingCost := Some(c.shipping(k)), discount := Some(c.discount(k)))
    ensures r.quantity == it.quantity && r.product == it.product && r.order == it.order
  {
    Snapshot(products, it).(shippingCost := Some(c.shipping(k)), discount := Some(c.discount(k)))
  }

  /** The items after submitting `order`: each of its items is submitted, the
      others are left as they were. */
  function SubmitItems(items: map<Id, OrderItem>, products: map<Id, Product>, order: Id, c: Costing)
    : (r: map<Id, OrderItem>)
    ensures r.Keys == items.Keys
    ensures forall k :: k in items && items[k].order == order ==> r[k] == SubmittedItem(products, c, k, items[k])
    ensures forall k :: k in items && items[k].order != order ==> r[k] == items[k]
  {
    map k | k in items :: if items[k].order == order then SubmittedItem(products, c, k, items[k]) else items[k]
  }

  /** Every effect of a submission on the order `order`: its items priced and
      moved to processing, the delivery info applied, the shipping cost,
      discount and total written, and the order finalized. */
  function Finalize(s: Store, order: Id, d: Delivery, c: Costing): (r: Store)
    requires order in s.orders
    ensures r.items.Keys == s.items.Keys && r.orders.Keys == s.orders.Keys
    ensures forall k :: k in s.items && s.items[k].order == order ==> r.items[k].status == ItemProcessing
    ensures forall k :: k in s.items && s.items[k].order == order && s.items[k].product in s.products ==>
              r.items[k].price == Some(EffectivePrice(s.products[s.items[k].product]))
    ensures forall k :: k in s.items && s.items[k].order == order && s.items[k].product !in s.products ==>
              r.items[k] == s.items[k].(status := ItemProcessing, shippingCost := Some(c.shipping(k)),
                                        discount := Some(c.discount(k)))
    ensures forall k :: k in s.items && s.items[k].order == order ==>
              r.items[k].quantity == s.items[k].quantity && r.items[k].product == s.items[k].product
              && r.items[k].order == order
              && r.items[k].shippingCost == Some(c.shipping(k)) && r.items[k].discount == Some(c.discount(k))
    ensures forall k :: k in s.items && s.items[k].order != order ==> r.items[k] == s.items[k]
    ensures forall k :: k in s.orders && k != order ==> r.orders[k] == s.orders[k]
    ensures r.orders[order].status == OrderSubmitted && r.orders[order].fromUser == s.orders[order].fromUser
    ensures r.orders[order].deliveryTime == d.deliveryTime && r.orders[order].note == d.note
            && r.orders[order].address == d.address && r.orders[order].total == Some(c.total)
    ensures r.products == s.products && r.users == s.users && r.shops == s.shops && r.addresses == s.addresses
  {
    var items := SubmitItems(s.items, s.products, order, c);
    var o := s.orders[order].(deliveryTime := d.deliveryTime, note := d.note, address := d.address,
                              total := Some(c.total), status := OrderSubmitted);
    s.(items := items, orders := s.orders[order := o])
  }

  /** `submitOrder` as written; `bodyValid` is the verdict of its schema, which
      is not part of this model. An empty cart is answered NOT_FOUND, but the
      handler does not return there, so the order is still finalized and the
      shops are notified. */
  ghost function SubmitAsWritten(s: Store, user: Id, bodyValid: bool, d: Delivery, c: Costing): (r: Handled<Option<Id>>)
    ensures !bodyValid ==> r.store == s && r.response == Reply(BadRequest, ValidationFailed)
    ensures bodyValid && !HasCart(s, user) ==> r.store == s && r.response == Reply(NotFound, OrderNotFound)
    ensures bodyValid && HasCart(s, user) ==>
              r.store == Finalize(s, CartOf(s, user).value, d, c)
              && (r.response.kind == Ok <==> ItemsOf(s, CartOf(s, user).value) != {})
  {
    if !bodyValid then Handled(s, Reply(BadRequest, ValidationFailed), None, [])
    else
      match CartOf(s, user)
      case None => Handled(s, Reply(NotFound, OrderNotFound), None, [])
      case Some(o) =>
        var response := if ItemsOf(s, o) == {} then Reply(NotFound, OrderNotFound) else Reply(Ok, Success);
        Handled(Finalize(s, o, d, c), response, Some(o), [NotifyShops(o)])
  }

  /** The discrepancy: a pending order with no items is answered NOT_FOUND and
      yet leaves the pending state. */
  lemma EmptyCartIsFinalizedAnyway(s: Store, user: Id, d: Delivery, c: Costing)
    requires HasCart(s, user) && ItemsOf(s, CartOf(s, user).value) == {}
    ensures SubmitAsWritten(s, user, true, d, c).response == Reply(NotFound, OrderNotFound)
    ensures SubmitAsWritten(s, user, true, d, c).store.orders[CartOf(s, user).value].status == OrderSubmitted
    ensures SubmitAsWritten(s, user, true, d, c).store != s
  {
    var o := CartOf(s, user).value;
    assert s.orders[o].status == OrderPending;
  }

  /** `submitOrder` with the early return the empty-cart branch evidently
      intends: an invalid body is BAD_REQUEST; no pending order, or one with no
      items, is NOT_FOUND; all three leave the store as it was. Otherwise the
      cart is finalized. */
  ghost function Submit(s: Store, user: Id, bodyValid: bool, d: Delivery, c: Costing): (r: Handled<Option<Id>>)
    ensures r.response.kind == Ok || r.response == Reply(NotFound, OrderNotFound)
            || r.response == Reply(BadRequest, ValidationFailed)
    ensures r.response == Reply(BadRequest, ValidationFailed) <==> !bodyValid
    ensures r.response.kind != Ok ==> r.store == s && r.events == []
    ensures r.response.kind == Ok <==> bodyValid && HasCart(s, user) && ItemsOf(s, CartOf(s, user).value) != {}
    ensures r.response.kind == Ok ==>
              r.data == CartOf(s, user) && r.store == Finalize(s, r.data.value, d, c)
              && r.events == [NotifyShops(r.data.value)]
  {
    if !bodyValid then Handled(s, Reply(BadRequest, ValidationFailed), None, [])
    else
      match CartOf(s, user)
      case None => Handled(s, Reply(NotFound, OrderNotFound), None, [])
      case Some(o) =>
        if ItemsOf(s, o) == {} then Handled(s, Reply(NotFound, OrderNotFound), None, [])
        else Handled(Finalize(s, o, d, c), Reply(Ok, Success), Some(o), [NotifyShops(o)])
  }

  /** Both versions agree on every invalid body and whenever the cart has
      items. */
  lemma SubmitAgreesOnNonEmptyCarts(s: Store, user: Id, bodyValid: bool, d: Delivery, c: Costing)
    requires !bodyValid || (HasCart(s, user) && ItemsOf(s, CartOf(s, user).value) != {})
    ensures Submit(s, user, bodyValid, d, c) == SubmitAsWritten(s, user, bodyValid, d, c)
  {
  }

  /** With one pending order per buyer, a submitted buyer has no cart left, so
      submitting again is NOT_FOUND. */
  lemma ResubmitIsNotFound(s: Store, user: Id, d: Delivery, c: Costing, d2: Delivery, c2: Costing)
    requires AtMostOneCart(s, user)
    requires Submit(s, user, true, d, c).response.kind == Ok
    ensures Submit(Submit(s, user, true, d, c).store, user, true, d2, c2).response == Reply(NotFound, OrderNotFound)
  {
    var o := CartOf(s, user).value;
    var s' := Submit(s, user, true, d, c).store;
    assert s' == Finalize(s, o, d, c);
    forall k | k in s'.orders
      ensures !IsCartOf(s'.orders[k], user)
    {
      if k != o && IsCartOf(s'.orders[k], user) {
        assert false;
      }
    }
    assert !HasCart(s', user);
  }

  /** Viewed just before submission, a cart line shows the price submission
      then freezes onto it. */
  lemma ShownPriceIsFrozenPrice(s: Store, user: Id, d: Delivery, c: Costing, k: Id)
    requires Submit(s, user, true, d, c).response.kind == Ok
    requires ValidObjectId(CartOf(s, user).value)
    requires k in ItemsOf(s, CartOf(s, user).value) && s.items[k].product in s.products
    ensures GetOrderItem(s, CartOf(s, user).value).data[k].price
            == Submit(s, user, true, d, c).store.items[k].price
  {
    var o := CartOf(s, user).value;
    assert k in GetOrderItem(s, o).data;
  }

  /** The discrepancy: after submission the item view still prices each item
      from the current catalog, so a later change of the product's price
      changes the price shown for a submitted item, which no longer matches
      the frozen price stored on it. */
  lemma ViewRepricesAfterSubmit(s: Store, user: Id, d: Delivery, c: Costing, k: Id, p2: Product)
    requires Submit(s, user, true, d, c).response.kind == Ok
    requires ValidObjectId(CartOf(s, user).value)
    requires k in ItemsOf(s, CartOf(s, user).value) && s.items[k].product in s.products
    requires EffectivePrice(p2) != EffectivePrice(s.products[s.items[k].product])
    ensures var s1 := Submit(s, user, true, d, c).store;
            var s2 := s1.(products := s1.products[s.items[k].product := p2]);
            k in GetOrderItem(s2, CartOf(s, user).value).data
            && GetOrderItem(s2, CartOf(s, user).value).data[k].price != s1.items[k].price
  {
    var o := CartOf(s, user).value;
    var s1 := Submit(s, user, true, d, c).store;
    var s2 := s1.(products := s1.products[s.items[k].product := p2]);
    assert k in s2.items && s2.items[k].order == o;
    assert k in GetOrderItem(s2, o).data;
  }

  /** The item view with the frozen price kept: an item that already carries
      a price (set only by submission) shows that price; the other fields are
      refreshed from the product as before. */
  function FrozenItemView(products: map<Id, Product>, it: OrderItem): (r: OrderItem)
    ensures it.price.Some? ==> r.price == it.price
    ensures it.price.None? ==> r == ItemView(products, it)
    ensures r.(price := it.price) == ItemView(products, it).(price := it.price)
  {
    var v := ItemView(products, it);
    if it.price.Some? then v.(price := it.price) else v
  }

  /** `getOrderItem` with the frozen price kept. */
  function GetOrderItemFrozen(s: Store, orderId: Id): (r: Handled<map<Id, OrderItem>>)
    ensures r.store == s && r.events == []
    ensures orderId == "" <==> r.response == Reply(NotFound, OrderNotFound)
    ensures r.response == Crash <==> orderId != "" && !ValidObjectId(orderId)
    ensures ValidObjectId(orderId) ==> r.response == Reply(Ok, Success) && r.data.Keys == ItemsOf(s, orderId)
    ensures forall k :: k in r.data ==> k in s.items && s.items[k].order == orderId
                                        && r.data[k] == FrozenItemView(s.products, s.items[k])
  {
    if orderId == "" then Handled(s, Reply(NotFound, OrderNotFound), map[], [])
    else if !ValidObjectId(orderId) then Handled(s, Crash, map[], [])
    else
      var view := map k | k in s.items && s.items[k].order == orderId :: FrozenItemView(s.products, s.items[k]);
      Handled(s, Reply(Ok, Success), view, [])
  }

  /** The corrected view shows the frozen price of a submitted item whatever
      the catalog holds afterwards, and on a cart, whose lines carry no price
      yet, it shows exactly what the view as written shows. */
  lemma FrozenPriceIsShown(s: Store, user: Id, d: Delivery, c: Costing, k: Id, products: map<Id, Product>)
    requires Submit(s, user, true, d, c).response.kind == Ok
    requires ValidObjectId(CartOf(s, user).value)
    requires k in ItemsOf(s, CartOf(s, user).value) && s.items[k].product in s.products
    ensures var s1 := Submit(s, user, true, d, c).store;
            var v := GetOrderItemFrozen(s1.(products := products), CartOf(s, user).value);
            k in v.data && v.data[k].price == s1.items[k].price
  {
    var o := CartOf(s, user).value;
    var s1 := Submit(s, user, true, d, c).store;
    assert s1.items[k].price.Some?;
    assert k in s1.items && s1.items[k].order == o;
    assert k in GetOrderItemFrozen(s1.(products := products), o).data;
  }

  /** On items with no stored price, such as every line of a cart, the
      corrected view and the view as written agree. */
  lemma FrozenViewAgreesOnCarts(s: Store, orderId: Id)
    requires forall k :: k in s.items && s.items[k].order == orderId ==> s.items[k].price.None?
    ensures GetOrderItemFrozen(s, orderId) == GetOrderItem(s, orderId)
  {
    var a := GetOrderItemFrozen(s, orderId);
    var b := GetOrderItem(s, orderId);
    if ValidObjectId(orderId) {
      assert a.data.Keys == b.data.Keys;
      forall k | k in a.data
        ensures a.data[k] == b.data[k]
      {
        assert a.data[k] == ItemView(s.products, s.items[k]);
      }
      assert a.data == b.data;
    }
  }

  // ---------------------------------------------------------------------------
  // getOrderShippingCost

  /** What the shipping-cost provider answers for (shop address, destination). */
  datatype Shipping = Shipping(cost: int, distance: int)

  predicate IsOriginOf(a: Address, shop: Id) {
    a.shop == Some(shop) && a.addressType == ShopAddress
  }

  ghost predicate HasOrigin(s: Store, shop: Id) {
    exists a :: a in s.addresses && IsOriginOf(s.addresses[a], shop)
  }

  /** `AddressService.findDeliveryAddressByShopId`: some shop address of the shop. */
  ghost function OriginOf(s: Store, shop: Id): (r: Option<Id>)
    ensures r.Some? <==> HasOrigin(s, shop)
    ensures r.Some? ==> r.value in s.addresses && IsOriginOf(s.addresses[r.value], shop)
  {
    if HasOrigin(s, shop) then
      var a :| a in s.addresses && IsOriginOf(s.addresses[a], shop); Some(a)
    else None
  }

  /** `getOrderShippingCost`: a preview of the shipping cost of every item of a
      pending order; nothing is saved. `bodyValid` is the verdict of its
      schema, which is not part of this model. A missing order is NOT_FOUND and
      a non-pending one WRONG_STATUS (the first answer given). An order id
      that is not an ObjectId makes the cast in `findOrderById` throw, and an
      item whose shop has no address throws on `shopAddress._id`; in both
      cases the handler's `catch` throws again on `Object.keys(e.errors)`,
      so the request is never answered. */
  ghost function ShippingPreview(s: Store, bodyValid: bool, orderId: Id, destination: Id, cost: (Id, Id) -> Shipping)
    : (r: Handled<map<Id, OrderItem>>)
    ensures r.store == s && r.events == []
    ensures !bodyValid ==> r.response == Reply(BadRequest, ValidationFailed)
    ensures bodyValid && !ValidObjectId(orderId) ==> r.response == Hang
    ensures r.response == Reply(NotFound, OrderNotFound) <==> bodyValid && ValidObjectId(orderId) && orderId !in s.orders
    ensures r.response == Reply(BadRequest, WrongStatus) <==>
              bodyValid && ValidObjectId(orderId) && orderId in s.orders && s.orders[orderId].status != OrderPending
    ensures r.response == Hang <==>
              || (bodyValid && !ValidObjectId(orderId))
              || (&& bodyValid && ValidObjectId(orderId) && orderId in s.orders && s.orders[orderId].status == OrderPending
                  && exists k :: k in ItemsOf(s, orderId) && !HasOrigin(s, s.items[k].shop))
    ensures r.response.kind == Ok <==>
              && bodyValid && ValidObjectId(orderId) && orderId in s.orders && s.orders[orderId].status == OrderPending
              && forall k :: k in ItemsOf(s, orderId) ==> HasOrigin(s, s.items[k].shop)
    ensures r.response.kind == Ok ==> r.response == Reply(Ok, Success) && r.data.Keys == ItemsOf(s, orderId)
    ensures forall k :: k in r.data ==>
              && k in s.items && HasOrigin(s, s.items[k].shop)
              && r.data[k] == s.items[k].(shippingCost := r.data[k].shippingCost,
                                          shippingDistance := r.data[k].shippingDistance)
              && r.data[k].shippingCost == Some(cost(OriginOf(s, s.items[k].shop).value, destination).cost)
              && r.data[k].shippingDistance == Some(cost(OriginOf(s, s.items[k].shop).value, destination).distance)
  {
    if !bodyValid then Handled(s, Reply(BadRequest, ValidationFailed), map[], [])
    else if !ValidObjectId(orderId) then Handled(s, Hang, map[], [])
    else if orderId !in s.orders then Handled(s, Reply(NotFound, OrderNotFound), map[], [])
    else if s.orders[orderId].status != OrderPending then Handled(s, Reply(BadRequest, WrongStatus), map[], [])
    else if exists k :: k in ItemsOf(s, orderId) && !HasOrigin(s, s.items[k].shop) then Handled(s, Hang, map[], [])
    else
      var priced := map k | k in ItemsOf(s, orderId) ::
        var sh := cost(OriginOf(s, s.items[k].shop).value, destination);
        s.items[k].(shippingCost := Some(sh.cost), shippingDistance := Some(sh.distance));
      Handled(s, Reply(Ok, Success), priced, [])
  }

  /** The cost is a function of the shop and the destination only: two items of
      the same shop get the same cost and distance. */
  lemma SameShopSameShipping(s: Store, orderId: Id, destination: Id, cost: (Id, Id) -> Shipping, a: Id, b: Id)
    requires var r := ShippingPreview(s, true, orderId, destination, cost); a in r.data && b in r.data
    requires s.items[a].shop == s.items[b].shop
    ensures var r := ShippingPreview(s, true, orderId, destination, cost);
            r.data[a].shippingCost == r.data[b].shippingCost
            && r.data[a].shippingDistance == r.data[b].shippingDistance
  {
  }

  /** A successful preview covers exactly the items the item view lists for
      the same order, and since it saves nothing, the item view afterwards
      is the one before: the previewed cost never reaches a stored item. */
  lemma PreviewMatchesItemView(s: Store, orderId: Id, destination: Id, cost: (Id, Id) -> Shipping)
    requires ShippingPreview(s, true, orderId, destination, cost).response.kind == Ok
    ensures var r := ShippingPreview(s, true, orderId, destination, cost);
            && r.data.Keys == GetOrderItem(s, orderId).data.Keys
            && GetOrderItem(r.store, orderId) == GetOrderItem(s, orderId)
            && forall k :: k in r.data ==> r.data[k].quantity == GetOrderItem(s, orderId).data[k].quantity
                                           && r.data[k].shippingCost.Some?
  {
  }
}

=== FILE: products.dfy ===
/** The seller side of `ProductController`: creating a product (permission,
    price check and the null/empty defaults of the record handed to the
    product service), updating one (ownership, the sale-off recomputation and
    the price check), and the bulk status change. */
module Products {
  import opened Common
  import opened Models
  import opened Schemas

  // ---------------------------------------------------------------------------
  // addOne

  /** The body of a product creation (its schema is not part of this model). */
  datatype ProductAddRequest = ProductAddRequest(
    title: Option<string>,
    sku: Option<string>,
    description: Option<string>,
    images: Option<seq<string>>,
    topic: Option<int>,
    salePrice: Option<int>,
    originalPrice: Option<int>,
    keywordList: Option<seq<string>>,
    startDate: Option<Date>,
    endDate: Option<Date>,
    saleActive: Option<bool>,
    freeShip: Option<bool>,
    design: Option<int>,
    specialOccasion: Option<int>,
    floret: Option<int>,
    status: Option<Status>,
    city: Option<string>,
    district: Option<int>,
    color: Option<int>,
    seoUrl: Option<string>,
    seoDescription: Option<string>,
    seoImage: Option<string>)

  /** The record `addOne` hands to `ProductService.createProduct`. */
  datatype ProductDraft = ProductDraft(
    title: Option<string>,
    sku: Option<string>,
    description: Option<string>,
    topic: Option<int>,
    saleActive: Option<bool>,
    freeShip: Option<bool>,
    startDate: Option<Date>,
    endDate: Option<Date>,
    originalPrice: Option<int>,
    status: Option<Status>,
    shopId: Id,
    keywordList: seq<string>,
    salePrice: Option<int>,
    images: seq<string>,
    design: Option<int>,
    specialOccasion: Option<int>,
    floret: Option<int>,
    city: Option<string>,
    district: Option<int>,
    color: Option<int>,
    seoUrl: Option<string>,
    seoDescription: Option<string>,
    seoImage: Option<string>)

  /** `Number(salePrice) > Number(originalPrice)`: an absent price is `NaN`,
      and a comparison with `NaN` is false. */
  predicate SaleAboveOriginal(salePrice: Option<int>, originalPrice: Option<int>) {
    salePrice.Some? && originalPrice.Some? && salePrice.value > originalPrice.value
  }

  /** A draft field built with `x || null` from a number: present exactly when
      the request's value is truthy, and then that value. */
  predicate NumIfTruthy(field: Option<int>, given: Option<int>) {
    (field.Some? <==> TruthyNum(given)) && (field.Some? ==> field == given)
  }

  /** The same for a string field. */
  predicate TextIfTruthy(field: Option<string>, given: Option<string>) {
    (field.Some? <==> TruthyStr(given)) && (field.Some? ==> field == given)
  }

  /** What the draft of an accepted request holds: the shop of the seller;
      title, sku, description, original price, sale flag, topic, free-shipping
      flag and status as given; keywords and images as given or empty; every
      field built with `x || null` present exactly when the request's value is
      truthy. */
  predicate DraftFollows(d: ProductDraft, req: ProductAddRequest, shop: Id) {
    && d.shopId == shop
    && d.title == req.title && d.sku == req.sku && d.description == req.description
    && d.originalPrice == req.originalPrice && d.saleActive == req.saleActive
    && d.topic == req.topic && d.freeShip == req.freeShip && d.status == req.status
    && d.keywordList == (if req.keywordList.Some? then req.keywordList.value else [])
    && d.images == (if req.images.Some? then req.images.value else [])
    && NumIfTruthy(d.salePrice, req.salePrice)
    && NumIfTruthy(d.startDate, req.startDate) && NumIfTruthy(d.endDate, req.endDate)
    && NumIfTruthy(d.design, req.design) && NumIfTruthy(d.specialOccasion, req.specialOccasion)
    && NumIfTruthy(d.floret, req.floret) && NumIfTruthy(d.district, req.district)
    && NumIfTruthy(d.color, req.color)
    && TextIfTruthy(d.city, req.city) && TextIfTruthy(d.seoUrl, req.seoUrl)
    && TextIfTruthy(d.seoDescription, req.seoDescription) && TextIfTruthy(d.seoImage, req.seoImage)
  }

  /** The record `addOne` builds for `createProduct`. */
  function Draft(req: ProductAddRequest, shop: Id): (d: ProductDraft)
    ensures DraftFollows(d, req, shop)
  {
    ProductDraft(
      req.title, req.sku, req.description, req.topic, req.saleActive, req.freeShip,
      OrNullNum(req.startDate), OrNullNum(req.endDate), req.originalPrice, req.status, shop,
      req.keywordList.GetOr([]), OrNullNum(req.salePrice), req.images.GetOr([]),
      OrNullNum(req.design), OrNullNum(req.specialOccasion), OrNullNum(req.floret),
      OrNullStr(req.city), OrNullNum(req.district), OrNullNum(req.color),
      OrNullStr(req.seoUrl), OrNullStr(req.seoDescription), OrNullStr(req.seoImage))
  }

  /** `addOne` after validation (`bodyValid` is the verdict of its schema).
      The draft goes to the product service, which is not part of this model;
      a seller without an active shop crashes on `shop._id`. */
  function AddProduct(s: Store, user: Id, bodyValid: bool, req: ProductAddRequest): (r: Handled<Option<ProductDraft>>)
    requires user in s.users
    ensures r.store == s
    ensures !bodyValid ==> r.response == Reply(BadRequest, ValidationFailed)
    ensures bodyValid ==>
              (r.response == Reply(BadRequest, NoAddProductPermission) <==> s.users[user].userType != Seller)
    ensures bodyValid && s.users[user].userType == Seller ==>
              (r.response == Reply(BadRequest, NotValidPrice) <==> SaleAboveOriginal(req.salePrice, req.originalPrice))
    ensures r.response.kind == Ok <==>
              && bodyValid && s.users[user].userType == Seller
              && !SaleAboveOriginal(req.salePrice, req.originalPrice) && ShopOfUser(s, user).Some?
    ensures r.response.kind == Ok ==> r.response == Reply(Ok, AddProductSuccess) && r.data.Some?
    ensures r.response.kind != Ok ==> r.data.None? && r.events == []
    ensures r.data.Some? ==> DraftFollows(r.data.value, req, ShopOfUser(s, user).value)
    ensures r.data.Some? ==> (r.events == [ConfirmImages(r.data.value.images)] <==> r.data.value.images != [])
    ensures r.data.Some? && r.data.value.images == [] ==> r.events == []
  {
    if !bodyValid then Handled(s, Reply(BadRequest, ValidationFailed), None, [])
    else if s.users[user].userType != Seller then Handled(s, Reply(BadRequest, NoAddProductPermission), None, [])
    else if SaleAboveOriginal(req.salePrice, req.originalPrice) then Handled(s, Reply(BadRequest, NotValidPrice), None, [])
    else
      match ShopOfUser(s, user)
      case None => Handled(s, Crash, None, [])
      case Some(shop) =>
        var d := Draft(req, shop);
        var events := if d.images != [] then [ConfirmImages(d.images)] else [];
        Handled(s, Reply(Ok, AddProductSuccess), Some(d), events)
  }

  /** `addOne` as written. `findShopOfUser` answers a row of the SQL `SHOPS`
      table, which has an integer `id` and no `_id`, so `shop._id.toString()`
      throws inside the `try` whether or not a shop was found: every request
      that passes the checks is answered as a crash and no product is made. */
  function AddProductAsWritten(s: Store, user: Id, bodyValid: bool, req: ProductAddRequest)
    : (r: Handled<Option<ProductDraft>>)
    requires user in s.users
    ensures r.store == s && r.data.None? && r.events == []
    ensures r.response.kind != Ok
    ensures !bodyValid ==> r.response == Reply(BadRequest, ValidationFailed)
    ensures bodyValid ==>
              (r.response == Reply(BadRequest, NoAddProductPermission) <==> s.users[user].userType != Seller)
    ensures bodyValid && s.users[user].userType == Seller ==>
              (r.response == Reply(BadRequest, NotValidPrice) <==> SaleAboveOriginal(req.salePrice, req.originalPrice))
    ensures r.response == Crash <==>
              bodyValid && s.users[user].userType == Seller && !SaleAboveOriginal(req.salePrice, req.originalPrice)
  {
    if !bodyValid then Handled(s, Reply(BadRequest, ValidationFailed), None, [])
    else if s.users[user].userType != Seller then Handled(s, Reply(BadRequest, NoAddProductPermission), None, [])
    else if SaleAboveOriginal(req.salePrice, req.originalPrice) then Handled(s, Reply(BadRequest, NotValidPrice), None, [])
    else Handled(s, Crash, None, [])
  }

  /** The discrepancy: a product the corrected handler accepts is a crash as
      written; every other request is answered alike by both. */
  lemma AsWrittenSellerCannotAdd(s: Store, user: Id, bodyValid: bool, req: ProductAddRequest)
    requires user in s.users
    ensures AddProduct(s, user, bodyValid, req).response.kind == Ok ==>
              AddProductAsWritten(s, user, bodyValid, req).response == Crash
    ensures AddProduct(s, user, bodyValid, req).response.kind != Ok ==>
              AddProductAsWritten(s, user, bodyValid, req) == AddProduct(s, user, bodyValid, req)
  {
  }

  /** A draft read back as a creation request. */
  function AsRequest(d: ProductDraft): ProductAddRequest {
    ProductAddRequest(
      d.title, d.sku, d.description, Some(d.images), d.topic, d.salePrice, d.originalPrice,
      Some(d.keywordList), d.startDate, d.endDate, d.saleActive, d.freeShip, d.design,
      d.specialOccasion, d.floret, d.status, d.city, d.district, d.color,
      d.seoUrl, d.seoDescription, d.seoImage)
  }

  /** The defaults `addOne` applies are settled: sending an accepted draft back
      as a request is accepted again and yields the same draft, answer and
      events. */
  lemma DraftIsSettled(s: Store, user: Id, bodyValid: bool, req: ProductAddRequest)
    requires user in s.users
    requires AddProduct(s, user, bodyValid, req).data.Some?
    ensures var r := AddProduct(s, user, bodyValid, req);
            AddProduct(s, user, true, AsRequest(r.data.value)) == r
  {
  }

  // ---------------------------------------------------------------------------
  // updateOne

  /** The sale-off `updateOne` computes. A truthy `salePrice` different from
      the current one starts a new active sale running from `now` to
      `monthLater`; otherwise the current sale-off is the base. Then, with a
      truthy `saleActive`, any truthy price and dates overwrite the base;
      without it the sale is switched off. */
  function RecomputeSaleOff(cur: SaleOff, req: ProductUpdateRequest, now: Date, monthLater: Date): (r: SaleOff)
    ensures !TruthyBool(req.saleActive) ==> !r.active
    ensures TruthyBool(req.saleActive) ==>
              (r.active <==> cur.active || (TruthyNum(req.salePrice) && req.salePrice.value != cur.price))
    ensures TruthyNum(req.salePrice) ==> r.price == req.salePrice.value
    ensures !TruthyNum(req.salePrice) ==> r.price == cur.price
    ensures TruthyBool(req.saleActive) && TruthyNum(req.startDate) ==> r.startDate == req.startDate
    ensures TruthyBool(req.saleActive) && TruthyNum(req.endDate) ==> r.endDate == req.endDate
    ensures TruthyNum(req.salePrice) && req.salePrice.value != cur.price ==>
              (!TruthyBool(req.saleActive) || !TruthyNum(req.startDate) ==> r.startDate == Some(now))
              && (!TruthyBool(req.saleActive) || !TruthyNum(req.endDate) ==> r.endDate == Some(monthLater))
    ensures !(TruthyNum(req.salePrice) && req.salePrice.value != cur.price) ==>
              (!TruthyBool(req.saleActive) || !TruthyNum(req.startDate) ==> r.startDate == cur.startDate)
              && (!TruthyBool(req.saleActive) || !TruthyNum(req.endDate) ==> r.endDate == cur.endDate)
  {
    var base := if TruthyNum(req.salePrice) && req.salePrice.value != cur.price
                then SaleOff(req.salePrice.value, Some(now), Some(monthLater), true)
                else cur;
    if TruthyBool(req.saleActive) then
      base.(price := if TruthyNum(req.salePrice) then req.salePrice.value else base.price,
            startDate := if TruthyNum(req.startDate) then req.startDate else base.startDate,
            endDate := if TruthyNum(req.endDate) then req.endDate else base.endDate)
    else base.(active := false)
  }

  /** A `salePrice` of 0 is falsy, so it is treated exactly as an absent one:
      the branch that would reset the sale to a zero price can never run. */
  lemma ZeroSalePriceIsIgnored(cur: SaleOff, req: ProductUpdateRequest, now: Date, monthLater: Date)
    requires req.salePrice == Some(0)
    ensures RecomputeSaleOff(cur, req, now, monthLater)
            == RecomputeSaleOff(cur, req.(salePrice := None), now, monthLater)
  {
  }

  /** The price check of `updateOne`: `(salePrice || current sale price) >
      (originalPrice || current original price)`. */
  predicate UpdateRejectedOnPrice(cur: Product, req: ProductUpdateRequest) {
    var sale := if TruthyNum(req.salePrice) then req.salePrice.value else cur.saleOff.price;
    var original := if TruthyNum(req.originalPrice) then req.originalPrice.value else cur.originalPrice;
    sale > original
  }

  function Keep<T>(given: Option<T>, current: T): T {
    if given.Some? then given.value else current
  }

  function KeepOpt<T>(given: Option<T>, current: Option<T>): Option<T> {
    if given.Some? then given else current
  }

  /** A field after an update: the given value when the key is sent, the old
      value when it is not. */
  predicate Overwritten<T(==)>(given: Option<T>, before: T, after: T) {
    (given.Some? ==> after == given.value) && (given.None? ==> after == before)
  }

  /** The same for a field that may itself be unset. */
  predicate OverwrittenOpt<T(==)>(given: Option<T>, before: Option<T>, after: Option<T>) {
    (given.Some? ==> after == given) && (given.None? ==> after == before)
  }

  /** `ProductService.updateProduct`, taken as: every given key overwrites the
      field, every absent key leaves it as it was. */
  function ApplyUpdate(p: Product, req: ProductUpdateRequest, saleOff: SaleOff): (r: Product)
    ensures r.saleOff == saleOff
    ensures Overwritten(req.title, p.title, r.title) && Overwritten(req.sku, p.sku, r.sku)
    ensures Overwritten(req.description, p.description, r.description) && Overwritten(req.topic, p.topic, r.topic)
    ensures Overwritten(req.originalPrice, p.originalPrice, r.originalPrice)
    ensures Overwritten(req.keywordList, p.keywordList, r.keywordList) && Overwritten(req.images, p.images, r.images)
    ensures OverwrittenOpt(req.design, p.design, r.design)
    ensures OverwrittenOpt(req.specialOccasion, p.specialOccasion, r.specialOccasion)
    ensures OverwrittenOpt(req.floret, p.floret, r.floret) && OverwrittenOpt(req.city, p.city, r.city)
    ensures OverwrittenOpt(req.district, p.district, r.district) && OverwrittenOpt(req.color, p.color, r.color)
    ensures OverwrittenOpt(req.seoUrl, p.seoUrl, r.seoUrl)
    ensures OverwrittenOpt(req.seoDescription, p.seoDescription, r.seoDescription)
    ensures OverwrittenOpt(req.seoImage, p.seoImage, r.seoImage) && OverwrittenOpt(req.freeShip, p.freeShip, r.freeShip)
    ensures r.(title := p.title, sku := p.sku, description := p.description, topic := p.topic,
               originalPrice := p.originalPrice, keywordList := p.keywordList, saleOff := p.saleOff,
               images := p.images, design := p.design, specialOccasion := p.specialOccasion,
               floret := p.floret, city := p.city, district := p.district, color := p.color,
               seoUrl := p.seoUrl, seoDescription := p.seoDescription, seoImage := p.seoImage,
               freeShip := p.freeShip) == p
  {
    p.(title := Keep(req.title, p.title), sku := Keep(req.sku, p.sku),
       description := Keep(req.description, p.description), topic := Keep(req.topic, p.topic),
       originalPrice := Keep(req.originalPrice, p.originalPrice),
       keywordList := Keep(req.keywordList, p.keywordList), saleOff := saleOff,
       images := Keep(req.images, p.images),
       design := KeepOpt(req.design, p.design), specialOccasion := KeepOpt(req.specialOccasion, p.specialOccasion),
       floret := KeepOpt(req.floret, p.floret), city := KeepOpt(req.city, p.city),
       district := KeepOpt(req.district, p.district), color := KeepOpt(req.color, p.color),
       seoUrl := KeepOpt(req.seoUrl, p.seoUrl), seoDescription := KeepOpt(req.seoDescription, p.seoDescription),
       seoImage := KeepOpt(req.seoImage, p.seoImage), freeShip := KeepOpt(req.freeShip, p.freeShip))
  }

  /** The product owned by `user`: its shop exists and belongs to the user. */
  predicate OwnedBy(s: Store, id: Id, user: Id) {
    id in s.products && s.products[id].shop in s.shops && s.shops[s.products[id].shop].user == user
  }

  /** `updateOne` once the body has passed its schema. `getProductDetailById`
      casts the id, so a malformed one throws inside the `try` and is answered
      as a crash; so is a product whose shop record is gone, on
      `product.shop.user`. */
  function UpdateValidated(s: Store, user: Id, id: Id, req: ProductUpdateRequest, now: Date, monthLater: Date)
    : (r: Handled<()>)
    requires user in s.users
    ensures !ValidObjectId(id) ==> r.response == Crash
    ensures r.response == Reply(NotFound, ProductNotFound) <==>
              ValidObjectId(id) && (id !in s.products || (s.products[id].shop in s.shops && !OwnedBy(s, id, user)))
    ensures ValidObjectId(id) && OwnedBy(s, id, user) ==>
              (r.response == Reply(BadRequest, NoUpdateProductPermission) <==> s.users[user].userType != Seller)
    ensures ValidObjectId(id) && OwnedBy(s, id, user) && s.users[user].userType == Seller ==>
              (r.response == Reply(BadRequest, NotValidPrice) <==> UpdateRejectedOnPrice(s.products[id], req))
    ensures r.response.kind == Ok <==>
              && ValidObjectId(id) && OwnedBy(s, id, user) && s.users[user].userType == Seller
              && !UpdateRejectedOnPrice(s.products[id], req)
    ensures r.response.kind != Ok ==> r.store == s && r.events == []
    ensures r.response.kind == Ok ==>
              && r.response == Reply(Ok, UpdateProductSuccess)
              && r.store.products.Keys == s.products.Keys
              && r.store.products[id].saleOff == RecomputeSaleOff(s.products[id].saleOff, req, now, monthLater)
              && r.store.products[id].updatedAt == now
              && r.store.products[id].shop == s.products[id].shop
              && (forall k :: k in s.products && k != id ==> r.store.products[k] == s.products[k])
              && r.store.(products := s.products) == s
              && (r.events != [] <==> req.images.Some?)
              && (req.images.Some? ==> r.events == [UpdateImages(s.products[id].images, req.images.value)])
  {
    if !ValidObjectId(id) then Handled(s, Crash, (), [])
    else if id !in s.products then Handled(s, Reply(NotFound, ProductNotFound), (), [])
    else
      var p := s.products[id];
      if p.shop !in s.shops then Handled(s, Crash, (), [])
      else if s.shops[p.shop].user != user then Handled(s, Reply(NotFound, ProductNotFound), (), [])
      else if s.users[user].userType != Seller then Handled(s, Reply(BadRequest, NoUpdateProductPermission), (), [])
      else
        var saleOff := RecomputeSaleOff(p.saleOff, req, now, monthLater);
        if UpdateRejectedOnPrice(p, req) then Handled(s, Reply(BadRequest, NotValidPrice), (), [])
        else
          var saved := SaveProduct(ApplyUpdate(p, req, saleOff), now);
          var events := if req.images.Some? then [UpdateImages(p.images, req.images.value)] else [];
          Handled(s.(products := s.products[id := saved]), Reply(Ok, UpdateProductSuccess), (), events)
  }

  /** An accepted update keeps the sale price at or below the original price,
      unless the body sets the original price to 0, which the price guard reads as
      "keep the current one" while the update stores it. */
  lemma UpdateKeepsSaleBelowOriginal(s: Store, user: Id, id: Id, req: ProductUpdateRequest, now: Date, monthLater: Date)
    requires user in s.users
    requires UpdateValidated(s, user, id, req, now, monthLater).response.kind == Ok
    requires req.originalPrice != Some(0)
    ensures var p := UpdateValidated(s, user, id, req, now, monthLater).store.products[id];
            p.saleOff.price <= p.originalPrice
  {
  }

  /** `updateOne` with the update-one schema as written. */
  function UpdateOneAsWritten(s: Store, user: Id, id: Id, req: ProductUpdateRequest, now: Date, monthLater: Date)
    : (r: Handled<()>)
    requires user in s.users
    ensures !ValidProductUpdateAsWritten(req) ==> r.response == Reply(BadRequest, ValidationFailed) && r.store == s
    ensures ValidProductUpdateAsWritten(req) ==> r == UpdateValidated(s, user, id, req, now, monthLater)
  {
    if !ValidProductUpdateAsWritten(req) then Handled(s, Reply(BadRequest, ValidationFailed), (), [])
    else UpdateValidated(s, user, id, req, now, monthLater)
  }

  /** The discrepancy: the written schema rejects `saleActive`, so every update
      it lets through switches the product's sale off, and `salePrice`,
      `freeShip` and `keywordList` can never be changed. */
  lemma AsWrittenUpdateEndsTheSale(s: Store, user: Id, id: Id, req: ProductUpdateRequest, now: Date, monthLater: Date)
    requires user in s.users
    requires UpdateOneAsWritten(s, user, id, req, now, monthLater).response.kind == Ok
    ensures var p := UpdateOneAsWritten(s, user, id, req, now, monthLater).store.products[id];
            !p.saleOff.active
            && p.saleOff.price == s.products[id].saleOff.price
            && p.freeShip == s.products[id].freeShip && p.keywordList == s.products[id].keywordList
  {
  }

  /** `updateOne` with the schema declaring the keys the handler reads. */
  function UpdateOne(s: Store, user: Id, id: Id, req: ProductUpdateRequest, now: Date, monthLater: Date)
    : (r: Handled<()>)
    requires user in s.users
    ensures !ValidProductUpdate(req) ==> r.response == Reply(BadRequest, ValidationFailed) && r.store == s
    ensures ValidProductUpdate(req) ==> r == UpdateValidated(s, user, id, req, now, monthLater)
  {
    if !ValidProductUpdate(req) then Handled(s, Reply(BadRequest, ValidationFailed), (), [])
    else UpdateValidated(s, user, id, req, now, monthLater)
  }

  /** With the corrected schema a seller can start a sale: a new sale price
      with `saleActive` set leaves the product on an active sale at that
      price. */
  lemma CorrectedUpdateStartsSale(s: Store, user: Id, id: Id, req: ProductUpdateRequest, now: Date, monthLater: Date)
    requires user in s.users
    requires req.saleActive == Some(true) && TruthyNum(req.salePrice)
    requires UpdateOne(s, user, id, req, now, monthLater).response.kind == Ok
    ensures var p := UpdateOne(s, user, id, req, now, monthLater).store.products[id];
            p.saleOff.active || (s.products[id].saleOff.price == req.salePrice.value && !s.products[id].saleOff.active)
    ensures req.salePrice.value != s.products[id].saleOff.price ==>
              var p := UpdateOne(s, user, id, req, now, monthLater).store.products[id];
              p.saleOff.active && p.saleOff.price == req.salePrice.value
  {
  }

  // ---------------------------------------------------------------------------
  // updateStatus

  /** A product the `findOne({_id, shop})` of `updateStatus` finds. */
  predicate InShop(s: Store, shop: Id, pid: Id) {
    pid in s.products && s.products[pid].shop == shop
  }

  /** The product after `product.status = status; product.save()`. */
  function WithStatus(p: Product, status: Status, now: Date): (r: Product)
    ensures r.status == status && r.updatedAt == now && r.shop == p.shop
  {
    SaveProduct(p.(status := status), now)
  }

  /** Setting the same status twice in one request is the same as once. */
  lemma WithStatusIdempotent(p: Product, status: Status, now: Date)
    ensures WithStatus(WithStatus(p, status, now), status, now) == WithStatus(p, status, now)
  {
  }

  /** A requested id whose lookup finds a product of the shop. */
  predicate Hit(s: Store, shop: Id, ids: seq<Id>, k: Id) {
    k in ids && ValidObjectId(k) && InShop(s, shop, k)
  }

  /** A product after the lookups of `ids`. */
  function AfterLookups(s: Store, shop: Id, ids: seq<Id>, status: Status, now: Date, k: Id): Product
    requires k in s.products
  {
    if Hit(s, shop, ids, k) then WithStatus(s.products[k], status, now) else s.products[k]
  }

  /** `products` is the catalog after the lookups of `ids`. */
  ghost predicate ProductsAfter(s: Store, shop: Id, ids: seq<Id>, status: Status, now: Date, products: map<Id, Product>) {
    products.Keys == s.products.Keys
    && forall k :: k in s.products ==> products[k] == AfterLookups(s, shop, ids, status, now, k)
  }

  /** `notFound` lists exactly the ObjectIds of `ids` outside the shop. */
  ghost predicate NotFoundAfter(s: Store, shop: Id, ids: seq<Id>, notFound: seq<Id>) {
    forall x :: x in notFound <==> x in ids && ValidObjectId(x) && !InShop(s, shop, x)
  }

  /** The effect of one lookup on the catalog. */
  function LookupOne(shop: Id, products: map<Id, Product>, pid: Id, status: Status, now: Date): map<Id, Product> {
    if ValidObjectId(pid) && pid in products && products[pid].shop == shop
    then products[pid := WithStatus(products[pid], status, now)]
    else products
  }

  /** One more lookup changes at most the product it finds. */
  lemma ProductsStep(s: Store, shop: Id, ids: seq<Id>, pid: Id, status: Status, now: Date,
                                        products: map<Id, Product>)
    requires ProductsAfter(s, shop, ids, status, now, products)
    ensures ProductsAfter(s, shop, ids + [pid], status, now, LookupOne(shop, products, pid, status, now))
  {
    var next := LookupOne(shop, products, pid, status, now);
    if pid in s.products {
      WithStatusIdempotent(s.products[pid], status, now);
      assert products[pid].shop == s.products[pid].shop;
    }
    forall k | k in s.products
      ensures next[k] == AfterLookups(s, shop, ids + [pid], status, now, k)
    {
      assert k in ids + [pid] <==> k in ids || k == pid;
    }
  }

  /** One more lookup adds its id to the not-found list exactly when it is an
      ObjectId outside the shop. */
  lemma NotFoundStep(s: Store, shop: Id, ids: seq<Id>, pid: Id, notFound: seq<Id>)
    requires NotFoundAfter(s, shop, ids, notFound)
    ensures ValidObjectId(pid) && !InShop(s, shop, pid) ==> NotFoundAfter(s, shop, ids + [pid], notFound + [pid])
    ensures !(ValidObjectId(pid) && !InShop(s, shop, pid)) ==> NotFoundAfter(s, shop, ids + [pid], notFound)
  {
    assert forall x :: x in ids + [pid] <==> x in ids || x == pid;
    assert forall x :: x in notFound + [pid] <==> x in notFound || x == pid;
  }

  /** Every id is an ObjectId. */
  predicate AllObjectIds(ids: seq<Id>) {
    forall j :: 0 <= j < |ids| ==> ValidObjectId(ids[j])
  }

  /** One more id keeps every id an ObjectId exactly when it is one. */
  lemma AllObjectIdsStep(ids: seq<Id>, pid: Id)
    ensures AllObjectIds(ids + [pid]) <==> AllObjectIds(ids) && ValidObjectId(pid)
  {
    assert forall j :: 0 <= j < |ids| ==> (ids + [pid])[j] == ids[j];
    assert (ids + [pid])[|ids|] == pid;
  }

  /** One lookup of `updateStatus`: the catalog after it, the not-found list
      after it, and whether some lookup so far threw. */
  function LookupEffect(s: Store, shop: Id, pid: Id, status: Status, now: Date,
                        products: map<Id, Product>, notFound: seq<Id>, crashed: bool)
    : (map<Id, Product>, seq<Id>, bool)
  {
    (LookupOne(shop, products, pid, status, now),
     if ValidObjectId(pid) && !InShop(s, shop, pid) then notFound + [pid] else notFound,
     crashed || !ValidObjectId(pid))
  }

  /** A lookup carries the three facts about the lookups so far over to one
      more id. */
  lemma LookupEffectStep(s: Store, shop: Id, seen: seq<Id>, pid: Id, status: Status, now: Date,
                         products: map<Id, Product>, notFound: seq<Id>, crashed: bool)
    requires ProductsAfter(s, shop, seen, status, now, products)
    requires NotFoundAfter(s, shop, seen, notFound)
    requires crashed <==> !AllObjectIds(seen)
    ensures var e := LookupEffect(s, shop, pid, status, now, products, notFound, crashed);
            && ProductsAfter(s, shop, seen + [pid], status, now, e.0)
            && NotFoundAfter(s, shop, seen + [pid], e.1)
            && (e.2 <==> !AllObjectIds(seen + [pid]))
  {
    ProductsStep(s, shop, seen, pid, status, now, products);
    NotFoundStep(s, shop, seen, pid, notFound);
    AllObjectIdsStep(seen, pid);
  }

  /** The lookups of `updateStatus`, one after the other: the products of the
      shop get the status, the other ObjectIds are collected as not found, and
      `crashed` records whether some id was not an ObjectId. */
  method RunLookups(s: Store, shop: Id, productIds: seq<Id>, status: Status, now: Date)
    returns (products: map<Id, Product>, notFound: seq<Id>, crashed: bool)
    ensures ProductsAfter(s, shop, productIds, status, now, products)
    ensures NotFoundAfter(s, shop, productIds, notFound)
    ensures crashed <==> !AllObjectIds(productIds)
  {
    products := s.products;
    notFound := [];
    crashed := false;
    var i := 0;
    while i < |productIds|
      invariant 0 <= i <= |productIds|
      invariant ProductsAfter(s, shop, productIds[..i], status, now, products)
      invariant NotFoundAfter(s, shop, productIds[..i], notFound)
      invariant crashed <==> !AllObjectIds(productIds[..i])
    {
      LookupEffectStep(s, shop, productIds[..i], productIds[i], status, now, products, notFound, crashed);
      assert productIds[..i + 1] == productIds[..i] + [productIds[i]];
      products, notFound, crashed := LookupEffect(s, shop, productIds[i], status, now, products, notFound, crashed).0,
                                     LookupEffect(s, shop, productIds[i], status, now, products, notFound, crashed).1,
                                     LookupEffect(s, shop, productIds[i], status, now, products, notFound, crashed).2;
      i := i + 1;
    }
    assert productIds[..i] == productIds;
  }

  /** `updateStatus` after validation (`bodyValid` is the verdict of its
      schema, which is not part of this model). The lookups run concurrently;
      their effect does not depend on the order, so they are taken one after
      the other. An id that is not an ObjectId throws inside its lookup: the
      request is answered as a crash, but the other lookups still complete. */
  method UpdateStatus(s: Store, user: Id, bodyValid: bool, productIds: seq<Id>, status: Status, now: Date)
    returns (r: Handled<seq<Id>>)
    requires user in s.users
    ensures !bodyValid ==> r.response == Reply(BadRequest, ValidationFailed) && r.store == s
    ensures bodyValid && ShopOfUser(s, user).None? ==>
              r.response == Reply(NotFound, ShopOfUserNotFound) && r.store == s
    ensures bodyValid && ShopOfUser(s, user).Some? ==>
              var shop := ShopOfUser(s, user).value;
              && (forall x :: x in r.data <==> x in productIds && ValidObjectId(x) && !InShop(s, shop, x))
              && r.store.products.Keys == s.products.Keys
              && (forall k :: k in s.products ==>
                    r.store.products[k] == AfterLookups(s, shop, productIds, status, now, k))
              && r.store.(products := s.products) == s
    ensures bodyValid && ShopOfUser(s, user).Some? ==>
              if !AllObjectIds(productIds) then r.response == Crash
              else if r.data == [] then r.response == Reply(Ok, UpdateProductSuccess)
              else r.response == Reply(Ok, ProductNotFound)
    ensures r.events == []
  {
    if !bodyValid {
      return Handled(s, Reply(BadRequest, ValidationFailed), [], []);
    }
    var owner := ShopOfUser(s, user);
    if owner.None? {
      return Handled(s, Reply(NotFound, ShopOfUserNotFound), [], []);
    }
    var products, notFound, crashed := RunLookups(s, owner.value, productIds, status, now);
    var response := if crashed then Crash
                    else if notFound != [] then Reply(Ok, ProductNotFound)
                    else Reply(Ok, UpdateProductSuccess);
    return Handled(s.(products := products), response, notFound, []);
  }

  /** The partition of `updateStatus`: every requested ObjectId is either
      reported as not found or updated, never both. */
  method UpdateStatusPartition(s: Store, user: Id, productIds: seq<Id>, status: Status, now: Date)
    returns (updated: set<Id>, notFound: set<Id>)
    requires user in s.users && ShopOfUser(s, user).Some?
    ensures updated !! notFound
    ensures updated + notFound == set i | 0 <= i < |productIds| && ValidObjectId(productIds[i]) :: productIds[i]
    ensures forall k :: k in updated ==> k in s.products && s.products[k].shop == ShopOfUser(s, user).value
  {
    var r := UpdateStatus(s, user, true, productIds, status, now);
    var shop := ShopOfUser(s, user).value;
    notFound := set x | x in r.data;
    updated := set i | 0 <= i < |productIds| && ValidObjectId(productIds[i]) && InShop(s, shop, productIds[i]) :: productIds[i];
  }

  /** `updateStatus` as written. Every lookup builds
      `new ObjectId(shop._id.toString())` from the SQL `SHOPS` row, which has
      no `_id`, so it throws before its query runs; `Promise.all` rejects and
      the `catch` answers a crash. Only an empty list gets through, with
      nothing to update. */
  function UpdateStatusAsWritten(s: Store, user: Id, bodyValid: bool, productIds: seq<Id>, status: Status, now: Date)
    : (r: Handled<seq<Id>>)
    requires user in s.users
    ensures r.store == s && r.data == [] && r.events == []
    ensures !bodyValid ==> r.response == Reply(BadRequest, ValidationFailed)
    ensures bodyValid && ShopOfUser(s, user).None? ==> r.response == Reply(NotFound, ShopOfUserNotFound)
    ensures bodyValid && ShopOfUser(s, user).Some? ==>
              (r.response == Crash <==> productIds != [])
              && (productIds == [] ==> r.response == Reply(Ok, UpdateProductSuccess))
  {
    if !bodyValid then Handled(s, Reply(BadRequest, ValidationFailed), [], [])
    else if ShopOfUser(s, user).None? then Handled(s, Reply(NotFound, ShopOfUserNotFound), [], [])
    else if productIds == [] then Handled(s, Reply(Ok, UpdateProductSuccess), [], [])
    else Handled(s, Crash, [], [])
  }

  /** The discrepancy: a product of the seller's shop that the corrected
      handler moves to the new status keeps its old one as written. */
  lemma AsWrittenStatusUpdateMissesOwnProducts(s: Store, user: Id, productIds: seq<Id>, status: Status, now: Date, k: Id)
    requires user in s.users && ShopOfUser(s, user).Some?
    requires k in productIds && ValidObjectId(k) && InShop(s, ShopOfUser(s, user).value, k)
    requires s.products[k].status != status
    ensures UpdateStatusAsWritten(s, user, true, productIds, status, now).response == Crash
    ensures UpdateStatusAsWritten(s, user, true, productIds, status, now).store.products[k]
            != AfterLookups(s, ShopOfUser(s, user).value, productIds, status, now, k)
  {
    assert Hit(s, ShopOfUser(s, user).value, productIds, k);
  }
}

=== FILE: schemas.dfy ===
/** The Joi request validators, as predicates over typed request records.

    A request record has one `Option` per key the handler may receive (`None`
    when the key is absent) and `unknownKeys`, the keys the schema does not
    declare: Joi rejects undeclared keys by default, so a valid request has
    none. `Joi.string()` rejects the empty string; `min`/`max` count
    characters. The email grammar is the parameter `isEmail`. */
module Schemas {
  import opened Common

  /** The regex `/^[0-9]*$/`. */
  predicate DigitsOnly(s: string) {
    forall i :: 0 <= i < |s| ==> IsDigit(s[i])
  }

  /** The regex `/^[a-zA-Z0-9]*$/`. */
  predicate Alphanumeric(s: string) {
    forall i :: 0 <= i < |s| ==> IsDigit(s[i]) || ('a' <= s[i] <= 'z') || ('A' <= s[i] <= 'Z')
  }

  /** `Joi.string().min(lo)`, with `.max(hi)` when `hi` is given. */
  predicate TextOk(s: string, lo: nat, hi: Option<nat>) {
    s != "" && lo <= |s| && (hi.None? || |s| <= hi.value)
  }

  predicate OptText(o: Option<string>, lo: nat, hi: Option<nat>) {
    o.None? || TextOk(o.value, lo, hi)
  }

  predicate ReqText(o: Option<string>, lo: nat, hi: Option<nat>) {
    o.Some? && TextOk(o.value, lo, hi)
  }

  /** `Joi.string().required().min(10).max(11).regex(/^[0-9]*$/)`. */
  predicate ReqPhone(o: Option<string>) {
    ReqText(o, 10, Some(11)) && DigitsOnly(o.value)
  }

  /** `Joi.number().min(lo)` on an optional key. */
  predicate OptAtLeast(o: Option<int>, lo: int) {
    o.None? || o.value >= lo
  }

  // ---------------------------------------------------------------------------
  // order-item/update-order-item-status

  datatype ItemStatusRequest = ItemStatusRequest(
    status: Option<Status>,
    orderItemIds: Option<seq<string>>,
    unknownKeys: set<string>)

  /** The statuses a seller may set on an item. */
  predicate SellerItemStatus(st: Status) {
    st == ItemOnDelivery || st == ItemFinished
  }

  predicate ValidItemStatusRequest(r: ItemStatusRequest) {
    && r.unknownKeys == {}
    && r.status.Some? && SellerItemStatus(r.status.value)
    && r.orderItemIds.Some? && |r.orderItemIds.value| >= 1
    && forall i :: 0 <= i < |r.orderItemIds.value| ==> r.orderItemIds.value[i] != ""
  }

  /** A valid request only ever moves an item forward past processing: it can
      name neither `NEW` nor `PROCESSING`, and it lists at least one item. */
  lemma ItemStatusRequestShape(r: ItemStatusRequest)
    requires ValidItemStatusRequest(r)
    ensures r.status.value != ItemNew && r.status.value != ItemProcessing
    ensures r.orderItemIds.value != []
  {
  }

  // ---------------------------------------------------------------------------
  // order/submit-no-login-order

  datatype Receiver = Receiver(
    name: Option<string>,
    phone: Option<string>,
    address: Option<string>,
    longitude: Option<int>,
    latitude: Option<int>,
    unknownKeys: set<string>)

  datatype Buyer = Buyer(
    name: Option<string>,
    phone: Option<string>,
    email: Option<string>,
    unknownKeys: set<string>)

  datatype GuestLine = GuestLine(productId: Option<string>, quantity: Option<int>, unknownKeys: set<string>)

  datatype GuestOrderRequest = GuestOrderRequest(
    receiverInfo: Option<Receiver>,
    buyerInfo: Option<Buyer>,
    items: Option<seq<GuestLine>>,
    deliveryTime: Option<Date>,
    expectedDeliveryTime: Option<string>,
    unknownKeys: set<string>)

  predicate ValidReceiver(r: Receiver) {
    && r.unknownKeys == {}
    && ReqText(r.name, 3, None) && ReqPhone(r.phone) && ReqText(r.address, 0, None)
    && r.longitude.Some? && r.latitude.Some?
  }

  predicate ValidBuyer(b: Buyer, isEmail: string -> bool) {
    && b.unknownKeys == {}
    && ReqText(b.name, 3, None) && ReqPhone(b.phone)
    && OptText(b.email, 0, Some(100)) && (b.email.Some? ==> isEmail(b.email.value))
  }

  predicate ValidGuestLine(l: GuestLine) {
    l.unknownKeys == {} && ReqText(l.productId, 0, None) && l.quantity.Some?
  }

  predicate ValidGuestOrder(r: GuestOrderRequest, isEmail: string -> bool) {
    && r.unknownKeys == {}
    && r.receiverInfo.Some? && ValidReceiver(r.receiverInfo.value)
    && (r.buyerInfo.Some? ==> ValidBuyer(r.buyerInfo.value, isEmail))
    && r.items.Some? && (forall i :: 0 <= i < |r.items.value| ==> ValidGuestLine(r.items.value[i]))
    && r.deliveryTime.Some?
    && OptText(r.expectedDeliveryTime, 0, None)
  }

  /** What a valid guest order guarantees the handler: a receiver with a
      name of at least 3 characters and a 10-11 digit phone, every line
      naming a product and a quantity, and a delivery time. */
  lemma GuestOrderGuarantees(r: GuestOrderRequest, isEmail: string -> bool)
    requires ValidGuestOrder(r, isEmail)
    ensures |r.receiverInfo.value.name.value| >= 3
    ensures 10 <= |r.receiverInfo.value.phone.value| <= 11 && DigitsOnly(r.receiverInfo.value.phone.value)
    ensures r.receiverInfo.value.address.Some? && r.receiverInfo.value.longitude.Some?
            && r.receiverInfo.value.latitude.Some?
    ensures r.buyerInfo.Some? ==> |r.buyerInfo.value.name.value| >= 3
                                  && 10 <= |r.buyerInfo.value.phone.value| <= 11
                                  && (r.buyerInfo.value.email.Some? ==> |r.buyerInfo.value.email.value| <= 100)
    ensures forall i :: 0 <= i < |r.items.value| ==>
              r.items.value[i].productId.Some? && r.items.value[i].quantity.Some?
    ensures r.deliveryTime.Some?
  {
  }

  /** The schema puts no bound on a line's quantity: a guest order whose only
      line asks for a negative quantity passes, and so does one with no buyer
      and no lines. */
  lemma GuestQuantityUnbounded(isEmail: string -> bool)
    ensures ValidGuestOrder(GuestOrderRequest(
              Some(Receiver(Some("Ann"), Some("0123456789"), Some("1 Hoa St"), Some(0), Some(0), {})),
              None, Some([GuestLine(Some("p"), Some(-3), {})]), Some(0), None, {}), isEmail)
    ensures ValidGuestOrder(GuestOrderRequest(
              Some(Receiver(Some("Ann"), Some("0123456789"), Some("1 Hoa St"), Some(0), Some(0), {})),
              None, Some([]), Some(0), None, {}), isEmail)
  {
    assert DigitsOnly("0123456789") by {
      forall i | 0 <= i < |"0123456789"| ensures IsDigit("0123456789"[i]) { }
    }
  }

  // ---------------------------------------------------------------------------
  // product/update-one

  datatype SaleOffInput = SaleOffInput(
    price: Option<int>,
    startDate: Option<Date>,
    endDate: Option<Date>,
    active: Option<bool>,
    unknownKeys: set<string>)

  /** The body of a product update: the keys the schema declares, then the keys
      the handler reads that the schema does not declare. */
  datatype ProductUpdateRequest = ProductUpdateRequest(
    title: Option<string>,
    images: Option<seq<string>>,
    sku: Option<string>,
    description: Option<string>,
    topic: Option<int>,
    originalPrice: Option<int>,
    saleOff: Option<SaleOffInput>,
    design: Option<int>,
    specialOccasion: Option<int>,
    floret: Option<int>,
    city: Option<string>,
    district: Option<int>,
    color: Option<int>,
    seoUrl: Option<string>,
    seoDescription: Option<string>,
    seoImage: Option<string>,
    salePrice: Option<int>,
    saleActive: Option<bool>,
    startDate: Option<Date>,
    endDate: Option<Date>,
    freeShip: Option<bool>,
    keywordList: Option<seq<string>>,
    unknownKeys: set<string>)

  /** The rules on the keys the schema declares; every one is optional. */
  predicate DeclaredUpdateRules(r: ProductUpdateRequest) {
    && OptText(r.title, 3, None)
    && (r.sku.None? || (TextOk(r.sku.value, 3, None) && Alphanumeric(r.sku.value)))
    && OptText(r.description, 3, Some(3000))
    && OptAtLeast(r.originalPrice, 0)
    && (r.saleOff.Some? ==> r.saleOff.value.unknownKeys == {} && OptAtLeast(r.saleOff.value.price, 0))
    && OptText(r.city, 0, None)
    && OptText(r.seoUrl, 0, None) && OptText(r.seoDescription, 0, None) && OptText(r.seoImage, 0, None)
  }

  /** The keys the handler reads but the schema does not declare are absent. */
  predicate NoSaleKeys(r: ProductUpdateRequest) {
    && r.salePrice.None? && r.saleActive.None? && r.startDate.None? && r.endDate.None?
    && r.freeShip.None? && r.keywordList.None?
  }

  /** The update-one schema as written: it does not declare `salePrice`,
      `saleActive`, `startDate`, `endDate`, `freeShip` or `keywordList`, so
      Joi rejects a body carrying any of them. */
  predicate ValidProductUpdateAsWritten(r: ProductUpdateRequest) {
    r.unknownKeys == {} && DeclaredUpdateRules(r) && NoSaleKeys(r)
  }

  /** The schema with the handler's keys declared: `salePrice` at least 0 like
      the other prices, the keywords as strings. */
  predicate ValidProductUpdate(r: ProductUpdateRequest) {
    && r.unknownKeys == {} && DeclaredUpdateRules(r)
    && OptAtLeast(r.salePrice, 0)
    && (r.keywordList.Some? ==> forall i :: 0 <= i < |r.keywordList.value| ==> r.keywordList.value[i] != "")
  }

  /** The corrected schema accepts everything the written one does, and more. */
  lemma ProductUpdateSchemaWidened(r: ProductUpdateRequest)
    ensures ValidProductUpdateAsWritten(r) ==> ValidProductUpdate(r)
    ensures ValidProductUpdateAsWritten(r) <==> ValidProductUpdate(r) && NoSaleKeys(r)
  {
  }

  /** An empty body is a valid update under either schema. */
  lemma EmptyUpdateIsValid()
    ensures var empty := ProductUpdateRequest(None, None, None, None, None, None, None, None, None, None,
                                              None, None, None, None, None, None, None, None, None, None,
                                              None, None, {});
            ValidProductUpdateAsWritten(empty) && ValidProductUpdate(empty)
  {
  }

  // ---------------------------------------------------------------------------
  // shop/shop-register

  datatype ShipAddressInput = ShipAddressInput(city: Option<string>, district: Option<int>, unknownKeys: set<string>)

  datatype ShopRegisterRequest = ShopRegisterRequest(
    name: Option<string>,
    slug: Option<string>,
    images: Option<seq<string>>,
    availableShipCountry: Option<bool>,
    availableShipAddresses: Option<seq<ShipAddressInput>>,
    address: Option<string>,
    longitude: Option<int>,
    latitude: Option<int>,
    unknownKeys: set<string>)

  predicate ValidShipAddress(a: ShipAddressInput) {
    a.unknownKeys == {} && ReqText(a.city, 0, None)
  }

  predicate ValidShopRegister(r: ShopRegisterRequest) {
    && r.unknownKeys == {}
    && ReqText(r.name, 0, None) && ReqText(r.slug, 0, None)
    && r.images.Some? && (forall i :: 0 <= i < |r.images.value| ==> r.images.value[i] != "")
    && r.availableShipCountry.Some?
    && (r.availableShipAddresses.Some? ==>
          forall i :: 0 <= i < |r.availableShipAddresses.value| ==> ValidShipAddress(r.availableShipAddresses.value[i]))
    && ReqText(r.address, 0, None) && r.longitude.Some? && r.latitude.Some?
  }

  /** What a valid registration guarantees: name, slug, address, coordinates,
      the image list and the ship-country flag are present, and every ship
      address names a city. */
  lemma ShopRegisterGuarantees(r: ShopRegisterRequest)
    requires ValidShopRegister(r)
    ensures r.name.Some? && r.name.value != "" && r.slug.Some? && r.slug.value != ""
    ensures r.images.Some? && r.availableShipCountry.Some? && r.address.Some?
            && r.longitude.Some? && r.latitude.Some?
    ensures r.availableShipAddresses.Some? ==>
              forall i :: 0 <= i < |r.availableShipAddresses.value| ==>
                r.availableShipAddresses.value[i].city.Some?
  {
  }

  // ---------------------------------------------------------------------------
  // user/login and user/login-google

  datatype LoginRequest = LoginRequest(
    email: Option<string>,
    username: Option<string>,
    password: Option<string>,
    unknownKeys: set<string>)

  predicate ValidLogin(r: LoginRequest, isEmail: string -> bool) {
    && r.unknownKeys == {}
    && OptText(r.email, 0, Some(100)) && (r.email.Some? ==> isEmail(r.email.value))
    && OptText(r.username, 6, Some(100))
    && OptText(r.password, 6, Some(100))
  }

  /** The keys present in a login body. */
  function LoginKeys(r: LoginRequest): set<string> {
    (if r.email.Some? then {"email"} else {}) + (if r.username.Some? then {"username"} else {})
    + (if r.password.Some? then {"password"} else {}) + r.unknownKeys
  }

  /** A valid login carries only declared keys, each within its bounds; all
      three are optional, so an empty body is valid. */
  lemma LoginShape(r: LoginRequest, isEmail: string -> bool)
    ensures ValidLogin(r, isEmail) ==> LoginKeys(r) <= {"email", "username", "password"}
    ensures ValidLogin(r, isEmail) && r.username.Some? ==> 6 <= |r.username.value| <= 100
    ensures ValidLogin(r, isEmail) && r.password.Some? ==> 6 <= |r.password.value| <= 100
    ensures ValidLogin(r, isEmail) && r.email.Some? ==> |r.email.value| <= 100 && isEmail(r.email.value)
    ensures ValidLogin(LoginRequest(None, None, None, {}), isEmail)
  {
  }

  datatype GoogleLoginRequest = GoogleLoginRequest(
    email: Option<string>,
    name: Option<string>,
    googleId: Option<string>,
    unknownKeys: set<string>)

  predicate ValidGoogleLogin(r: GoogleLoginRequest, isEmail: string -> bool) {
    && r.unknownKeys == {}
    && ReqText(r.email, 0, Some(100)) && isEmail(r.email.value)
    && ReqText(r.name, 3, None)
    && ReqText(r.googleId, 0, None)
  }

  /** A valid Google login has exactly the three declared keys, each within
      its bounds. */
  lemma GoogleLoginShape(r: GoogleLoginRequest, isEmail: string -> bool)
    ensures ValidGoogleLogin(r, isEmail) <==>
              && r.unknownKeys == {}
              && r.email.Some? && r.name.Some? && r.googleId.Some?
              && 0 < |r.email.value| <= 100 && isEmail(r.email.value)
              && |r.name.value| >= 3 && r.googleId.value != ""
  {
  }
}

=== FILE: shops.dfy ===
/** `ShopController`: shop registration, with its guards (one active shop
    per user, unique slugs) and the possible-delivery areas it records, and
    the slug availability check. */
module Shops {
  import opened Common
  import opened Models
  import opened Schemas
  import AddressService

  /** `findShopBySlug`. */
  predicate SlugTaken(s: Store, slug: string) {
    exists sid :: sid in s.shops && s.shops[sid].slug == slug
  }

  predicate Distinct(ids: seq<Id>) {
    forall i, j :: 0 <= i < j < |ids| ==> ids[i] != ids[j]
  }

  function IdSet(ids: seq<Id>): set<Id> {
    set i | 0 <= i < |ids| :: ids[i]
  }

  lemma {:induction false} DistinctIdsCount(ids: seq<Id>)
    requires Distinct(ids)
    ensures |IdSet(ids)| == |ids|
  {
    if ids != [] {
      var rest := ids[1..];
      IdSetCons(ids);
      assert ids[0] !in IdSet(rest);
      DistinctIdsCount(rest);
    }
  }

  /** The ids of a non-empty list are its first id and the ids of the rest. */
  lemma IdSetCons(ids: seq<Id>)
    requires ids != []
    ensures IdSet(ids) == {ids[0]} + IdSet(ids[1..])
  {
    var rest := ids[1..];
    forall k | k in IdSet(ids) ensures k in {ids[0]} + IdSet(rest) {
      var i :| 0 <= i < |ids| && ids[i] == k;
      if i > 0 { assert rest[i - 1] == k; }
    }
    forall k | k in IdSet(rest) ensures k in IdSet(ids) {
      var i :| 0 <= i < |rest| && rest[i] == k;
      assert ids[i + 1] == k;
    }
  }

  /** One possible-delivery address per entry, under the given fresh ids;
      the stored addresses are untouched. */
  function AddPossibleAddresses(m: map<Id, Address>, shop: Id, entries: seq<ShipAddressInput>, ids: seq<Id>, now: Date)
    : (r: map<Id, Address>)
    requires |ids| == |entries| && Distinct(ids)
    requires forall i :: 0 <= i < |ids| ==> ids[i] !in m
    requires forall i :: 0 <= i < |entries| ==> entries[i].city.Some?
    ensures r.Keys == m.Keys + IdSet(ids)
    ensures forall k :: k in m ==> r[k] == m[k]
    ensures forall i :: 0 <= i < |ids| ==>
              r[ids[i]] == AddressService.NewPossibleDeliveryAddress(entries[i].city.value, entries[i].district, shop, now)
    decreases |ids|
  {
    if ids == [] then m
    else
      var a := AddressService.NewPossibleDeliveryAddress(entries[0].city.value, entries[0].district, shop, now);
      var r := AddPossibleAddresses(m[ids[0] := a], shop, entries[1..], ids[1..], now);
      IdSetCons(ids);
      assert forall i :: 1 <= i < |ids| ==> r[ids[i]] == r[ids[1..][i - 1]];
      r
  }

  /** The ids a registration consumes: the new shop and one address per
      requested delivery area. */
  datatype ShopIds = ShopIds(shop: Id, addresses: seq<Id>)

  /** The entries a registration records: an absent list counts as empty. */
  function ShipEntries(req: ShopRegisterRequest): seq<ShipAddressInput> {
    req.availableShipAddresses.GetOr([])
  }

  predicate FreshFor(s: Store, req: ShopRegisterRequest, gen: ShopIds) {
    && gen.shop !in s.shops
    && |gen.addresses| == |ShipEntries(req)| && Distinct(gen.addresses)
    && (forall i :: 0 <= i < |gen.addresses| ==> gen.addresses[i] !in s.addresses)
  }

  /** `registerShop`. The checks run in order: schema, an active shop of the
      user, a taken slug. The new shop awaits confirmation; the shop images
      and the shipping origin are not recorded in the store. */
  function RegisterShop(s: Store, user: Id, req: ShopRegisterRequest, gen: ShopIds, now: Date): (r: Handled<Option<Id>>)
    requires user in s.users && FreshFor(s, req, gen)
    ensures !ValidShopRegister(req) ==> r.response == Reply(BadRequest, ValidationFailed)
    ensures ValidShopRegister(req) ==>
              (r.response == Reply(BadRequest, ExistShopOfUser) <==> ShopOfUser(s, user).Some?)
    ensures ValidShopRegister(req) && ShopOfUser(s, user).None? ==>
              (r.response == Reply(BadRequest, DuplicateSlug) <==> SlugTaken(s, req.slug.value))
    ensures r.response.kind == Ok <==>
              ValidShopRegister(req) && ShopOfUser(s, user).None? && !SlugTaken(s, req.slug.value)
    ensures r.response.kind != Ok ==> r.store == s && r.data.None?
    ensures r.response.kind == Ok ==>
              && r.data == Some(gen.shop)
              && r.store.shops == s.shops[gen.shop := Shop(req.name.value, req.slug.value, PendingOrWaitConfirm,
                                                            req.availableShipCountry.value, user)]
              && r.store.addresses.Keys == s.addresses.Keys + IdSet(gen.addresses)
              && (forall k :: k in s.addresses ==> r.store.addresses[k] == s.addresses[k])
              && (forall i :: 0 <= i < |gen.addresses| ==>
                    var a := r.store.addresses[gen.addresses[i]];
                    && a.addressType == PossibleDelivery && a.shop == Some(gen.shop)
                    && a.city == ShipEntries(req)[i].city && a.district == ShipEntries(req)[i].district)
              && r.store.(shops := s.shops, addresses := s.addresses) == s
    ensures r.events == []
  {
    if !ValidShopRegister(req) then Handled(s, Reply(BadRequest, ValidationFailed), None, [])
    else if ShopOfUser(s, user).Some? then Handled(s, Reply(BadRequest, ExistShopOfUser), None, [])
    else if SlugTaken(s, req.slug.value) then Handled(s, Reply(BadRequest, DuplicateSlug), None, [])
    else
      var shop := Shop(req.name.value, req.slug.value, PendingOrWaitConfirm, req.availableShipCountry.value, user);
      var entries := ShipEntries(req);
      var addresses := AddPossibleAddresses(s.addresses, gen.shop, entries, gen.addresses, now);
      Handled(s.(shops := s.shops[gen.shop := shop], addresses := addresses), Reply(Ok, Success), Some(gen.shop), [])
  }

  /** A registration adds exactly as many addresses as it was given areas. */
  lemma RegisterAddsOneAddressPerArea(s: Store, user: Id, req: ShopRegisterRequest, gen: ShopIds, now: Date)
    requires user in s.users && FreshFor(s, req, gen)
    requires RegisterShop(s, user, req, gen, now).response.kind == Ok
    ensures |RegisterShop(s, user, req, gen, now).store.addresses.Keys| == |s.addresses.Keys| + |ShipEntries(req)|
  {
    var r := RegisterShop(s, user, req, gen, now);
    DistinctIdsCount(gen.addresses);
    assert s.addresses.Keys !! IdSet(gen.addresses);
  }

  /** `checkShopSlug`. `queryValid` is the verdict of the query schema, which
      is not part of this model. */
  function CheckShopSlug(s: Store, queryValid: bool, slug: string): (r: Response)
    ensures !queryValid ==> r == Reply(BadRequest, ValidationFailed)
    ensures queryValid ==> (r == Reply(BadRequest, DuplicateSlug) <==> SlugTaken(s, slug))
    ensures queryValid ==> (r == Reply(Ok, Success) <==> !SlugTaken(s, slug))
  {
    if !queryValid then Reply(BadRequest, ValidationFailed)
    else if SlugTaken(s, slug) then Reply(BadRequest, DuplicateSlug)
    else Reply(Ok, Success)
  }

  /** The slug check and the registration agree: a user without an active
      shop registers a valid request exactly when the slug lookup calls its slug
      free, and afterwards the lookup calls it taken. */
  lemma SlugCheckPredictsRegistration(s: Store, user: Id, req: ShopRegisterRequest, gen: ShopIds, now: Date)
    requires user in s.users && FreshFor(s, req, gen)
    requires ValidShopRegister(req) && ShopOfUser(s, user).None?
    ensures var r := RegisterShop(s, user, req, gen, now);
            && (r.response.kind == Ok <==> CheckShopSlug(s, true, req.slug.value) == Reply(Ok, Success))
            && (r.response.kind == Ok ==> CheckShopSlug(r.store, true, req.slug.value) == Reply(BadRequest, DuplicateSlug))
  {
    var r := RegisterShop(s, user, req, gen, now);
    if r.response.kind == Ok {
      assert r.store.shops[gen.shop].slug == req.slug.value;
    }
  }

  /** A shop still awaiting confirmation does not count as the user's shop,
      so its owner may register another one. */
  lemma PendingShopDoesNotBlock(s: Store, user: Id, req: ShopRegisterRequest, gen: ShopIds, now: Date)
    requires user in s.users && FreshFor(s, req, gen)
    requires ValidShopRegister(req) && !SlugTaken(s, req.slug.value)
    requires var sid := s.users[user].shopsId;
             sid.Some? && sid.value in s.shops && s.shops[sid.value].status == PendingOrWaitConfirm
    ensures RegisterShop(s, user, req, gen, now).response == Reply(Ok, Success)
  {
  }

  /** Registration does not link the new shop to its owner: whatever status the
      shop is later given, `findShopOfUser` never answers it for that owner,
      because the owner's `shopsId` is never made to name it. */
  lemma RegistrationLeavesShopUnlinked(s: Store, user: Id, req: ShopRegisterRequest, gen: ShopIds, now: Date,
                                       later: Status)
    requires user in s.users && FreshFor(s, req, gen)
    requires s.users[user].shopsId != Some(gen.shop)
    requires RegisterShop(s, user, req, gen, now).response.kind == Ok
    ensures var s1 := RegisterShop(s, user, req, gen, now).store;
            && s1.shops[gen.shop].user == user
            && ShopOfUser(s1.(shops := s1.shops[gen.shop := s1.shops[gen.shop].(status := later)]), user)
               != Some(gen.shop)
  {
    var s1 := RegisterShop(s, user, req, gen, now).store;
    assert s1.users == s.users;
  }
}

=== FILE: shopservice.dfy ===
/** The query builders of `ShopService`: a Sequelize `where`/`order`/paging
    object for the product list and the shop list, and MongoDB aggregation
    pipelines for waiting shops, the products of a shop and the shop list;
    plus `updateShop`. Queries are values; running them is not modelled. */
module ShopService {
  import opened Common
  import opened Models

  // ---------------------------------------------------------------------------
  // Pagination

  /** The `(page - 1) * limit` rows skipped, and the `limit` rows taken. */
  datatype Window = Window(skip: int, take: int)

  function PageWindow(page: int, limit: int): Window {
    Window((page - 1) * limit, limit)
  }

  /** Consecutive pages tile the result: page 1 starts at the first row, and
      each page starts where the previous one ends. */
  lemma PagesTile(page: int, limit: int)
    ensures PageWindow(1, limit).skip == 0
    ensures PageWindow(page + 1, limit).skip == PageWindow(page, limit).skip + PageWindow(page, limit).take
    ensures limit >= 0 && page >= 1 ==> PageWindow(page, limit).skip >= 0
  {
  }

  // ---------------------------------------------------------------------------
  // Filters

  /** The status condition: a given status, or "anything but deleted". */
  datatype StatusFilter = StatusIs(code: int) | StatusNotDeleted

  /** Whether a row with status `code` passes the filter, `deleted` being the
      code of `Status.DELETE`. */
  predicate Admits(f: StatusFilter, code: int, deleted: int) {
    match f
    case StatusIs(c) => code == c
    case StatusNotDeleted => code != deleted
  }

  /** The status rule both product builders share: a truthy status filters on
      itself; a missing or zero status hides the deleted rows only. */
  function StatusRule(status: Option<int>): (f: StatusFilter)
    ensures forall code, deleted :: Admits(f, code, deleted) <==>
              if TruthyNum(status) then code == status.value else code != deleted
  {
    if TruthyNum(status) then StatusIs(status.value) else StatusNotDeleted
  }

  // ---------------------------------------------------------------------------
  // Sequelize queries

  /** `IQueryProductsOfShop`. */
  datatype ProductsQuery = ProductsQuery(
    limit: int,
    page: int,
    sortBy: Option<string>,
    sortDirection: Option<string>,
    status: Option<int>,
    approvedStatus: Option<int>,
    title: Option<string>,
    shopId: Id)

  /** `IQueryListShop`; `sb`/`sd` are the sort field and direction. */
  datatype ShopsQuery = ShopsQuery(
    name: Option<string>,
    limit: int,
    page: int,
    status: Option<int>,
    sb: Option<string>,
    sd: Option<string>)

  /** The one entry of `order: [order]`: empty, or `[field, direction]`. */
  datatype OrderClause = Unordered | OrderBy(field: string, direction: Option<string>)

  /** A `where` condition on products; `titleLike` is an `Op.like` pattern. */
  datatype ProductWhere = ProductWhere(approvedStatus: Option<int>, status: StatusFilter, titleLike: Option<string>)

  datatype ProductSqlQuery = ProductSqlQuery(
    where: ProductWhere,
    order: OrderClause,
    window: Window,
    includes: string)

  function OrderOf(field: Option<string>, direction: Option<string>): (r: OrderClause)
    ensures r.OrderBy? <==> TruthyStr(field)
    ensures r.OrderBy? ==> r.field == field.value && r.direction == direction
  {
    if TruthyStr(field) then OrderBy(field.value, direction) else Unordered
  }

  /** `buildQueryGetProductsOfShop`. */
  function ProductsOfShopQuery(q: ProductsQuery): (r: ProductSqlQuery)
    ensures r.where.approvedStatus.Some? <==> TruthyNum(q.approvedStatus)
    ensures r.where.approvedStatus.Some? ==> r.where.approvedStatus == q.approvedStatus
    ensures r.where.status == StatusRule(q.status)
    ensures r.where.titleLike.Some? <==> TruthyStr(q.title)
    ensures r.where.titleLike.Some? ==> r.where.titleLike == q.title
    ensures r.order.OrderBy? <==> TruthyStr(q.sortBy)
    ensures r.order.OrderBy? ==> r.order.field == q.sortBy.value && r.order.direction == q.sortDirection
    ensures r.window == PageWindow(q.page, q.limit)
    ensures r.includes == "shopHasProductInfo"
  {
    ProductSqlQuery(
      ProductWhere(OrNullNum(q.approvedStatus), StatusRule(q.status), OrNullStr(q.title)),
      OrderOf(q.sortBy, q.sortDirection), PageWindow(q.page, q.limit), "shopHasProductInfo")
  }

  /** The product query does not depend on `shopId`. */
  lemma ProductsQueryIgnoresShop(q: ProductsQuery, other: Id)
    ensures ProductsOfShopQuery(q.(shopId := other)) == ProductsOfShopQuery(q)
  {
  }

  datatype ShopSqlQuery = ShopSqlQuery(nameLike: Option<string>, order: OrderClause, window: Window, includes: string)

  /** `buildQueryGetListShop`. */
  function ListShopQuery(q: ShopsQuery): (r: ShopSqlQuery)
    ensures r.nameLike.Some? <==> TruthyStr(q.name)
    ensures r.nameLike.Some? ==> r.nameLike == q.name
    ensures r.order.OrderBy? <==> TruthyStr(q.sb)
    ensures r.order.OrderBy? ==> r.order.field == q.sb.value && r.order.direction == q.sd
    ensures r.window == PageWindow(q.page, q.limit)
    ensures r.includes == "userInfo"
  {
    ShopSqlQuery(OrNullStr(q.name), OrderOf(q.sb, q.sd), PageWindow(q.page, q.limit), "userInfo")
  }

  /** The shop query ignores the requested status. */
  lemma ListShopQueryIgnoresStatus(q: ShopsQuery, other: Option<int>)
    ensures ListShopQuery(q.(status := other)) == ListShopQuery(q)
  {
  }

  // ---------------------------------------------------------------------------
  // Aggregation pipelines

  datatype Match =
    | MatchUser(user: string)
    | MatchProducts(shop: Id, approvedStatus: Option<int>, status: StatusFilter, titleRegex: Option<string>)
    | MatchShops(nameRegex: Option<string>, shopStatus: Option<int>)

  /** The value of a `$sort` key: a number (1 or -1), or, in the waiting-shop
      pipeline, the direction text itself. */
  datatype SortValue = SortNumber(n: int) | SortText(text: string)

  datatype Stage =
    | MatchStage(m: Match)
    | Sort(field: string, value: SortValue)
    | Lookup(from: string, localField: string, foreignField: string, alias: string)
    | Unwind(path: string)
    | Facet(window: Window)

  /** The `$facet` stage appears exactly once, as the last stage. */
  predicate FacetLast(stages: seq<Stage>) {
    |stages| >= 1 && stages[|stages| - 1].Facet?
    && forall i :: 0 <= i < |stages| - 1 ==> !stages[i].Facet?
  }

  /** The number of stages of a kind. */
  function CountMatch(stages: seq<Stage>): nat {
    if stages == [] then 0 else (if stages[0].MatchStage? then 1 else 0) + CountMatch(stages[1..])
  }

  function CountSort(stages: seq<Stage>): nat {
    if stages == [] then 0 else (if stages[0].Sort? then 1 else 0) + CountSort(stages[1..])
  }

  /** `IQueryWaitingShop`. */
  datatype WaitingQuery = WaitingQuery(
    limit: int,
    page: int,
    sortBy: Option<string>,
    sortDirection: Option<string>,
    userId: Option<string>)

  /** `buildStageQueryShopWaiting`. */
  function WaitingShopStages(q: WaitingQuery): (r: seq<Stage>)
    ensures FacetLast(r) && r[|r| - 1] == Facet(PageWindow(q.page, q.limit))
    ensures CountMatch(r) == (if TruthyStr(q.userId) then 1 else 0)
    ensures CountSort(r) == (if TruthyStr(q.sortBy) then 1 else 0)
    ensures |r| == CountMatch(r) + CountSort(r) + 1
    ensures TruthyStr(q.userId) ==> r[0] == MatchStage(MatchUser(q.userId.value))
    ensures TruthyStr(q.sortBy) ==>
              r[|r| - 2] == Sort(q.sortBy.value,
                                 SortText(if TruthyStr(q.sortDirection) then q.sortDirection.value else "ASC"))
  {
    var matchPart := if TruthyStr(q.userId) then [MatchStage(MatchUser(q.userId.value))] else [];
    var direction := if TruthyStr(q.sortDirection) then q.sortDirection.value else "ASC";
    var sortPart := if TruthyStr(q.sortBy) then [Sort(q.sortBy.value, SortText(direction))] else [];
    var r := matchPart + sortPart + [Facet(PageWindow(q.page, q.limit))];
    CountsOfParts(matchPart, sortPart, PageWindow(q.page, q.limit));
    r
  }

  /** The stage counts of `matchPart + sortPart + [facet]`. */
  lemma CountsOfParts(matchPart: seq<Stage>, sortPart: seq<Stage>, w: Window)
    requires |matchPart| <= 1 && (forall i :: 0 <= i < |matchPart| ==> matchPart[i].MatchStage?)
    requires |sortPart| <= 1 && (forall i :: 0 <= i < |sortPart| ==> sortPart[i].Sort?)
    ensures CountMatch(matchPart + sortPart + [Facet(w)]) == |matchPart|
    ensures CountSort(matchPart + sortPart + [Facet(w)]) == |sortPart|
  {
    var tail := sortPart + [Facet(w)];
    assert CountMatch([Facet(w)]) == 0 && CountSort([Facet(w)]) == 0 by {
      assert [Facet(w)][1..] == [];
    }
    if sortPart != [] {
      assert tail[1..] == [Facet(w)];
    } else {
      assert tail == [Facet(w)];
    }
    if matchPart != [] {
      assert (matchPart + tail)[1..] == tail;
    } else {
      assert matchPart + sortPart + [Facet(w)] == tail;
    }
  }

  /** `buildStageQueryProductOfShop`: `$match`, then `$sort`, then `$facet`.
      The shop is matched as `new ObjectId(shopId)`, which throws when the id
      is malformed; the stages here compare the id as given and do not model
      that throw. */
  function ProductOfShopStages(q: ProductsQuery): (r: seq<Stage>)
    ensures |r| == 3 && r[0].MatchStage? && r[1].Sort? && FacetLast(r)
    ensures r[2] == Facet(PageWindow(q.page, q.limit))
    ensures r[0].m.MatchProducts? && r[0].m.shop == q.shopId
    ensures r[0].m.status == StatusRule(q.status)
    ensures r[0].m.approvedStatus.Some? <==> TruthyNum(q.approvedStatus)
    ensures r[0].m.titleRegex.Some? <==> TruthyStr(q.title)
    ensures TruthyStr(q.sortBy) ==>
              r[1] == Sort(q.sortBy.value, SortNumber(if q.sortDirection == Some("ASC") then 1 else -1))
    ensures !TruthyStr(q.sortBy) ==> r[1] == Sort("updatedAt", SortNumber(-1))
  {
    var m := MatchProducts(q.shopId, OrNullNum(q.approvedStatus), StatusRule(q.status), OrNullStr(q.title));
    var sort := if TruthyStr(q.sortBy)
                then Sort(q.sortBy.value, SortNumber(if q.sortDirection == Some("ASC") then 1 else -1))
                else Sort("updatedAt", SortNumber(-1));
    [MatchStage(m), sort, Facet(PageWindow(q.page, q.limit))]
  }

  /** The SQL query and the pipeline over products share their filters: the
      same approved status, the same status rule, the same page window, and a
      title condition exactly when the other has one, with the same pattern
      text. The pattern is read differently by each: `LIKE` with no wildcard
      matches the whole title, `$regex` with option `i` any part of it. */
  lemma ProductFiltersAgree(q: ProductsQuery)
    ensures var w := ProductsOfShopQuery(q).where;
            var m := ProductOfShopStages(q)[0].m;
            w.approvedStatus == m.approvedStatus && w.status == m.status
            && w.titleLike == m.titleRegex
            && ProductsOfShopQuery(q).window == ProductOfShopStages(q)[2].window
  {
  }

  /** `buildStageGetListShop`: an optional `$match`, the user `$lookup` and
      `$unwind`, an optional `$sort`, then `$facet`. */
  function ListShopStages(q: ShopsQuery): (r: seq<Stage>)
    ensures FacetLast(r) && r[|r| - 1] == Facet(PageWindow(q.page, q.limit))
    ensures r[0].MatchStage? <==> TruthyStr(q.name) || TruthyNum(q.status)
    ensures r[0].MatchStage? ==> r[0] == MatchStage(MatchShops(OrNullStr(q.name), OrNullNum(q.status)))
    ensures var base := if r[0].MatchStage? then 1 else 0;
            |r| == base + 3 + (if TruthyStr(q.sb) then 1 else 0)
            && r[base] == Lookup("users", "user", "_id", "userInfo")
            && r[base + 1] == Unwind("$userInfo")
    ensures TruthyStr(q.sb) ==>
              r[|r| - 2] == Sort(q.sb.value, SortNumber(if q.sd == Some("ASC") then 1 else -1))
  {
    var matchPart := if TruthyStr(q.name) || TruthyNum(q.status)
                     then [MatchStage(MatchShops(OrNullStr(q.name), OrNullNum(q.status)))] else [];
    var sortPart := if TruthyStr(q.sb) then [Sort(q.sb.value, SortNumber(if q.sd == Some("ASC") then 1 else -1))] else [];
    matchPart + [Lookup("users", "user", "_id", "userInfo"), Unwind("$userInfo")] + sortPart
    + [Facet(PageWindow(q.page, q.limit))]
  }

  // ---------------------------------------------------------------------------
  // updateShop

  /** `updateShop`: the flag is written only when the argument is truthy, so
      it can be set but never cleared. */
  function UpdateShop(shop: Shop, availableShipCountry: Option<bool>): (r: Shop)
    ensures r.availableShipCountry <==> shop.availableShipCountry || TruthyBool(availableShipCountry)
    ensures r.(availableShipCountry := shop.availableShipCountry) == shop
  {
    if TruthyBool(availableShipCountry) then shop.(availableShipCountry := true) else shop
  }

  /** The flag never goes from true to false, and a repeated update changes
      nothing more. */
  lemma UpdateShopMonotone(shop: Shop, a: Option<bool>, b: Option<bool>)
    ensures shop.availableShipCountry ==> UpdateShop(shop, a).availableShipCountry
    ensures UpdateShop(shop, Some(false)) == shop
    ensures UpdateShop(UpdateShop(shop, a), a) == UpdateShop(shop, a)
    ensures UpdateShop(UpdateShop(shop, a), b) == UpdateShop(UpdateShop(shop, b), a)
  {
  }
}
